=== FILE: README.md ===
# Cyclic bandwidth by SAT and CSP: a Dafny model

The programs compute the cyclic bandwidth of a graph. A labelling gives the n
vertices the labels 1..n, one label per vertex. Its cyclic bandwidth is the
largest cyclic distance `min(|i - j|, n - |i - j|)` over the edges. The cyclic
bandwidth of the graph is the least such value over all labellings.

This model covers six parts of the programs:

- **Variables** (`Variables`). The M3 front-ends number the variables
  `x(i, j) = n(i - 1) + j`, with `s` and `t` offset by n² and 2n². They
  decode a model literal back with `(v - 1) // n + 1, (v - 1) % n + 1`.
- **Formulas** (`Cnf`, `AtMostOne`, `StaticClauses`, `DynamicClauses`,
  `Encoding`). Clauses are `seq<seq<int>>` and assignments are
  `int -> bool`.
  - The static clauses say "each vertex one label, each label one vertex,
    vertex 1 has label 1". The pairwise front-ends build them with pairwise
    at-most-one clauses. The `m3bis` front-end builds them with a
    sequential chain over the auxiliary `s`/`t` variables.
  - The per-bound clauses forbid label pairs farther apart than k on every
    edge.
- **Search drivers** (`Search`, `Permutations`). Each is a step function, a
  loop function and an invariant, taken over an abstract probe
  `int -> Option<M>`:
  - the binary search of the M3 front-ends;
  - the decrementing search of `m3_opti.py`;
  - the permutation front-end's search, with its probe point
    `k_low + k_high // 2`.
- **Estimators** (`Estimator`). These are the degree classifier of the M3
  front-ends, and the cascade of `m2_alldiff_symetrie.py`. The cascade
  covers clique, star, path, cycle, tree (two breadth-first searches) and
  the density fallback.
- **CSP front-ends** (`Permutations`, `Alldiff`). These are the allowed-pair
  list, the list of permutations starting with 1, the probe, and the single
  solve of the all-different front-end.
- **End-to-end runs** (`Pipeline`, `Alldiff`). The SAT solver is a function
  parameter `Formula -> Option<seq<int>>`. The only assumption about it is
  `Cnf.OracleSound`: it returns a model exactly when the formula is
  satisfiable.

`Instances` holds concrete graphs behind the findings below: two disjoint
triangles, an edge next to a triangle, a spider (a star with one edge
subdivided), and the complete graphs on 8 and 9 vertices.

The module-global `n` of the programs is an explicit parameter everywhere.
Python's `//` and `%` are applied to non-negative operands or positive
divisors only, where Dafny's operators agree with them.

## Model

| member | source | states |
|---|---|---|
| Cyclic.Dist | M3/m3bis_opti2.py:33-41 | For labels in 1..n the distance lies in [0, n // 2], is 0 exactly when the labels are equal, and never exceeds abs(i - j). |
| Cyclic.DistSymmetric | M3/m3_opti2.py:33-41 | The cyclic distance does not depend on the order of the two labels. |
| Cyclic.RotateKeepsDist | M3/m3_opti.py:30-36 | Shifting every label by the same amount modulo n keeps every cyclic distance. This is why fixing one label loses no solution. |
| Graphs.NormaliseKeepsBound | M3/m3bis_opti2.py:164-165 | Rotating any labelling so that vertex 1 gets label 1 gives a labelling with the same edge bound. |
| Graphs.FeasibleIffFromOne | M3/m3_opti2.py:136-137 | Cyclic bandwidth at most k holds exactly when a labelling with vertex 1 labelled 1 meets k. So the symmetry-breaking unit clause changes no answer. |
| Graphs.HalfIsFeasible | M3/m3_opti.py:84 | Every graph with a vertex has a labelling from 1 within n // 2, so the decrementing search's first bound is satisfiable. |
| Variables.FamilyRanges | M3/m3bis_opti2.py:44-69 | On the grid 1..n × 1..n, x, s and t land in the disjoint ranges [1, n²], [n² + 1, 2n²] and [2n² + 1, 3n²]. |
| Variables.XInjective | M3/m3bis_opti2.py:44-51 | Distinct grid cells get distinct x ids. |
| Variables.DecodeX | M3/m3_opti.py:154-159 | Every id in [1, n²] decodes to a grid cell whose x id is that id. |
| Variables.DecodeAfterX | M3/m3_opti.py:38-45 | Decoding the x id of a grid cell gives back the cell. |
| Variables.DecodeFiltered | M3/m3bis_opti2.py:205-210 | The filtered decoding answers exactly for 0 < v ≤ n², and then with the cell whose x id is v. |
| Variables.DecodeUnfiltered | M3/m3_opti2.py:178-183 | The unfiltered decoding answers for every positive literal, and agrees with the filtered one on [1, n²]. |
| Variables.AuxiliaryIdsIgnored | M3/m3bis_opti2.py:204-210 | The ids of s and t never decode to a vertex/label pair; an x id decodes to its own cell. |
| AtMostOne.Coverage | M3/m3_opti2.py:119-121 | The coverage clause of a row holds exactly when some variable of the row is true. |
| AtMostOne.PairwiseCount | M3/m3_opti2.py:125-127 | The pairwise encoding of a row of n variables has n(n - 1) / 2 clauses. |
| AtMostOne.PairwiseMeaning | M3/m3_opti2.py:125-127 | The pairwise clauses hold exactly when at most one variable of the row is true. |
| AtMostOne.ChainCount | M3/m3bis_opti2.py:147-151 | The chain encoding of a row of n variables has 3n - 2 clauses. |
| AtMostOne.ChainSound | M3/m3bis_opti2.py:147-151 | Any assignment satisfying the chain has at most one true variable in the row. |
| AtMostOne.ChainComplete | M3/m3bis_opti2.py:147-151 | A row with at most one true variable satisfies the chain once each auxiliary s(i, j) is set to "the label is at most j". |
| StaticClauses.PairwiseStaticMeaning | M3/m3_opti2.py:118-137 | An assignment satisfies the pairwise static set exactly when its x variables form a permutation matrix with x(1, 1) true. |
| StaticClauses.PairwiseStaticWithin | M3/m3_opti.py:89-108 | Every literal of the pairwise static set is an x id, of absolute value at most n². |
| StaticClauses.ChainStaticSound | M3/m3bis_opti2.py:141-165 | Every model of the chain static set is a permutation matrix on x with x(1, 1) true; the t chains give the per-label half. |
| StaticClauses.ChainStaticComplete | M3/m3bis_opti2.py:141-165 | Every permutation matrix with x(1, 1) true extends, by the prefix flags on s and t, to a model of the chain static set. |
| StaticClauses.EncodingsAgree | M3/m3bis_opti2.py:141-165 | Every model of the chain set satisfies the pairwise set, and every model of the pairwise set extends to a model of the chain set. So both have the same x-projections. |
| DynamicClauses.DynamicMembers | M3/m3bis_opti2.py:174-178 | A clause is emitted for bound k exactly when it forbids labels j ≠ m at cyclic distance greater than k on an edge. |
| DynamicClauses.ForbidMeaning | M3/m3bis_opti2.py:178 | The clause for edge (i, l) and labels (j, m) holds exactly when x(i, j) and x(l, m) are not both true. |
| DynamicClauses.DynamicMeaning | M3/m3_opti2.py:145-151 | The per-bound clauses hold exactly when no edge carries a label pair farther apart than k. |
| DynamicClauses.DynamicMonotone | M3/m3_opti.py:116-121 | The clauses for a larger bound are a subset of those for a smaller one. |
| DynamicClauses.DynamicHoldsUpward | M3/m3_opti2.py:145-151 | An assignment satisfying the clauses for k satisfies those for every larger bound. |
| DynamicClauses.DynamicWithin | M3/m3_opti2.py:145-151 | Every literal of the per-bound clauses is an x id, of absolute value at most n². |
| Encoding.MatrixGivesLabelling | M3/m3_opti2.py:118-134 | A permutation matrix read row by row is a labelling, and x(i, j) is true exactly when vertex i has label j. |
| Encoding.LabellingGivesMatrix | M3/m3_opti2.py:118-134 | Every labelling, written as x(i, lab(i)), is a permutation matrix. |
| Encoding.RespectsIffWithinBound | M3/m3bis_opti2.py:173-178 | For a labelling the per-bound clauses hold exactly when every edge has cyclic distance at most k. |
| Encoding.PairwiseProbeSound | M3/m3_opti2.py:139-151 | Every model of the pairwise formula for k reads as a labelling with vertex 1 labelled 1 that keeps every edge within k. |
| Encoding.ChainProbeSound | M3/m3bis_opti2.py:167-178 | Every model of the chain formula for k reads as a labelling with vertex 1 labelled 1 that keeps every edge within k. |
| Encoding.LabellingGivesModels | M3/m3bis_opti2.py:141-178 | Every labelling with vertex 1 labelled 1 that meets k gives a model of the pairwise formula and, extended, of the chain formula. |
| Encoding.PairwiseProbeIff | M3/m3_opti2.py:139-151 | The pairwise formula for k ≥ 0 is satisfiable exactly when the cyclic bandwidth is at most k. |
| Encoding.ChainProbeIff | M3/m3bis_opti2.py:167-178 | The chain formula for k ≥ 0 is satisfiable exactly when the cyclic bandwidth is at most k. |
| Encoding.LinearProbeSameModels | M3/m3_opti.py:107-124 | Re-appending x(1, 1) in every iteration duplicates a clause and changes no model. |
| Encoding.ProbesMonotone | M3/m3_opti.py:116-121 | For all three front-ends, satisfiability at k implies satisfiability at every larger bound. |
| Encoding.EmptyGraph | M3/m3_opti2.py:118-137 | With no vertex every bound is feasible, and the all-true assignment satisfies both formulas. |
| Decoding.DecodeMatrix | M3/m3bis_opti2.py:203-210 | When the true x variables form a permutation matrix, the filtered decoding of the model is that labelling as a map from vertex to label. |
| Decoding.DecodeFilteredEntries | M3/m3bis_opti2.py:205-210 | Every entry of the filtered decoding is a grid cell whose x id is a literal of the model. |
| Decoding.NoFilterNeeded | M3/m3_opti2.py:177-183 | When every literal lies within n², decoding without the `v <= n*n` filter gives the same map. |
| Decoding.FilterNeededForChain | M3/m3bis_opti2.py:206 | Without the filter the id s(1, 1) would decode to the non-vertex n + 1. |
| Decoding.ChainModelDecodes | M3/m3bis_opti2.py:203-210 | A model of the chain formula decodes to a labelling from 1 that meets k. |
| Decoding.PairwiseModelDecodes | M3/m3_opti2.py:176-183 | A model of the pairwise formula decodes, without a filter, to a labelling from 1 that meets k. |
| Decoding.MaxDistIsMax | M3/m3_opti2.py:187 | The printed maximum is absent only without edges. Otherwise it bounds every edge's distance and is attained by one edge. |
| Decoding.ReportedIsLeastBound | M3/m3bis_opti2.py:214 | The bandwidth line of a labelling is the least k the labelling meets. |
| Search.MidInWindow | M3/m3_opti2.py:164-171 | A midpoint probe lies in [k_low, k_high], and each step at least halves the window. |
| Search.BinaryStepKeeps | M3/m3bis_opti2.py:188-198 | One step keeps the invariant and strictly shrinks the window. The invariant: old_k is -1 with untouched k_high, or old_k = k_high + 1 is SAT with its model; the bound below k_low is UNSAT; the probe is the midpoint. |
| Search.BinaryLoopKeeps | M3/m3bis_opti2.py:167-198 | The loop ends with the invariant intact and its guard false. |
| Search.BinarySearchFinds | M3/m3bis_opti2.py:134-198 | A kept old_k lies in [1, k_high], is SAT and comes with its own model. There are at most floor(log2 k_high) + 1 probes. Under a monotone probe, old_k stays -1 exactly when nothing in [1, k_high] is SAT, and otherwise it is the least SAT bound. |
| Search.FailureMissedAsWritten | M3/m3bis_opti2.py:200-201 | From a non-negative k_high the written exit test `k == -1` never fires, even when every probe is UNSAT. |
| Search.FailureDetected | M3/m3_opti2.py:173-174 | The corrected test `old_k == -1` leaves no model. Under a monotone probe it fires exactly when nothing in [1, k_high] is SAT. |
| Search.LinearLoopFinds | M3/m3_opti.py:110-147 | From any k the loop keeps -1 exactly when the first probe is UNSAT. Otherwise it keeps the last SAT bound and its model; every bound from there up to the start is SAT, and the bound below is UNSAT or the loop stopped at 1. At most max(1, k) probes. |
| Search.LinearSearchFinds | M3/m3_opti.py:84-147 | Starting at n // 2: old_k = -1 exactly when n // 2 is UNSAT. Otherwise old_k ≤ n // 2 is SAT with its model, the bound below is UNSAT unless old_k ≤ 1, at most max(1, n // 2) probes are made, and under a monotone probe old_k is the least SAT bound. |
| Pipeline.OracleProbeMeaning | M3/m3bis_opti2.py:167-192 | With a sound solver a front-end's probe at k ≥ 0 succeeds exactly when the cyclic bandwidth is at most k, and its model decodes, as that front-end decodes, to a labelling from 1 meeting k. |
| Pipeline.OracleProbeMonotone | M3/m3_opti2.py:139-167 | The probes of every front-end over a sound solver are monotone in k. |
| Pipeline.LinearModelDecodes | M3/m3_opti.py:151-159 | A model of the decrementing front-end's formula decodes, without a filter, to a labelling from 1 that meets k. |
| Pipeline.SolveCorrect | M3/m3bis_opti2.py:134-210 | A binary-search run with the corrected exit test gives no answer exactly when no bound in [1, k_high] is feasible. Otherwise its bound lies in that range, its decoded map is a labelling from 1 meeting the bound, and no smaller positive bound is feasible. |
| Pipeline.SolveFindsBandwidth | M3/m3_opti2.py:111-183 | From the sound start n // 2 a binary-search run on two or more vertices always answers, and with the cyclic bandwidth itself. |
| Pipeline.PrintedOfLabelling | M3/m3_opti2.py:187 | The bandwidth line over the decoded map is the labelling's own largest edge distance. |
| Pipeline.PrintedOfLeast | M3/m3_opti2.py:187 | For a labelling meeting the least feasible bound, the printed bandwidth is absent only without edges and equals that bound unless every edge is a loop. |
| Pipeline.SolvePrints | M3/m3bis_opti2.py:214 | After a successful binary-search run the printed CYCLIC_BANDWIDTH equals the bound found, unless every edge is a loop; it is missing only without edges. |
| Pipeline.LinearRunFinds | M3/m3_opti.py:110-147 | With a sound solver on two or more vertices the decrementing search keeps a SAT bound in [1, n // 2] with its model, below which nothing is feasible. |
| Pipeline.SolveLinearCorrect | M3/m3_opti.py:83-163 | The decrementing front-end on two or more vertices always answers, with the cyclic bandwidth and a labelling from 1 that meets it. |
| Pipeline.RunAsWrittenCrashes | M3/m3bis_opti2.py:200-214 | When no bound up to k_high is feasible, the run as written does not exit with status 1: it decodes an empty model and has no bandwidth to print. |
| Pipeline.RunAsWrittenSucceeds | M3/m3bis_opti2.py:200-214 | When some bound up to k_high is feasible, the run as written prints the labels and bandwidth the corrected front-end answers with, so the two differ only in the failure exit. |
| Estimator.CountDegrees | M2/m2_alldiff_symetrie.py:55-61 | The loop over the edges computes, for every vertex, its number of edge endpoints and its neighbour list in edge order, and the degrees sum to 2·m. |
| Estimator.NeighboursMembers | M2/m2_alldiff_symetrie.py:56-61 | w is in v's neighbour list exactly when (v, w) or (w, v) is an edge. |
| Estimator.NeighboursCount | M2/m2_alldiff_symetrie.py:55-61 | A vertex's neighbour list is as long as its degree. |
| Estimator.Max | M2/m2_alldiff_symetrie.py:65 | The maximum degree bounds every degree and is the degree of some vertex. |
| Estimator.DegreeClassBoundMeaning | M3/m3bis_opti2.py:79-97 | The classifier answers 1 for the path pattern (exactly two vertices of degree 1 and n - 2 of degree 2) and when every degree is 2, and n // 2 for every graph matching neither pattern. Apart from n = 2, 3 it answers 1 only when every degree is 1 or 2. |
| Estimator.Relax | M2/m2_alldiff_symetrie.py:112-117 | The inner loop never changes a distance already set or the dequeued vertex's own. It keeps the farthest pair on a reached vertex of largest distance, and the queue grows only when a vertex is reached. |
| Estimator.RelaxReaches | M2/m2_alldiff_symetrie.py:112-115 | A vertex the inner loop reaches is a neighbour of the dequeued vertex and gets its distance + 1. |
| Estimator.BfsLoop | M2/m2_alldiff_symetrie.py:110-117 | The search ends with an empty queue and keeps every distance set before it. |
| Estimator.BfsWalks | M2/m2_alldiff_symetrie.py:103-117 | Every positive recorded distance belongs to a neighbour of a vertex one step nearer, so it is the length of a walk. |
| Estimator.LevelTurn | M2/m2_alldiff_symetrie.py:110-117 | One turn of the loop keeps the level structure of a breadth-first search: queued distances are in order and span one level, and a vertex that has left the queue is no farther than any queued vertex and has all its neighbours reached, at most one step farther. |
| Estimator.BfsClosed | M2/m2_alldiff_symetrie.py:103-119 | When the search ends, the start has distance 0 and every neighbour of a reached vertex is reached, at most one step farther. |
| Estimator.BfsShortest | M2/m2_alldiff_symetrie.py:103-119 | The end of every walk from the start is reached, at a distance no larger than the walk's length. With BfsWalks, each distance is a shortest walk's length. |
| Estimator.BfsFarthest | M2/m2_alldiff_symetrie.py:103-119 | The search returns a reached vertex of largest distance with that distance, the start keeps distance 0, and the answer is (0, start) when nothing else is reached. |
| Estimator.HalfDiameter | M2/m2_alldiff_symetrie.py:121-124 | The result is ceil(d / 2) for the distance d the second search returns from the first search's far end. |
| Estimator.CeilLog2 | M2/m2_alldiff_symetrie.py:86 | The least c with 2^c ≥ n. |
| Estimator.DensityBound | M2/m2_alldiff_symetrie.py:84-92 | For density below 0.1 the fallback is ceil(log2 n); below 0.5 it is ceil(n / 4); otherwise it is ceil(n / 2). It is at least 1. |
| Estimator.DensityAtLeastTwo | M2/m2_alldiff_symetrie.py:84-90 | From five vertices on the density fallback is at least 2. |
| Estimator.EstimateHub | M2/m2_alldiff_symetrie.py:68-72 | On a graph with a vertex adjacent to every other one (a complete graph, a star) that the clique or star test recognises, the estimate n // 2 is exactly the cyclic bandwidth. |
| Estimator.EstimateOne | M2/m2_alldiff_symetrie.py:74-78 | On five or more vertices and not n - 1 edges, the answer 1 comes only from a degree sequence of 1s and 2s. |
| Estimator.SafeBound | M3/m3bis_opti2.py:97 | n // 2 bounds every labelling's edge distances, and is met by a labelling from 1 when n ≥ 1. |
| Permutations.AllowedPairsMembers | M2/m2_permutations_opti2.py:82 | (i, j) is in the allowed-pair list exactly when both are labels, i ≠ j and their cyclic distance is at most k. |
| Permutations.AllowedPairsSymmetric | M2/m2_alldiff_symetrie.py:165-166 | The allowed-pair list is symmetric. |
| Permutations.AllowedPairsGrow | M2/m2_alldiff_symetrie.py:165-166 | The allowed-pair list grows with k. |
| Permutations.OrderingsSound | M2/m2_permutations_opti2.py:76 | Every ordering of a sequence has its length, takes its elements from it, and is repetition-free when the sequence is. |
| Permutations.OrderingsComplete | M2/m2_permutations_opti2.py:76 | Every repetition-free rearrangement of a repetition-free sequence is one of its orderings. |
| Permutations.PermutationListShape | M2/m2_permutations_opti2.py:76 | The list has (n - 1)! tuples, and a tuple is in it exactly when it is a labelling of 1..n that starts with 1. |
| Permutations.FirstAccepted | M2/m2_permutations_opti2.py:84-90 | The solver's answer is a listed tuple that meets the edge constraints; there is none exactly when no listed tuple does. |
| Permutations.AcceptsMeaning | M2/m2_permutations_opti2.py:84-87 | For a labelling, the edge constraints hold exactly when the graph has no loop and every edge stays within k. |
| Permutations.PermProbeMeaning | M2/m2_permutations_opti2.py:79-95 | A returned tuple is a labelling from 1 within k. The probe succeeds exactly when the graph has no loop and such a labelling exists. |
| Permutations.PermProbeMonotone | M2/m2_permutations_opti2.py:82-87 | The permutation probe is monotone in k. |
| Permutations.PermStepKeeps | M2/m2_permutations_opti2.py:92-102 | One step of the written loop keeps its invariant: the probe is the written point and is at least k_low, a kept old_k sits just above the window with its model, and the bound below k_low is UNSAT. Nothing bounds the probe by k_high. |
| Permutations.PermLoopKeeps | M2/m2_permutations_opti2.py:78-107 | If the written loop stops within the fuel, it stops with that invariant and its guard false. |
| Permutations.PermSearchAgrees | M2/m2_permutations_opti2.py:69-107 | Under a monotone probe that holds at n // 2, a written search that stops keeps the same bound and model as the binary search with the true midpoint. |
| Permutations.PermLoopStuck | M2/m2_permutations_opti2.py:92-102 | On the window [4, 5] with a SAT probe at 6 the written loop repeats the same state for any fuel. |
| Permutations.PermSearchDiverges | M2/m2_permutations_opti2.py:69-107 | On 8 or 9 vertices, a probe UNSAT at 3 and SAT at 6 makes the written search run out of any fuel. |
| Alldiff.SolveAtMeaning | M2/m2_alldiff_symetrie.py:164-190 | A solve at k either gives a labelling from 1 within k, whose bandwidth line is at most k and missing only without edges, or reports Unsat exactly when the graph has a loop or no such labelling exists. |
| Alldiff.RunMeaning | M2/m2_alldiff_symetrie.py:162-190 | A run without --kval fails only where the estimator fails. A labelling it prints starts from 1, keeps every edge within the estimate, and comes with the least bound it meets (absent only without edges). It reports Unsat exactly when the graph has a loop or no labelling from 1 meets the estimate. |
| Alldiff.SolveAtHalf | M2/m2_alldiff_symetrie.py:162-173 | At the bound n // 2 the solve finds a labelling on every loopless graph with a vertex. |
| Instances.TwoTrianglesDegrees | M2/m2_alldiff_symetrie.py:55-61 | Both triangles' vertices have degree 2. |
| Instances.TwoTrianglesEstimates | M3/m3bis_opti2.py:94-95 | On two disjoint triangles the classifier answers 1 and the cascade's cycle test answers 1. |
| Instances.TwoTrianglesNotOne | M3/m3bis_opti2.py:94-95 | Two disjoint triangles have no labelling within 1. |
| Instances.TwoTrianglesTwo | M3/m3bis_opti2.py:97 | The identity labelling keeps both triangles within 2, so their cyclic bandwidth is 2. |
| Instances.TwoTrianglesSearch | M3/m3bis_opti2.py:167-201 | Started at the classifier's bound 1 over a sound probe, the binary search finds nothing; the written exit test misses this and the corrected one catches it. |
| Instances.EdgeAndTriangleDegrees | M3/m3bis_opti2.py:82-88 | The edge 1-2 next to the triangle 3-4-5 has degrees 1, 1, 2, 2, 2. |
| Instances.EdgeAndTriangleBandwidth | M3/m3bis_opti2.py:91-92 | The path test answers 1 for the edge next to a triangle, which has no labelling within 1 and one within 2. |
| Instances.EdgeAndTrianglePattern | M3/m3bis_opti2.py:87-92 | The edge next to a triangle has two vertices of degree 1 and three of degree 2, the path pattern both classifiers test. |
| Instances.EdgeAndTriangleAlldiff | M2/m2_alldiff_symetrie.py:74-75 | The all-different cascade takes the path branch on the edge next to a triangle, estimates 1, and its single solve reports Unsat on a graph of cyclic bandwidth 2. |
| Instances.EdgeAndTriangleSearch | M3/m3bis_opti2.py:167-201 | Started at the classifier's bound 1 for the edge next to a triangle, the binary search over a sound probe finds nothing; the written exit test misses this and the corrected one catches it. |
| Instances.TwoTrianglesAlldiff | M2/m2_alldiff_symetrie.py:162-190 | The all-different front-end solves at the estimate 1 and reports Unsat on a graph of cyclic bandwidth 2. |
| Instances.TwoTrianglesAlldiffHalf | M2/m2_alldiff_symetrie.py:162-173 | At n // 2 = 3 the same solve finds a labelling. |
| Instances.SpiderDegrees | M2/m2_alldiff_symetrie.py:55-61 | The spider (centre 1 with leaves 2, 3, 4, 5 and 7, and 6 hung below 7) has degrees 5, 1, 1, 1, 1, 1, 2. |
| Instances.SpiderWithinFour | M2/m2_alldiff_symetrie.py:103-123 | On the spider's neighbour lists, a search from any vertex records no distance above 4. |
| Instances.SpiderEstimate | M2/m2_alldiff_symetrie.py:80-81 | The spider has n - 1 edges and fails the earlier tests, so the cascade answers half its diameter, at most 2. |
| Instances.SpiderNotTwo | M2/m2_alldiff_symetrie.py:80-81 | The spider's centre has five distinct neighbours, so no labelling meets a bound of 2 or less. |
| Instances.SpiderAlldiff | M2/m2_alldiff_symetrie.py:162-190 | Solved once at the tree branch's estimate, the spider gets Unsat, although a labelling from 1 meets n // 2 = 3. |
| Graphs.NeighbourhoodBound | M2/m2_alldiff_symetrie.py:68-72 | A vertex with d distinct neighbours forces every feasible bound k to satisfy d ≤ 2k: only 2k labels lie within cyclic distance k of a label. |
| Graphs.HubBound | M2/m2_alldiff_symetrie.py:68-72 | A graph on two or more vertices with a vertex adjacent to every other has cyclic bandwidth exactly n // 2. |
| Instances.CliqueBandwidth | M2/m2_permutations_opti2.py:82-87 | The complete graph on 8 or 9 vertices has no labelling from 1 within 3 and has one within 4. |
| Instances.CliqueProbe | M2/m2_permutations_opti2.py:82-90 | Its permutation probe is UNSAT at 3 and SAT at every bound from 4 on, 6 included. |
| Instances.CliqueSearchDiverges | M2/m2_permutations_opti2.py:69-107 | The written permutation search on the complete graph with 8 or 9 vertices runs out of any fuel. |

## Left out

- Reading the graph file (`lire_graphe` in every program) and all text parsing: the model takes a `Graph` value. `Graphs.Valid` is assumed, not guaranteed: the reader does not check that endpoints lie in 1..n, and what an out-of-range endpoint causes (ids outside the grid in the clauses, an IndexError in the degree count) is not modelled.
- Command-line parsing, trace printing, the vertex/label listing and exit codes: exits appear only as the `Run` and `Answer` values that stand for them.
- The `--kval` option is left out. `m3_opti.py` and `m3bis_opti2.py` parse it but never use it; `m3_opti2.py` has no such option. In `m2_alldiff_symetrie.py` it stays a string, so comparing a distance with it fails. `Alldiff.Run` models only the run without it.
- The SAT solver (Glucose3): a function parameter, with `Cnf.OracleSound` as the only assumption.
- The CSP solver (ACE through pycsp3): the probe returns the first accepted tuple of the permutation list. Every property stated of it holds for any accepted tuple.
- Solver outcomes other than SAT and UNSAT (exit status 2 in `m2_permutations_opti2.py` and `m2_alldiff_symetrie.py`): the probes are total.
- Floating point in the density heuristic: `2m / (n(n - 1))` compared with 0.1 and 0.5, `ceil(log2 n)`, `ceil(n / 4)` and `ceil(n / 2)` are modelled as exact rational and integer arithmetic (`20m < n(n - 1)`, `4m < n(n - 1)`). Rounding at the exact thresholds may differ.
- Python failures become `None`:
  - `max` of an empty degree list (no vertex) in `Estimator.Estimate`;
  - the density division by zero on a single vertex with two or more loops (with one loop the degree list is `[2]` and the cycle test answers 1 first);
  - a missing key or an empty edge list when printing the bandwidth (`Pipeline.Printed`, `Decoding.MaxDist`).
- The SAT front-ends with no vertex: `Pipeline.Solve`, `Pipeline.SolveLinear` and `Permutations.PermProbe` require at least one vertex. For an empty graph `Encoding.EmptyGraph` states what the formulas are.
- The decrementing front-end decodes and prints only in trace mode. `Pipeline.SolveLinear` always decodes.
- Permutations.PermSearch: runs on fuel, because the written loop need not terminate; `None` means the fuel ran out.
- Estimator.BfsFarthest: does not prove that the second search, started from the far end of the first, measures a tree's diameter. The recorded distances are shown to be shortest walk lengths (`Estimator.BfsWalks`, `Estimator.BfsShortest`), and the pair returned is a reached vertex of largest distance.
- Estimator.Estimate: the density fallback promises nothing about the cyclic bandwidth; only its thresholds and ceilings are stated (`Estimator.DensityBound`). The tree and cycle branches are shown unsound by the findings below.
- Estimator.Relax: does not state that each vertex is queued at most once, beyond the fact that the queue grows only when a vertex is reached.
- The thin front-ends `M1/m1_classique.py`, `M1/m1_symetrie.py`, `M2/m2.py` and `M2/m2_alldiff.py` are not part of this model. Their own logic, the cyclic distance and the allowed-pair list, is covered by `Cyclic` and `Permutations`.
- The permutation front-end's own final print indexes the labels of the last SAT answer. It is not modelled, because it is printed only in trace mode.

## Findings

| source | as written | input that shows it | evidently intended | confidence | as-written member | corrected member |
|---|---|---|---|---|---|---|
| M3/m3bis_opti2.py:200 | The "no solution" exit tests `k == -1`, but k never drops below 0 from a non-negative start (the same test is at M3/m3_opti2.py:173 and M2/m2_permutations_opti2.py:109). | Two disjoint triangles: the classifier gives k_high = 1, the only probe is UNSAT, and the run goes on to decode an empty model and fails printing the bandwidth. | Exit with status 1 when `old_k == -1`. | not executed | Search.FailureMissedAsWritten, Pipeline.RunAsWrittenCrashes, Instances.TwoTrianglesSearch | Search.FailureDetected, Pipeline.Solve with Pipeline.SolveCorrect |
| M2/m2_permutations_opti2.py:71 | The probe point is `k_low + k_high // 2` (also at lines 97 and 102), not the midpoint. It can exceed k_high, and the loop can repeat one state forever. | The complete graph on 8 vertices: probe 3 is UNSAT, the window becomes [4, 4] and the probe is 6 (SAT); then the window is [4, 5] and the probe is 6 again, forever. | The midpoint `(k_low + k_high) // 2` as in the M3 front-ends. | not executed | Permutations.PermSearch with Permutations.PermSearchDiverges and Instances.CliqueSearchDiverges | Search.BinarySearch with Search.BinarySearchFinds and Permutations.PermSearchAgrees |
| M3/m3bis_opti2.py:91-95 | The degree tests treat every graph whose degrees are all 2 as a cycle, and every graph with two vertices of degree 1 and the rest of degree 2 as a path, and answer 1. The same path and cycle tests are in M2/m2_alldiff_symetrie.py:74-78. | Two disjoint triangles, or the edge 1-2 next to the triangle 3-4-5: cyclic bandwidth 2, estimate 1. The binary search then finds nothing, and the all-different front-end reports Unsat. | An upper bound on the cyclic bandwidth, such as n // 2. | not executed | Estimator.DegreeClassBound and Estimator.Estimate, with Instances.TwoTrianglesEstimates, Instances.TwoTrianglesNotOne, Instances.TwoTrianglesAlldiff, Instances.EdgeAndTriangleBandwidth, Instances.EdgeAndTriangleSearch, Instances.EdgeAndTriangleAlldiff | Estimator.SafeBound with Pipeline.SolveFindsBandwidth and Alldiff.SolveAtHalf |
| M2/m2_alldiff_symetrie.py:80-81 | The tree branch answers half the diameter, which a vertex of high degree can exceed: a vertex with d neighbours needs a bound of at least d / 2. | The spider: a star with centre 1 and leaves 2, 3, 4, 5 and 7, with 6 hung below 7 (n = 7, 6 edges). It passes none of the earlier tests, its diameter is 3 and the estimate is 2, but the centre's five neighbours force a bound of 3. The single solve then reports Unsat. | An upper bound on the cyclic bandwidth, such as n // 2. | not executed | Estimator.Estimate with Instances.SpiderEstimate, Instances.SpiderNotTwo, Instances.SpiderAlldiff | Estimator.SafeBound with Alldiff.SolveAtHalf |

=== FILE: alldiff.dfy ===
/**
  The all-different front-end. It solves once, at the bound the estimator
  cascade gives: the labels are distinct values in 1..n, vertex 1 gets the
  label 1, and every edge maps to a pair of the allowed-pair list. These are
  the constraints of one probe of the permutation front-end, so a run is that
  probe at the estimated bound, followed by the reported bandwidth.
 */
module Alldiff {
  import opened Wrappers
  import opened Graphs
  import opened Decoding
  import opened Estimator
  import opened Permutations

  /** What a run prints: the labels and the bandwidth line, or "Unsat". */
  datatype Answer = Labelled(labels: seq<int>, bandwidth: Option<int>) | NoLabelling

  /** One solve at bound k. */
  function SolveAt(g: Graph, k: int): Answer
    requires Valid(g) && g.n >= 1
  {
    ListLengths(g.n);
    match PermProbe(g, k)
    case None => NoLabelling
    case Some(t) => Labelled(t, ReportedBandwidth(g, t))
  }

  /** A run without a bound on the command line: the estimate, then one solve.
      None where the estimator itself fails (no vertex, or one vertex with
      two or more loops, where the density test divides by zero). */
  function Run(g: Graph): Option<Answer>
    requires Valid(g)
  {
    match Estimate(g)
    case None => None
    case Some(k) => if g.n == 0 then None else Some(SolveAt(g, k))
  }

  /** A Labelled answer is a labelling from 1 whose edges stay within k, and its
      bandwidth line is that labelling's largest edge distance (absent only
      without edges); the answer is NoLabelling exactly when no such labelling
      exists or the graph has a loop. */
  lemma SolveAtMeaning(g: Graph, k: int)
    requires Valid(g) && g.n >= 1
    ensures SolveAt(g, k).Labelled? ==>
              var t := SolveAt(g, k).labels;
              && IsLabelling(g.n, t) && t[0] == 1 && WithinBound(g, t, k)
              && SolveAt(g, k).bandwidth == ReportedBandwidth(g, t)
              && (SolveAt(g, k).bandwidth.Some? ==> SolveAt(g, k).bandwidth.value <= k)
              && (SolveAt(g, k).bandwidth.None? <==> |g.edges| == 0)
    ensures SolveAt(g, k).NoLabelling? <==> !(Loopless(g) && FeasibleFromOne(g, k))
  {
    PermProbeMeaning(g, k);
    if SolveAt(g, k).Labelled? {
      var t := SolveAt(g, k).labels;
      ReportedIsLeastBound(g, t);
    }
  }

  /** End to end: a run fails only where the estimator does. Otherwise a
      Labelled answer is a labelling from 1 that keeps every edge within the
      estimate, printed with the least bound it meets, and the answer is
      NoLabelling exactly when g has a loop or no labelling from 1 meets the
      estimate. */
  lemma RunMeaning(g: Graph)
    requires Valid(g)
    ensures Run(g).None? <==> Estimate(g).None?
    ensures Run(g).Some? && Run(g).value.Labelled? ==>
              var k, t, b := Estimate(g).value, Run(g).value.labels, Run(g).value.bandwidth;
              && IsLabelling(g.n, t) && t[0] == 1 && WithinBound(g, t, k)
              && (b.None? <==> |g.edges| == 0)
              && (b.Some? ==> b.value <= k && WithinBound(g, t, b.value)
                              && forall k' :: k' < b.value ==> !WithinBound(g, t, k'))
    ensures Run(g) == Some(NoLabelling) <==>
              Estimate(g).Some? && !(Loopless(g) && FeasibleFromOne(g, Estimate(g).value))
  {
    if Estimate(g).Some? {
      var k := Estimate(g).value;
      SolveAtMeaning(g, k);
      if SolveAt(g, k).Labelled? {
        ReportedIsLeastBound(g, SolveAt(g, k).labels);
      }
    }
  }

  /** At the bound n / 2 the solve finds a labelling on every loopless graph:
      this is the bound a run can always rely on. */
  lemma SolveAtHalf(g: Graph)
    requires Valid(g) && g.n >= 1 && Loopless(g)
    ensures SolveAt(g, g.n / 2).Labelled?
  {
    assert SafeBound(g) == g.n / 2;
    SolveAtMeaning(g, g.n / 2);
  }
}

=== FILE: atmostone.dfy ===
/**
  The two at-most-one gadgets over a sequence of variables `vs`: the
  quadratic pairwise encoding and the linear sequential (chain) encoding
  with auxiliary variables `ss`, where ss[q] means "some vs[p] with p <= q holds".
 */
module AtMostOne {
  import opened Cyclic
  import opened Cnf

  predicate Positive(vs: seq<int>)
  {
    forall p :: 0 <= p < |vs| ==> vs[p] > 0
  }

  predicate AtMostOneTrue(a: Assignment, vs: seq<int>)
  {
    forall p, q :: 0 <= p < q < |vs| ==> !(a(vs[p]) && a(vs[q]))
  }

  predicate SomeTrue(a: Assignment, vs: seq<int>)
  {
    exists p :: 0 <= p < |vs| && a(vs[p])
  }

  /** Exactly one variable of vs is true. */
  predicate ExactlyOne(a: Assignment, vs: seq<int>)
  {
    SomeTrue(a, vs) && AtMostOneTrue(a, vs)
  }

  /** The position of the first true variable of vs, or |vs| when none is true. */
  function FirstTrue(a: Assignment, vs: seq<int>): (r: nat)
    ensures r <= |vs|
    ensures forall q :: 0 <= q < r ==> !a(vs[q])
    ensures r < |vs| ==> a(vs[r])
    ensures SomeTrue(a, vs) <==> r < |vs|
  {
    if |vs| == 0 then 0
    else if a(vs[0]) then 0
    else
      var r := FirstTrue(a, vs[1..]);
      assert forall q :: 1 <= q < |vs| ==> vs[q] == vs[1..][q - 1];
      1 + r
  }

  /** Two assignments that agree on vs agree on what the gadgets say about vs. */
  lemma SameOn(a: Assignment, b: Assignment, vs: seq<int>)
    requires forall q :: 0 <= q < |vs| ==> a(vs[q]) == b(vs[q])
    ensures SomeTrue(a, vs) == SomeTrue(b, vs)
    ensures AtMostOneTrue(a, vs) == AtMostOneTrue(b, vs)
    ensures ExactlyOne(a, vs) == ExactlyOne(b, vs)
  {
    if SomeTrue(a, vs) {
      var p :| 0 <= p < |vs| && a(vs[p]);
      assert b(vs[p]);
    }
    if SomeTrue(b, vs) {
      var p :| 0 <= p < |vs| && b(vs[p]);
      assert a(vs[p]);
    }
  }

  /** The coverage clause [vs[0], ..., vs[n-1]] says at least one variable holds. */
  lemma Coverage(a: Assignment, vs: seq<int>)
    requires Positive(vs)
    ensures ClauseHolds(a, vs) <==> SomeTrue(a, vs)
  {
    if SomeTrue(a, vs) {
      var p :| 0 <= p < |vs| && a(vs[p]);
      assert LitHolds(a, vs[p]);
    }
  }

  /** Clauses [-vs[p], -vs[q]] for every q > p: vs[p] excludes each later variable. */
  function PairsWith(vs: seq<int>, p: nat): (f: Formula)
    requires p < |vs|
  {
    seq(|vs| - p - 1, d requires 0 <= d < |vs| - p - 1 => [-vs[p], -vs[p + 1 + d]])
  }

  /** Clauses [-vs[p'], -vs[q]] for p <= p' < q, in the source's loop order. */
  function PairsFrom(vs: seq<int>, p: nat): (f: Formula)
    requires p <= |vs|
    decreases |vs| - p
  {
    if p == |vs| then [] else PairsWith(vs, p) + PairsFrom(vs, p + 1)
  }

  function Pairwise(vs: seq<int>): Formula
  {
    PairsFrom(vs, 0)
  }

  lemma {:induction false} PairsFromCount(vs: seq<int>, p: nat)
    requires p <= |vs|
    ensures 2 * |PairsFrom(vs, p)| == (|vs| - p) * (|vs| - p - 1)
    decreases |vs| - p
  {
    if p < |vs| {
      var m := |vs| - p;
      PairsFromCount(vs, p + 1);
      assert |PairsFrom(vs, p)| == (m - 1) + |PairsFrom(vs, p + 1)|;
      assert 2 * (m - 1) + (m - 1) * (m - 2) == m * (m - 1);
    }
  }

  /** The pairwise gadget has n(n-1)/2 clauses for n variables. */
  lemma PairwiseCount(vs: seq<int>)
    ensures |Pairwise(vs)| == |vs| * (|vs| - 1) / 2
  {
    PairsFromCount(vs, 0);
  }

  lemma PairsWithMeaning(a: Assignment, vs: seq<int>, p: nat)
    requires Positive(vs) && p < |vs|
    ensures Holds(a, PairsWith(vs, p)) <==> forall q :: p < q < |vs| ==> !(a(vs[p]) && a(vs[q]))
  {
    var head := PairsWith(vs, p);
    HoldsAll(a, head);
    forall q | p < q < |vs| ensures ClauseHolds(a, head[q - p - 1]) <==> !(a(vs[p]) && a(vs[q])) {
      NegPair(a, vs[p], vs[q]);
    }
    if forall q :: p < q < |vs| ==> !(a(vs[p]) && a(vs[q])) {
      forall c | c in head ensures ClauseHolds(a, c) {
        var d :| 0 <= d < |head| && head[d] == c;
        assert c == head[(p + 1 + d) - p - 1];
      }
    }
  }

  lemma {:induction false} PairsFromMeaning(a: Assignment, vs: seq<int>, p: nat)
    requires Positive(vs) && p <= |vs|
    ensures Holds(a, PairsFrom(vs, p)) <==>
            forall p', q :: p <= p' < q < |vs| ==> !(a(vs[p']) && a(vs[q]))
    decreases |vs| - p
  {
    if p < |vs| {
      PairsFromMeaning(a, vs, p + 1);
      HoldsConcat(a, PairsWith(vs, p), PairsFrom(vs, p + 1));
      PairsWithMeaning(a, vs, p);
      if Holds(a, PairsFrom(vs, p)) {
        forall p', q | p <= p' < q < |vs| ensures !(a(vs[p']) && a(vs[q])) {
          if p' > p {
            assert p + 1 <= p' < q < |vs|;
          }
        }
      }
    }
  }

  /** The pairwise gadget mentions only the variables it constrains. */
  lemma {:induction false} PairsFromWithin(vs: seq<int>, p: nat, b: int)
    requires p <= |vs|
    requires forall q :: 0 <= q < |vs| ==> Abs(vs[q]) <= b
    ensures LiteralsWithin(PairsFrom(vs, p), b)
    decreases |vs| - p
  {
    if p < |vs| {
      var head := PairsWith(vs, p);
      forall c, l | c in head && l in c ensures Abs(l) <= b {
        var d :| 0 <= d < |head| && head[d] == c;
        assert l == -vs[p] || l == -vs[p + 1 + d];
      }
      PairsFromWithin(vs, p + 1, b);
      LiteralsWithinConcat(head, PairsFrom(vs, p + 1), b);
    }
  }

  /** The pairwise gadget holds exactly when at most one variable is true. */
  lemma PairwiseMeaning(a: Assignment, vs: seq<int>)
    requires Positive(vs)
    ensures Holds(a, Pairwise(vs)) <==> AtMostOneTrue(a, vs)
  {
    PairsFromMeaning(a, vs, 0);
  }

  /** Chain links q = j .. n-1, three clauses per link. */
  function ChainSteps(vs: seq<int>, ss: seq<int>, j: nat): (f: Formula)
    requires |vs| == |ss| && 1 <= j <= |vs|
    decreases |vs| - j
  {
    if j == |vs| then []
    else [[-ss[j - 1], ss[j]], [-vs[j], ss[j]], [-vs[j], -ss[j - 1]]] + ChainSteps(vs, ss, j + 1)
  }

  /** The sequential gadget: [-vs[0], ss[0]] followed by the links. */
  function Chain(vs: seq<int>, ss: seq<int>): Formula
    requires |vs| == |ss|
  {
    if |vs| == 0 then [] else [[-vs[0], ss[0]]] + ChainSteps(vs, ss, 1)
  }

  lemma {:induction false} ChainStepsCount(vs: seq<int>, ss: seq<int>, j: nat)
    requires |vs| == |ss| && 1 <= j <= |vs|
    ensures |ChainSteps(vs, ss, j)| == 3 * (|vs| - j)
    decreases |vs| - j
  {
    if j < |vs| {
      ChainStepsCount(vs, ss, j + 1);
    }
  }

  /** The chain gadget has 3n - 2 clauses for n >= 1 variables. */
  lemma ChainCount(vs: seq<int>, ss: seq<int>)
    requires |vs| == |ss| >= 1
    ensures |Chain(vs, ss)| == 3 * |vs| - 2
  {
    ChainStepsCount(vs, ss, 1);
  }

  /** What the chain clauses say, link by link. */
  predicate Links(a: Assignment, vs: seq<int>, ss: seq<int>, j: nat)
    requires |vs| == |ss|
  {
    forall q :: j <= q < |vs| && q >= 1 ==>
      && (a(ss[q - 1]) ==> a(ss[q]))
      && (a(vs[q]) ==> a(ss[q]))
      && !(a(vs[q]) && a(ss[q - 1]))
  }

  predicate ChainLinks(a: Assignment, vs: seq<int>, ss: seq<int>)
    requires |vs| == |ss|
  {
    (|vs| >= 1 ==> (a(vs[0]) ==> a(ss[0]))) && Links(a, vs, ss, 1)
  }

  lemma {:induction false} ChainStepsMeaning(a: Assignment, vs: seq<int>, ss: seq<int>, j: nat)
    requires |vs| == |ss| && 1 <= j <= |vs| && Positive(vs) && Positive(ss)
    ensures Holds(a, ChainSteps(vs, ss, j)) <==> Links(a, vs, ss, j)
    decreases |vs| - j
  {
    if j < |vs| {
      var head := [[-ss[j - 1], ss[j]], [-vs[j], ss[j]], [-vs[j], -ss[j - 1]]];
      ChainStepsMeaning(a, vs, ss, j + 1);
      HoldsConcat(a, head, ChainSteps(vs, ss, j + 1));
      Implication(a, ss[j - 1], ss[j]);
      Implication(a, vs[j], ss[j]);
      NegPair(a, vs[j], ss[j - 1]);
      HoldsAll(a, head);
      assert forall c :: c in head <==> c == head[0] || c == head[1] || c == head[2];
    }
  }

  lemma ChainMeaning(a: Assignment, vs: seq<int>, ss: seq<int>)
    requires |vs| == |ss| && Positive(vs) && Positive(ss)
    ensures Holds(a, Chain(vs, ss)) <==> ChainLinks(a, vs, ss)
  {
    if |vs| > 0 {
      ChainStepsMeaning(a, vs, ss, 1);
      HoldsConcat(a, [[-vs[0], ss[0]]], ChainSteps(vs, ss, 1));
      Implication(a, vs[0], ss[0]);
      HoldsAll(a, [[-vs[0], ss[0]]]);
    }
  }

  /** Under the chain links, a true vs[p] makes every later ss[q] true. */
  lemma {:induction false} ChainPropagates(a: Assignment, vs: seq<int>, ss: seq<int>, p: nat, q: nat)
    requires |vs| == |ss| && ChainLinks(a, vs, ss)
    requires p <= q < |vs| && a(vs[p])
    ensures a(ss[q])
    decreases q
  {
    if q > p {
      ChainPropagates(a, vs, ss, p, q - 1);
    }
  }

  /** Soundness of the chain gadget: any assignment satisfying it has at most one true vs. */
  lemma ChainSound(a: Assignment, vs: seq<int>, ss: seq<int>)
    requires |vs| == |ss| && Positive(vs) && Positive(ss)
    requires Holds(a, Chain(vs, ss))
    ensures AtMostOneTrue(a, vs)
  {
    ChainMeaning(a, vs, ss);
    forall p, q | 0 <= p < q < |vs|
      ensures !(a(vs[p]) && a(vs[q]))
    {
      if a(vs[p]) {
        ChainPropagates(a, vs, ss, p, q - 1);
      }
    }
  }

  /** ss[q] holds exactly when some vs[p] with p <= q holds. */
  predicate PrefixFlags(a: Assignment, vs: seq<int>, ss: seq<int>)
    requires |vs| == |ss|
  {
    forall q :: 0 <= q < |ss| ==> (a(ss[q]) <==> exists p :: 0 <= p <= q && a(vs[p]))
  }

  /** Completeness of the chain gadget: at most one true vs, extended with prefix
      flags on ss, satisfies it. */
  lemma ChainComplete(a: Assignment, vs: seq<int>, ss: seq<int>)
    requires |vs| == |ss| && Positive(vs) && Positive(ss)
    requires AtMostOneTrue(a, vs) && PrefixFlags(a, vs, ss)
    ensures Holds(a, Chain(vs, ss))
  {
    forall q | 1 <= q < |vs|
      ensures (a(ss[q - 1]) ==> a(ss[q])) && (a(vs[q]) ==> a(ss[q])) && !(a(vs[q]) && a(ss[q - 1]))
    {
      if a(ss[q - 1]) {
        var p :| 0 <= p <= q - 1 && a(vs[p]);
        assert 0 <= p <= q && a(vs[p]);
      }
      if a(vs[q]) {
        assert 0 <= q <= q && a(vs[q]);
      }
    }
    if |vs| >= 1 && a(vs[0]) {
      assert 0 <= 0 <= 0 && a(vs[0]);
    }
    ChainMeaning(a, vs, ss);
  }
}

=== FILE: cnf.dfy ===
/**
  Clauses and formulas in conjunctive normal form over integer variable ids:
  a positive literal v asserts variable v, a negative literal -v its negation.
 */
module Cnf {
  import opened Cyclic
  import opened Wrappers

  type Clause = seq<int>

  type Formula = seq<Clause>

  type Assignment = int -> bool

  predicate LitHolds(a: Assignment, l: int)
  {
    if l > 0 then a(l) else !a(-l)
  }

  /** A clause is a disjunction of its literals. */
  predicate ClauseHolds(a: Assignment, c: Clause)
  {
    exists l :: l in c && LitHolds(a, l)
  }

  /** A formula is the conjunction of its clauses. */
  predicate Holds(a: Assignment, f: Formula)
    decreases |f|
  {
    |f| == 0 || (Holds(a, f[..|f| - 1]) && ClauseHolds(a, f[|f| - 1]))
  }

  lemma {:induction false} HoldsAll(a: Assignment, f: Formula)
    ensures Holds(a, f) <==> forall c :: c in f ==> ClauseHolds(a, c)
    decreases |f|
  {
    if |f| > 0 {
      var p := f[..|f| - 1];
      HoldsAll(a, p);
      assert forall c :: c in f <==> c in p || c == f[|f| - 1];
    }
  }

  ghost predicate Satisfiable(f: Formula)
  {
    exists a: Assignment :: Holds(a, f)
  }

  lemma HoldsConcat(a: Assignment, f: Formula, g: Formula)
    ensures Holds(a, f + g) <==> Holds(a, f) && Holds(a, g)
  {
    HoldsAll(a, f);
    HoldsAll(a, g);
    HoldsAll(a, f + g);
    assert forall c :: c in f + g <==> c in f || c in g;
  }

  /** A formula whose clauses all occur in f is implied by f. */
  lemma HoldsSubset(a: Assignment, f: Formula, g: Formula)
    requires forall c :: c in g ==> c in f
    requires Holds(a, f)
    ensures Holds(a, g)
  {
    HoldsAll(a, f);
    HoldsAll(a, g);
  }

  /** Two literals: "not v or not w". */
  lemma NegPair(a: Assignment, v: int, w: int)
    requires v > 0 && w > 0
    ensures ClauseHolds(a, [-v, -w]) <==> !(a(v) && a(w))
  {
    assert -v in [-v, -w] && -w in [-v, -w];
  }

  /** Two literals: "not v or w", that is "v implies w". */
  lemma Implication(a: Assignment, v: int, w: int)
    requires v > 0 && w > 0
    ensures ClauseHolds(a, [-v, w]) <==> (a(v) ==> a(w))
  {
    assert -v in [-v, w] && w in [-v, w];
  }

  lemma Unit(a: Assignment, v: int)
    requires v > 0
    ensures ClauseHolds(a, [v]) <==> a(v)
    ensures Holds(a, [[v]]) <==> a(v)
  {
    assert v in [v];
    assert [[v]][..0] == [];
  }

  /** Largest variable id mentioned by a clause. */
  function ClauseBound(c: Clause): (b: nat)
    ensures forall l :: l in c ==> Abs(l) <= b
  {
    if |c| == 0 then 0
    else
      var rest := ClauseBound(c[..|c| - 1]);
      assert forall l :: l in c ==> l in c[..|c| - 1] || l == c[|c| - 1];
      if Abs(c[|c| - 1]) > rest then Abs(c[|c| - 1]) else rest
  }

  /** Largest variable id mentioned by a formula (the solver numbers its model up to it). */
  function VarBound(f: Formula): (b: nat)
    ensures forall c, l :: c in f && l in c ==> Abs(l) <= b
  {
    if |f| == 0 then 0
    else
      var rest := VarBound(f[..|f| - 1]);
      var last := ClauseBound(f[|f| - 1]);
      assert forall c :: c in f ==> c in f[..|f| - 1] || c == f[|f| - 1];
      if last > rest then last else rest
  }

  /** Every literal of f names a variable of id at most b. */
  predicate LiteralsWithin(f: Formula, b: int)
  {
    forall c, l :: c in f && l in c ==> Abs(l) <= b
  }

  lemma LiteralsWithinConcat(f: Formula, g: Formula, b: int)
    ensures LiteralsWithin(f + g, b) <==> LiteralsWithin(f, b) && LiteralsWithin(g, b)
  {
    assert forall c :: c in f + g <==> c in f || c in g;
  }

  lemma {:induction false} VarBoundAtMost(f: Formula, b: nat)
    requires LiteralsWithin(f, b)
    ensures VarBound(f) <= b
  {
    if |f| > 0 {
      var p := f[..|f| - 1];
      assert forall c :: c in p ==> c in f;
      VarBoundAtMost(p, b);
      ClauseBoundAtMost(f[|f| - 1], b);
    }
  }

  lemma {:induction false} ClauseBoundAtMost(c: Clause, b: nat)
    requires forall l :: l in c ==> Abs(l) <= b
    ensures ClauseBound(c) <= b
  {
    if |c| > 0 {
      var p := c[..|c| - 1];
      assert forall l :: l in p ==> l in c;
      ClauseBoundAtMost(p, b);
    }
  }

  /** The assignment described by a solver model given as a list of literals. */
  function AssignmentOf(m: seq<int>): Assignment
  {
    v => v in m
  }

  /** m is a model of f as a SAT solver reports it: every positive literal of m
      is a true variable, the clauses hold, and m mentions no variable beyond f's. */
  predicate IsModelOf(m: seq<int>, f: Formula)
  {
    && Holds(AssignmentOf(m), f)
    && forall l :: l in m ==> l != 0 && Abs(l) <= VarBound(f)
  }

  /** The contract of the external SAT oracle: a model when one exists, None otherwise. */
  ghost predicate OracleSound(oracle: Formula -> Option<seq<int>>)
  {
    forall f :: (oracle(f).Some? ==> IsModelOf(oracle(f).value, f)) && (oracle(f).None? ==> !Satisfiable(f))
  }
}

=== FILE: cyclic.dfy ===
/**
  Cyclic distance between two labels placed on a cycle of n positions
  (`dist_cyclique` in every front-end). The source reads `n` from a module
  global; here it is an explicit parameter.
 */
module Cyclic {

  function Abs(x: int): nat
  {
    if x < 0 then -x else x
  }

  /** min(|i - j|, n - |i - j|); Python's `min` keeps its first argument on ties. */
  function Dist(n: int, i: int, j: int): (r: int)
    ensures 1 <= i <= n && 1 <= j <= n ==> 0 <= r <= n / 2
    ensures 1 <= i <= n && 1 <= j <= n ==> (r == 0 <==> i == j)
    ensures r <= Abs(i - j)
  {
    var d := Abs(i - j);
    if d <= n - d then d else n - d
  }

  lemma DistSymmetric(n: int, i: int, j: int)
    ensures Dist(n, i, j) == Dist(n, j, i)
  {
    assert Abs(i - j) == Abs(j - i);
  }

  /** Label i turned r steps around the cycle of labels 1..n. */
  function Rotate(n: int, i: int, r: int): (l: int)
    requires n >= 1
    ensures 1 <= l <= n
  {
    (i - 1 + r) % n + 1
  }

  lemma MulBounds(n: int, t: int)
    requires n >= 1
    requires -2 * n < n * t < 2 * n
    ensures -1 <= t <= 1
  {
  }

  /** Rotating both labels by the same amount keeps their cyclic distance:
      the reason fixing vertex 1 to label 1 loses no labelling. */
  lemma RotateKeepsDist(n: int, i: int, j: int, r: int)
    requires n >= 1 && 1 <= i <= n && 1 <= j <= n
    ensures Dist(n, Rotate(n, i, r), Rotate(n, j, r)) == Dist(n, i, j)
  {
    var a := i - 1 + r;
    var b := j - 1 + r;
    var qa := a / n;
    var qb := b / n;
    assert a == n * qa + a % n;
    assert b == n * qb + b % n;
    var d := i - j;
    var d' := Rotate(n, i, r) - Rotate(n, j, r);
    assert d' == a % n - b % n;
    assert d' == d - n * (qa - qb);
    MulBounds(n, qa - qb);
    if qa - qb == 1 {
      assert d' == d - n;
    } else if qa - qb == -1 {
      assert d' == d + n;
    } else {
      assert d' == d;
    }
  }
}

=== FILE: decoding.dfy ===
/**
  Reading a labelling back from a solver model. The model is a list of
  literals; every positive one that decodes to (vertex, label) overwrites the
  entry for that vertex in a map. The chain front-end keeps only ids in
  (0, n²]; the pairwise front-ends decode every positive id.
 */
module Decoding {
  import opened Wrappers
  import opened Cyclic
  import opened Cnf
  import opened Variables
  import opened Graphs
  import opened StaticClauses
  import opened Encoding

  function DecodeLiteral(n: nat, v: int, filtered: bool): Option<(int, int)>
    requires n >= 1
  {
    if filtered then DecodeFiltered(n, v) else DecodeUnfiltered(n, v)
  }

  /** The label map built by the decoding loop over the model list m. */
  function DecodeModel(n: nat, m: seq<int>, filtered: bool): map<int, int>
    requires n >= 1
    decreases |m|
  {
    if |m| == 0 then map[]
    else
      var d := DecodeModel(n, m[..|m| - 1], filtered);
      match DecodeLiteral(n, m[|m| - 1], filtered)
      case None => d
      case Some(p) => d[p.0 := p.1]
  }

  /** A labelling as the map vertex -> label. */
  function AsMap(lab: seq<int>): map<int, int>
  {
    map i | 1 <= i <= |lab| :: Label(lab, i)
  }

  /** The label of vertex i. */
  function Label(lab: seq<int>, i: int): int
    requires 1 <= i <= |lab|
  {
    lab[i - 1]
  }

  /** The vertices whose x variable for their label in lab occurs in p, mapped to that label. */
  function Seen(n: nat, lab: seq<int>, p: seq<int>): map<int, int>
    requires |lab| == n
  {
    map i | 1 <= i <= n && X(n, i, Label(lab, i)) in p :: Label(lab, i)
  }

  /** With the filter, every entry of the map comes from a positive x literal of the model. */
  lemma {:induction false} DecodeFilteredEntries(n: nat, m: seq<int>)
    requires n >= 1
    ensures forall i :: i in DecodeModel(n, m, true) ==>
              InGrid(n, i, DecodeModel(n, m, true)[i]) && X(n, i, DecodeModel(n, m, true)[i]) in m
    decreases |m|
  {
    if |m| > 0 {
      var p := m[..|m| - 1];
      DecodeFilteredEntries(n, p);
      assert forall v :: v in p ==> v in m;
    }
  }

  /** When every x literal of p agrees with lab, decoding p yields exactly the
      vertices whose x variable occurs in p, with their lab labels. */
  lemma {:induction false} DecodeSeen(n: nat, lab: seq<int>, p: seq<int>)
    requires n >= 1 && IsLabelling(n, lab)
    requires forall i, j :: InGrid(n, i, j) && X(n, i, j) in p ==> lab[i - 1] == j
    ensures DecodeModel(n, p, true) == Seen(n, lab, p)
    decreases |p|
  {
    if |p| > 0 {
      var q, v := p[..|p| - 1], p[|p| - 1];
      assert forall w :: w in p <==> w in q || w == v;
      DecodeSeen(n, lab, q);
      var d := DecodeModel(n, q, true);
      match DecodeFiltered(n, v)
      case None =>
        forall i | 1 <= i <= n ensures X(n, i, Label(lab, i)) != v {
          XRange(n, i, lab[i - 1]);
        }
        assert Seen(n, lab, p) == Seen(n, lab, q);
      case Some(ij) =>
        var i, j := ij.0, ij.1;
        assert lab[i - 1] == j;
        forall i' | 1 <= i' <= n && i' != i ensures X(n, i', Label(lab, i')) != v {
          if X(n, i', lab[i' - 1]) == v {
            XInjective(n, i', lab[i' - 1], i, j);
          }
        }
        assert Seen(n, lab, p) == Seen(n, lab, q)[i := j];
    }
  }

  /** Decoding a model whose x variables form a permutation matrix recovers the
      labelling read off the matrix, for every vertex. */
  lemma DecodeMatrix(n: nat, m: seq<int>)
    requires n >= 1 && IsPermutationMatrix(AssignmentOf(m), n)
    ensures DecodeModel(n, m, true) == AsMap(LabellingOf(AssignmentOf(m), n))
  {
    var a := AssignmentOf(m);
    var lab := LabellingOf(a, n);
    MatrixGivesLabelling(a, n);
    DecodeSeen(n, lab, m);
    forall i | 1 <= i <= n ensures X(n, i, Label(lab, i)) in m {
      assert a(X(n, i, lab[i - 1]));
    }
    assert Seen(n, lab, m) == AsMap(lab);
  }

  /** When no literal exceeds n², the range filter changes nothing. */
  lemma {:induction false} NoFilterNeeded(n: nat, m: seq<int>)
    requires n >= 1
    requires forall l :: l in m ==> Abs(l) <= n * n
    ensures DecodeModel(n, m, false) == DecodeModel(n, m, true)
    decreases |m|
  {
    if |m| > 0 {
      var q := m[..|m| - 1];
      assert forall l :: l in q ==> l in m;
      NoFilterNeeded(n, q);
      assert m[|m| - 1] in m;
    }
  }

  /** Without the filter, the first auxiliary id s(1,1) of the chain front-end
      would be read as label 1 of a vertex n + 1 that does not exist. */
  lemma FilterNeededForChain(n: nat)
    requires n >= 1
    ensures DecodeUnfiltered(n, S(n, 1, 1)) == Some((n + 1, 1))
    ensures DecodeFiltered(n, S(n, 1, 1)) == None
  {
    FamilyRanges(n, 1, 1);
    DivModUnique(n, n, 0);
    assert S(n, 1, 1) - 1 == n * n;
  }

  /** A solver model of the chain probe decodes to a labelling that gives
      vertex 1 the label 1 and keeps every edge within k. */
  lemma ChainModelDecodes(g: Graph, k: int, m: seq<int>)
    requires Valid(g) && g.n >= 1 && k >= 0
    requires IsModelOf(m, ChainProbe(g, k))
    ensures var lab := LabellingOf(AssignmentOf(m), g.n);
            && DecodeModel(g.n, m, true) == AsMap(lab)
            && IsLabelling(g.n, lab) && lab[0] == 1 && WithinBound(g, lab, k)
  {
    var a := AssignmentOf(m);
    ChainProbeSound(g, k, a);
    HoldsConcat(a, ChainStatic(g.n), DynamicClauses.Dynamic(g.n, k, g.edges));
    ChainStaticSound(a, g.n);
    DecodeMatrix(g.n, m);
  }

  /** A solver model of a pairwise probe mentions only x ids, so the unfiltered
      decoding of those front-ends is just as correct. */
  lemma PairwiseModelDecodes(g: Graph, k: int, m: seq<int>)
    requires Valid(g) && g.n >= 1 && k >= 0
    requires IsModelOf(m, PairwiseProbe(g, k))
    ensures var lab := LabellingOf(AssignmentOf(m), g.n);
            && DecodeModel(g.n, m, false) == AsMap(lab)
            && IsLabelling(g.n, lab) && lab[0] == 1 && WithinBound(g, lab, k)
  {
    var a := AssignmentOf(m);
    PairwiseProbeSound(g, k, a);
    HoldsConcat(a, PairwiseStatic(g.n), DynamicClauses.Dynamic(g.n, k, g.edges));
    PairwiseStaticMeaning(a, g.n);
    DecodeMatrix(g.n, m);
    PairwiseProbesWithin(g, k);
    VarBoundAtMost(PairwiseProbe(g, k), g.n * g.n);
    NoFilterNeeded(g.n, m);
  }

  // ------------------------------------------------------------- reporting

  /** The largest cyclic edge distance under lab, as printed after a search;
      None when there are no edges (the maximum of an empty list is an error). */
  function ReportedBandwidth(g: Graph, lab: seq<int>): Option<int>
    requires Valid(g) && |lab| == g.n
  {
    MaxDist(g.n, lab, g.edges)
  }

  function MaxDist(n: int, lab: seq<int>, edges: seq<Edge>): Option<int>
    requires forall t :: 0 <= t < |edges| ==> 1 <= edges[t].0 <= |lab| && 1 <= edges[t].1 <= |lab|
  {
    if |edges| == 0 then None
    else
      var e := edges[|edges| - 1];
      var d := Dist(n, lab[e.0 - 1], lab[e.1 - 1]);
      match MaxDist(n, lab, edges[..|edges| - 1])
      case None => Some(d)
      case Some(r) => Some(if d > r then d else r)
  }

  lemma {:induction false} MaxDistIsMax(n: int, lab: seq<int>, edges: seq<Edge>)
    requires forall t :: 0 <= t < |edges| ==> 1 <= edges[t].0 <= |lab| && 1 <= edges[t].1 <= |lab|
    ensures MaxDist(n, lab, edges).None? <==> |edges| == 0
    ensures MaxDist(n, lab, edges).Some? ==>
              && (forall t :: 0 <= t < |edges| ==> Dist(n, lab[edges[t].0 - 1], lab[edges[t].1 - 1]) <= MaxDist(n, lab, edges).value)
              && (exists t :: 0 <= t < |edges| && Dist(n, lab[edges[t].0 - 1], lab[edges[t].1 - 1]) == MaxDist(n, lab, edges).value)
    decreases |edges|
  {
    if |edges| > 0 {
      var q := edges[..|edges| - 1];
      MaxDistIsMax(n, lab, q);
      assert forall t :: 0 <= t < |q| ==> q[t] == edges[t];
    }
  }

  /** The printed bandwidth is the least bound the labelling meets. */
  lemma ReportedIsLeastBound(g: Graph, lab: seq<int>)
    requires Valid(g) && |lab| == g.n
    ensures ReportedBandwidth(g, lab).None? <==> |g.edges| == 0
    ensures ReportedBandwidth(g, lab).Some? ==>
              && WithinBound(g, lab, ReportedBandwidth(g, lab).value)
              && forall k :: k < ReportedBandwidth(g, lab).value ==> !WithinBound(g, lab, k)
  {
    ValidInRange(g);
    MaxDistIsMax(g.n, lab, g.edges);
    if ReportedBandwidth(g, lab).Some? {
      ReportedMeets(g, lab);
      ReportedAttained(g, lab);
    }
  }

  lemma ReportedMeets(g: Graph, lab: seq<int>)
    requires Valid(g) && |lab| == g.n && ReportedBandwidth(g, lab).Some?
    ensures WithinBound(g, lab, ReportedBandwidth(g, lab).value)
  {
    ValidInRange(g);
    MaxDistIsMax(g.n, lab, g.edges);
    var r := ReportedBandwidth(g, lab).value;
    forall e | e in g.edges ensures Dist(g.n, lab[e.0 - 1], lab[e.1 - 1]) <= r {
      var t :| 0 <= t < |g.edges| && g.edges[t] == e;
    }
  }

  lemma ReportedAttained(g: Graph, lab: seq<int>)
    requires Valid(g) && |lab| == g.n && ReportedBandwidth(g, lab).Some?
    ensures forall k :: k < ReportedBandwidth(g, lab).value ==> !WithinBound(g, lab, k)
  {
    ValidInRange(g);
    var t := MaxDistWitness(g.n, lab, g.edges);
    var e := g.edges[t];
    assert e in g.edges;
    forall k | k < ReportedBandwidth(g, lab).value ensures !WithinBound(g, lab, k) {
      assert Dist(g.n, lab[e.0 - 1], lab[e.1 - 1]) > k;
    }
  }

  /** An edge whose distance is the maximum. */
  lemma {:induction false} MaxDistWitness(n: int, lab: seq<int>, edges: seq<Edge>) returns (t: int)
    requires forall t :: 0 <= t < |edges| ==> 1 <= edges[t].0 <= |lab| && 1 <= edges[t].1 <= |lab|
    requires |edges| > 0
    ensures 0 <= t < |edges| && MaxDist(n, lab, edges) == Some(Dist(n, lab[edges[t].0 - 1], lab[edges[t].1 - 1]))
    decreases |edges|
  {
    var q := edges[..|edges| - 1];
    if |q| == 0 {
      t := 0;
    } else {
      var t' := MaxDistWitness(n, lab, q);
      assert q[t'] == edges[t'];
      var e := edges[|edges| - 1];
      if Dist(n, lab[e.0 - 1], lab[e.1 - 1]) > MaxDist(n, lab, q).value {
        t := |edges| - 1;
      } else {
        t := t';
      }
    }
  }
}

=== FILE: dynamic_clauses.dfy ===
/**
  The k-dependent clauses rebuilt on every probe: for every ordered pair of
  distinct labels (j, m) whose cyclic distance exceeds k, and every edge
  (u, v), the clause [-x(u,j), -x(v,m)] forbids u carrying j while v carries m.
 */
module DynamicClauses {
  import opened Cyclic
  import opened Cnf
  import opened Variables
  import opened Graphs

  /** The labels j and m may not sit on the two ends of an edge under bound k. */
  predicate TooFar(n: int, k: int, j: int, m: int)
  {
    j != m && Dist(n, j, m) > k
  }

  /** The clause forbidding label j on u together with label m on v. */
  function Forbid(n: int, e: Edge, j: int, m: int): Clause
  {
    [-X(n, e.0, j), -X(n, e.1, m)]
  }

  /** One forbidding clause per edge, in edge order. */
  function EdgeClauses(n: int, edges: seq<Edge>, j: int, m: int): (f: Formula)
    ensures |f| == |edges|
  {
    seq(|edges|, t requires 0 <= t < |edges| => Forbid(n, edges[t], j, m))
  }

  /** Inner loop of the generator: labels m..n for a fixed first label j. */
  function PairsFor(n: int, k: int, edges: seq<Edge>, j: int, m: int): Formula
    decreases n + 1 - m
  {
    if m > n then []
    else (if TooFar(n, k, j, m) then EdgeClauses(n, edges, j, m) else []) + PairsFor(n, k, edges, j, m + 1)
  }

  /** Outer loop of the generator: first labels j..n. */
  function DynamicFrom(n: int, k: int, edges: seq<Edge>, j: int): Formula
    decreases n + 1 - j
  {
    if j > n then [] else PairsFor(n, k, edges, j, 1) + DynamicFrom(n, k, edges, j + 1)
  }

  /** The dynamic clause list for bound k, in emission order. */
  function Dynamic(n: int, k: int, edges: seq<Edge>): Formula
  {
    DynamicFrom(n, k, edges, 1)
  }

  // ------------------------------------------------------------ membership

  /** c forbids some pair of labels j >= jlo, m >= mlo that are too far apart on some edge. */
  ghost predicate ForbiddenFrom(n: int, k: int, edges: seq<Edge>, jlo: int, jhi: int, mlo: int, c: Clause)
  {
    exists j, m, t :: jlo <= j <= jhi && mlo <= m <= n && 0 <= t < |edges| && TooFar(n, k, j, m) && c == Forbid(n, edges[t], j, m)
  }

  lemma EdgeClausesMembers(n: int, edges: seq<Edge>, j: int, m: int, c: Clause)
    ensures c in EdgeClauses(n, edges, j, m) <==> exists t :: 0 <= t < |edges| && c == Forbid(n, edges[t], j, m)
  {
    var f := EdgeClauses(n, edges, j, m);
    if c in f {
      var t :| 0 <= t < |f| && f[t] == c;
      assert 0 <= t < |edges| && c == Forbid(n, edges[t], j, m);
    }
    if exists t :: 0 <= t < |edges| && c == Forbid(n, edges[t], j, m) {
      var t :| 0 <= t < |edges| && c == Forbid(n, edges[t], j, m);
      assert c == f[t];
    }
  }

  /** The clauses emitted for label j and labels m' >= m. */
  lemma PairsForHead(n: int, k: int, edges: seq<Edge>, j: int, m: int, c: Clause)
    requires m <= n
    ensures c in PairsFor(n, k, edges, j, m) <==>
            (TooFar(n, k, j, m) && c in EdgeClauses(n, edges, j, m)) || c in PairsFor(n, k, edges, j, m + 1)
  {
  }

  lemma {:induction false} PairsForMembers(n: int, k: int, edges: seq<Edge>, j: int, m: int, c: Clause)
    ensures c in PairsFor(n, k, edges, j, m) <==> ForbiddenFrom(n, k, edges, j, j, m, c)
    decreases n + 1 - m
  {
    if m <= n {
      PairsForHead(n, k, edges, j, m, c);
      PairsForMembers(n, k, edges, j, m + 1, c);
      EdgeClausesMembers(n, edges, j, m, c);
      if TooFar(n, k, j, m) && c in EdgeClauses(n, edges, j, m) {
        var t :| 0 <= t < |edges| && c == Forbid(n, edges[t], j, m);
        assert j <= j <= j && m <= m <= n;
      }
      if ForbiddenFrom(n, k, edges, j, j, m, c) {
        var j', m', t :| j <= j' <= j && m <= m' <= n && 0 <= t < |edges| && TooFar(n, k, j', m') && c == Forbid(n, edges[t], j', m');
        if m' > m {
          assert ForbiddenFrom(n, k, edges, j, j, m + 1, c);
        }
      }
    }
  }

  lemma {:induction false} DynamicFromMembers(n: int, k: int, edges: seq<Edge>, j: int, c: Clause)
    ensures c in DynamicFrom(n, k, edges, j) <==> ForbiddenFrom(n, k, edges, j, n, 1, c)
    decreases n + 1 - j
  {
    if j <= n {
      PairsForMembers(n, k, edges, j, 1, c);
      DynamicFromMembers(n, k, edges, j + 1, c);
      if ForbiddenFrom(n, k, edges, j, n, 1, c) {
        var j', m', t :| j <= j' <= n && 1 <= m' <= n && 0 <= t < |edges| && TooFar(n, k, j', m') && c == Forbid(n, edges[t], j', m');
        if j' == j {
          assert ForbiddenFrom(n, k, edges, j, j, 1, c);
        } else {
          assert ForbiddenFrom(n, k, edges, j + 1, n, 1, c);
        }
      }
    }
  }

  /** The dynamic clauses are exactly the [-x(u,j), -x(v,m)] for an edge (u,v)
      and labels j != m in 1..n at cyclic distance greater than k. */
  lemma DynamicMembers(n: int, k: int, edges: seq<Edge>, c: Clause)
    ensures c in Dynamic(n, k, edges) <==>
            exists j, m, t :: 1 <= j <= n && 1 <= m <= n && 0 <= t < |edges| && TooFar(n, k, j, m) && c == Forbid(n, edges[t], j, m)
  {
    DynamicFromMembers(n, k, edges, 1, c);
  }

  /** Raising k only removes clauses: the list for k + 1 is contained in the list for k. */
  lemma DynamicMonotone(n: int, k: int, k': int, edges: seq<Edge>)
    requires k <= k'
    ensures forall c :: c in Dynamic(n, k', edges) ==> c in Dynamic(n, k, edges)
  {
    forall c | c in Dynamic(n, k', edges) ensures c in Dynamic(n, k, edges) {
      DynamicMembers(n, k', edges, c);
      DynamicMembers(n, k, edges, c);
      var j, m, t :| 1 <= j <= n && 1 <= m <= n && 0 <= t < |edges| && TooFar(n, k', j, m) && c == Forbid(n, edges[t], j, m);
      assert TooFar(n, k, j, m);
    }
  }

  /** Hence every assignment satisfying the clauses for k satisfies those for any larger k. */
  lemma DynamicHoldsUpward(a: Assignment, n: int, k: int, k': int, edges: seq<Edge>)
    requires k <= k' && Holds(a, Dynamic(n, k, edges))
    ensures Holds(a, Dynamic(n, k', edges))
  {
    DynamicMonotone(n, k, k', edges);
    HoldsSubset(a, Dynamic(n, k, edges), Dynamic(n, k', edges));
  }

  /** The dynamic clauses mention only x variables: ids 1..n². */
  lemma DynamicWithin(n: int, k: int, edges: seq<Edge>)
    requires EdgesInRange(n, edges)
    ensures LiteralsWithin(Dynamic(n, k, edges), n * n)
  {
    forall c, l | c in Dynamic(n, k, edges) && l in c ensures Abs(l) <= n * n {
      DynamicMembers(n, k, edges, c);
      var j, m, t :| 1 <= j <= n && 1 <= m <= n && 0 <= t < |edges| && TooFar(n, k, j, m) && c == Forbid(n, edges[t], j, m);
      XRange(n, edges[t].0, j);
      XRange(n, edges[t].1, m);
    }
  }

  // --------------------------------------------------------------- meaning

  /** No edge carries a pair of true x variables whose labels are too far apart. */
  predicate Respects(a: Assignment, n: int, k: int, edges: seq<Edge>)
  {
    forall t, j, m :: 0 <= t < |edges| && 1 <= j <= n && 1 <= m <= n && TooFar(n, k, j, m) ==>
      !(a(X(n, edges[t].0, j)) && a(X(n, edges[t].1, m)))
  }

  /** Endpoints of every edge are vertices 1..n. */
  predicate EdgesInRange(n: int, edges: seq<Edge>)
  {
    forall t :: 0 <= t < |edges| ==> 1 <= edges[t].0 <= n && 1 <= edges[t].1 <= n
  }

  lemma ForbidMeaning(a: Assignment, n: int, e: Edge, j: int, m: int)
    requires 1 <= e.0 <= n && 1 <= e.1 <= n && 1 <= j <= n && 1 <= m <= n
    ensures ClauseHolds(a, Forbid(n, e, j, m)) <==> !(a(X(n, e.0, j)) && a(X(n, e.1, m)))
  {
    XRange(n, e.0, j);
    XRange(n, e.1, m);
    NegPair(a, X(n, e.0, j), X(n, e.1, m));
  }

  /** The model of the dynamic clauses for k are the assignments that respect k on every edge. */
  lemma DynamicMeaning(a: Assignment, n: int, k: int, edges: seq<Edge>)
    requires EdgesInRange(n, edges)
    ensures Holds(a, Dynamic(n, k, edges)) <==> Respects(a, n, k, edges)
  {
    var f := Dynamic(n, k, edges);
    HoldsAll(a, f);
    if Holds(a, f) {
      forall t, j, m | 0 <= t < |edges| && 1 <= j <= n && 1 <= m <= n && TooFar(n, k, j, m)
        ensures !(a(X(n, edges[t].0, j)) && a(X(n, edges[t].1, m)))
      {
        var c := Forbid(n, edges[t], j, m);
        DynamicMembers(n, k, edges, c);
        ForbidMeaning(a, n, edges[t], j, m);
      }
    }
    if Respects(a, n, k, edges) {
      forall c | c in f ensures ClauseHolds(a, c) {
        DynamicMembers(n, k, edges, c);
        var j, m, t :| 1 <= j <= n && 1 <= m <= n && 0 <= t < |edges| && TooFar(n, k, j, m) && c == Forbid(n, edges[t], j, m);
        ForbidMeaning(a, n, edges[t], j, m);
      }
    }
  }
}

=== FILE: encoding.dfy ===
/**
  The whole formula handed to the solver for one probe k, and its meaning:
  its x-projections are exactly the labellings that give vertex 1 the label 1
  and keep every edge within cyclic distance k. Three front-ends differ only
  in the at-most-one gadget and in a repeated unit clause.
 */
module Encoding {
  import opened Cyclic
  import opened Cnf
  import opened Variables
  import opened AtMostOne
  import opened Graphs
  import opened StaticClauses
  import opened DynamicClauses

  /** The probe formula of the pairwise binary-search front-end. */
  function PairwiseProbe(g: Graph, k: int): Formula
  {
    PairwiseStatic(g.n) + Dynamic(g.n, k, g.edges)
  }

  /** The probe formula of the chain-encoded front-end. */
  function ChainProbe(g: Graph, k: int): Formula
  {
    ChainStatic(g.n) + Dynamic(g.n, k, g.edges)
  }

  /** The probe formula of the linear-decrement front-end, which appends the
      unit clause x(1,1) a second time after the dynamic clauses. */
  function LinearProbe(g: Graph, k: int): Formula
  {
    PairwiseStatic(g.n) + Dynamic(g.n, k, g.edges) + [[X(g.n, 1, 1)]]
  }

  /** The pairwise probes mention only x variables, so a solver model of
      them lists ids 1..n² and nothing else. */
  lemma PairwiseProbesWithin(g: Graph, k: int)
    requires Valid(g) && g.n >= 1
    ensures LiteralsWithin(PairwiseProbe(g, k), g.n * g.n)
    ensures LiteralsWithin(LinearProbe(g, k), g.n * g.n)
  {
    var n := g.n;
    ValidInRange(g);
    PairwiseStaticWithin(n);
    DynamicWithin(n, k, g.edges);
    LiteralsWithinConcat(PairwiseStatic(n), Dynamic(n, k, g.edges), n * n);
    XRange(n, 1, 1);
    UnitWithin(X(n, 1, 1), n * n);
    LiteralsWithinConcat(PairwiseProbe(g, k), [[X(n, 1, 1)]], n * n);
  }

  // ------------------------------------------------ labellings as matrices

  /** v is the x variable of some vertex and its label. */
  ghost predicate Encodes(n: int, lab: seq<int>, v: int)
  {
    exists w :: 0 <= w < n && w < |lab| && v == X(n, w + 1, lab[w])
  }

  /** The permutation matrix of a labelling: x(i,j) holds iff vertex i has label j. */
  ghost function AssignmentFor(n: int, lab: seq<int>): Assignment
  {
    v => Encodes(n, lab, v)
  }

  lemma AssignmentForAt(n: int, lab: seq<int>, i: int, j: int)
    requires IsLabelling(n, lab) && InGrid(n, i, j)
    ensures AssignmentFor(n, lab)(X(n, i, j)) <==> lab[i - 1] == j
  {
    if Encodes(n, lab, X(n, i, j)) {
      var w :| 0 <= w < n && w < |lab| && X(n, i, j) == X(n, w + 1, lab[w]);
      XInjective(n, i, j, w + 1, lab[w]);
    }
    assert lab[i - 1] == j ==> X(n, i, j) == X(n, (i - 1) + 1, lab[i - 1]);
  }

  lemma LabellingRow(n: nat, lab: seq<int>, r: int)
    requires IsLabelling(n, lab) && 0 <= r < n
    ensures ExactlyOne(AssignmentFor(n, lab), Row(n, r + 1))
  {
    var a, row := AssignmentFor(n, lab), Row(n, r + 1);
    forall q | 0 <= q < n ensures a(row[q]) <==> lab[r] == q + 1 {
      AssignmentForAt(n, lab, r + 1, q + 1);
    }
    assert a(row[lab[r] - 1]);
  }

  lemma LabellingCol(n: nat, lab: seq<int>, r: int)
    requires IsLabelling(n, lab) && 0 <= r < n
    ensures ExactlyOne(AssignmentFor(n, lab), Col(n, r + 1))
  {
    var a, col := AssignmentFor(n, lab), Col(n, r + 1);
    forall q | 0 <= q < n ensures a(col[q]) <==> lab[q] == r + 1 {
      AssignmentForAt(n, lab, q + 1, r + 1);
    }
    LabellingIsOnto(n, lab, r + 1);
    var v :| 0 <= v < n && lab[v] == r + 1;
    assert a(col[v]);
  }

  /** Every labelling yields a permutation matrix. */
  lemma LabellingGivesMatrix(n: nat, lab: seq<int>)
    requires IsLabelling(n, lab)
    ensures IsPermutationMatrix(AssignmentFor(n, lab), n)
  {
    forall r | 0 <= r < n
      ensures ExactlyOne(AssignmentFor(n, lab), Rows(n)[r]) && ExactlyOne(AssignmentFor(n, lab), Cols(n)[r])
    {
      LabellingRow(n, lab, r);
      LabellingCol(n, lab, r);
    }
  }

  /** The labelling read off a matrix: the first true x in each vertex's row. */
  function LabellingOf(a: Assignment, n: nat): (lab: seq<int>)
    ensures |lab| == n
  {
    seq(n, v => FirstTrue(a, Row(n, v + 1)) + 1)
  }

  lemma RowLabel(a: Assignment, n: nat, i: int)
    requires IsPermutationMatrix(a, n) && 1 <= i <= n
    ensures 1 <= LabellingOf(a, n)[i - 1] <= n
    ensures forall j :: 1 <= j <= n ==> (a(X(n, i, j)) <==> LabellingOf(a, n)[i - 1] == j)
  {
    var row := Row(n, i);
    assert Rows(n)[i - 1] == row;
    var f := FirstTrue(a, row);
    assert LabellingOf(a, n)[i - 1] == f + 1;
    forall j | 1 <= j <= n ensures a(X(n, i, j)) <==> f + 1 == j {
      assert row[j - 1] == X(n, i, j);
      if j - 1 < f {
      } else if j - 1 > f {
        assert !(a(row[f]) && a(row[j - 1]));
      }
    }
  }

  /** Every permutation matrix is the matrix of the labelling read off it. */
  lemma MatrixGivesLabelling(a: Assignment, n: nat)
    requires IsPermutationMatrix(a, n)
    ensures IsLabelling(n, LabellingOf(a, n))
    ensures forall i, j :: InGrid(n, i, j) ==> (a(X(n, i, j)) <==> LabellingOf(a, n)[i - 1] == j)
  {
    var lab := LabellingOf(a, n);
    forall v | 0 <= v < n ensures 1 <= lab[v] <= n {
      RowLabel(a, n, v + 1);
    }
    forall i, j | InGrid(n, i, j) ensures a(X(n, i, j)) <==> lab[i - 1] == j {
      RowLabel(a, n, i);
    }
    forall v, w | 0 <= v < w < n ensures lab[v] != lab[w] {
      LabelsDistinct(a, n, v, w);
    }
  }

  /** Two vertices never share a label: the label's column has at most one true x. */
  lemma LabelsDistinct(a: Assignment, n: nat, v: int, w: int)
    requires IsPermutationMatrix(a, n) && 0 <= v < w < n
    ensures LabellingOf(a, n)[v] != LabellingOf(a, n)[w]
  {
    var lab := LabellingOf(a, n);
    RowLabel(a, n, v + 1);
    RowLabel(a, n, w + 1);
    var j := lab[v];
    var col := Col(n, j);
    assert Cols(n)[j - 1] == col;
    assert col[v] == X(n, v + 1, j) && col[w] == X(n, w + 1, j);
    assert !(a(col[v]) && a(col[w]));
  }

  // ------------------------------------------------------- dynamic meaning

  lemma ValidInRange(g: Graph)
    requires Valid(g)
    ensures EdgesInRange(g.n, g.edges)
  {
    forall t | 0 <= t < |g.edges| ensures 1 <= g.edges[t].0 <= g.n && 1 <= g.edges[t].1 <= g.n {
      assert g.edges[t] in g.edges;
    }
  }

  /** Respects only looks at x variables. */
  lemma RespectsAgree(a: Assignment, b: Assignment, n: int, k: int, edges: seq<Edge>)
    requires EdgesInRange(n, edges)
    requires forall i, j :: InGrid(n, i, j) ==> a(X(n, i, j)) == b(X(n, i, j))
    ensures Respects(a, n, k, edges) == Respects(b, n, k, edges)
  {
    forall t, j, m | 0 <= t < |edges| && 1 <= j <= n && 1 <= m <= n
      ensures a(X(n, edges[t].0, j)) == b(X(n, edges[t].0, j)) && a(X(n, edges[t].1, m)) == b(X(n, edges[t].1, m))
    {
      assert InGrid(n, edges[t].0, j) && InGrid(n, edges[t].1, m);
    }
  }

  lemma RespectsGivesWithinBound(g: Graph, lab: seq<int>, k: int)
    requires Valid(g) && IsLabelling(g.n, lab) && k >= 0
    requires Respects(AssignmentFor(g.n, lab), g.n, k, g.edges)
    ensures WithinBound(g, lab, k)
  {
    var n := g.n;
    forall e | e in g.edges ensures Dist(n, lab[e.0 - 1], lab[e.1 - 1]) <= k {
      var t :| 0 <= t < |g.edges| && g.edges[t] == e;
      var j, m := lab[e.0 - 1], lab[e.1 - 1];
      AssignmentForAt(n, lab, e.0, j);
      AssignmentForAt(n, lab, e.1, m);
      assert !TooFar(n, k, j, m);
    }
  }

  lemma WithinBoundGivesRespects(g: Graph, lab: seq<int>, k: int)
    requires Valid(g) && IsLabelling(g.n, lab)
    requires WithinBound(g, lab, k)
    ensures Respects(AssignmentFor(g.n, lab), g.n, k, g.edges)
  {
    var n, a := g.n, AssignmentFor(g.n, lab);
    ValidInRange(g);
    forall t, j, m | 0 <= t < |g.edges| && 1 <= j <= n && 1 <= m <= n && TooFar(n, k, j, m)
      ensures !(a(X(n, g.edges[t].0, j)) && a(X(n, g.edges[t].1, m)))
    {
      var e := g.edges[t];
      assert e in g.edges;
      AssignmentForAt(n, lab, e.0, j);
      AssignmentForAt(n, lab, e.1, m);
    }
  }

  /** For the matrix of a labelling, the dynamic clauses for k >= 0 say exactly
      that every edge is within cyclic distance k. */
  lemma RespectsIffWithinBound(g: Graph, lab: seq<int>, k: int)
    requires Valid(g) && IsLabelling(g.n, lab) && k >= 0
    ensures Respects(AssignmentFor(g.n, lab), g.n, k, g.edges) <==> WithinBound(g, lab, k)
  {
    if Respects(AssignmentFor(g.n, lab), g.n, k, g.edges) {
      RespectsGivesWithinBound(g, lab, k);
    }
    if WithinBound(g, lab, k) {
      WithinBoundGivesRespects(g, lab, k);
    }
  }

  // ------------------------------------------------------------ the probes

  /** A matrix with x(1,1) true that respects k gives a labelling that witnesses k. */
  lemma MatrixWitnesses(g: Graph, k: int, a: Assignment)
    requires Valid(g) && g.n >= 1 && k >= 0
    requires IsPermutationMatrix(a, g.n) && a(X(g.n, 1, 1)) && Respects(a, g.n, k, g.edges)
    ensures IsLabelling(g.n, LabellingOf(a, g.n))
    ensures LabellingOf(a, g.n)[0] == 1
    ensures WithinBound(g, LabellingOf(a, g.n), k)
  {
    var n := g.n;
    var lab := LabellingOf(a, n);
    MatrixGivesLabelling(a, n);
    assert InGrid(n, 1, 1);
    ValidInRange(g);
    forall i, j | InGrid(n, i, j) ensures a(X(n, i, j)) == AssignmentFor(n, lab)(X(n, i, j)) {
      AssignmentForAt(n, lab, i, j);
    }
    RespectsAgree(a, AssignmentFor(n, lab), n, k, g.edges);
    RespectsIffWithinBound(g, lab, k);
  }

  /** Every model of the pairwise probe decodes to a labelling that witnesses k. */
  lemma PairwiseProbeSound(g: Graph, k: int, a: Assignment)
    requires Valid(g) && g.n >= 1 && k >= 0
    requires Holds(a, PairwiseProbe(g, k))
    ensures IsLabelling(g.n, LabellingOf(a, g.n)) && LabellingOf(a, g.n)[0] == 1
    ensures WithinBound(g, LabellingOf(a, g.n), k)
  {
    HoldsConcat(a, PairwiseStatic(g.n), Dynamic(g.n, k, g.edges));
    PairwiseStaticMeaning(a, g.n);
    ValidInRange(g);
    DynamicMeaning(a, g.n, k, g.edges);
    MatrixWitnesses(g, k, a);
  }

  /** Every model of the chain probe decodes to a labelling that witnesses k. */
  lemma ChainProbeSound(g: Graph, k: int, a: Assignment)
    requires Valid(g) && g.n >= 1 && k >= 0
    requires Holds(a, ChainProbe(g, k))
    ensures IsLabelling(g.n, LabellingOf(a, g.n)) && LabellingOf(a, g.n)[0] == 1
    ensures WithinBound(g, LabellingOf(a, g.n), k)
  {
    HoldsConcat(a, ChainStatic(g.n), Dynamic(g.n, k, g.edges));
    ChainStaticSound(a, g.n);
    ValidInRange(g);
    DynamicMeaning(a, g.n, k, g.edges);
    MatrixWitnesses(g, k, a);
  }

  /** The matrix of a witnessing labelling satisfies the pairwise probe, and its
      canonical extension satisfies the chain probe. */
  lemma LabellingGivesModels(g: Graph, k: int, lab: seq<int>)
    requires Valid(g) && g.n >= 1
    requires IsLabelling(g.n, lab) && lab[0] == 1 && WithinBound(g, lab, k)
    ensures Holds(AssignmentFor(g.n, lab), PairwiseProbe(g, k))
    ensures Holds(Extend(g.n, AssignmentFor(g.n, lab)), ChainProbe(g, k))
  {
    var n, a := g.n, AssignmentFor(g.n, lab);
    var e := Extend(n, a);
    ValidInRange(g);
    LabellingGivesMatrix(n, lab);
    AssignmentForAt(n, lab, 1, 1);
    PairwiseStaticMeaning(a, n);
    DynamicMeaning(a, n, k, g.edges);
    WithinBoundGivesRespects(g, lab, k);
    HoldsConcat(a, PairwiseStatic(n), Dynamic(n, k, g.edges));
    ChainStaticComplete(a, n);
    forall i, j | InGrid(n, i, j) ensures e(X(n, i, j)) == a(X(n, i, j)) {
      ExtendKeepsX(n, a, i, j);
    }
    RespectsAgree(e, a, n, k, g.edges);
    DynamicMeaning(e, n, k, g.edges);
    HoldsConcat(e, ChainStatic(n), Dynamic(n, k, g.edges));
  }

  lemma EmptyGraph(g: Graph, k: int)
    requires Valid(g) && g.n == 0
    ensures Feasible(g, k)
    ensures Holds(v => true, PairwiseProbe(g, k)) && Holds(v => true, ChainProbe(g, k))
  {
    assert IsLabelling(0, []) && WithinBound(g, [], k);
    var a: Assignment := v => true;
    Unit(a, X(0, 1, 1));
    HoldsConcat(a, PairwiseBlocks(Rows(0)) + PairwiseBlocks(Cols(0)), [[X(0, 1, 1)]]);
    HoldsConcat(a, ChainBlocks(Rows(0), SRows(0)) + ChainBlocks(Cols(0), TCols(0)), [[X(0, 1, 1)]]);
    HoldsConcat(a, PairwiseStatic(0), Dynamic(0, k, g.edges));
    HoldsConcat(a, ChainStatic(0), Dynamic(0, k, g.edges));
  }

  lemma PairwiseSatisfiableWitnesses(g: Graph, k: int)
    requires Valid(g) && g.n >= 1 && k >= 0
    requires Satisfiable(PairwiseProbe(g, k))
    ensures FeasibleFromOne(g, k)
  {
    var a :| Holds(a, PairwiseProbe(g, k));
    PairwiseProbeSound(g, k, a);
  }

  lemma ChainSatisfiableWitnesses(g: Graph, k: int)
    requires Valid(g) && g.n >= 1 && k >= 0
    requires Satisfiable(ChainProbe(g, k))
    ensures FeasibleFromOne(g, k)
  {
    var a :| Holds(a, ChainProbe(g, k));
    ChainProbeSound(g, k, a);
  }

  lemma FeasibleSatisfies(g: Graph, k: int)
    requires Valid(g) && g.n >= 1
    requires FeasibleFromOne(g, k)
    ensures Satisfiable(PairwiseProbe(g, k)) && Satisfiable(ChainProbe(g, k))
  {
    var lab :| IsLabelling(g.n, lab) && g.n >= 1 && lab[0] == 1 && WithinBound(g, lab, k);
    LabellingGivesModels(g, k, lab);
  }

  /** The pairwise probe for k >= 0 is satisfiable exactly when the cyclic
      bandwidth of g is at most k. */
  lemma PairwiseProbeIff(g: Graph, k: int)
    requires Valid(g) && k >= 0
    ensures Satisfiable(PairwiseProbe(g, k)) <==> Feasible(g, k)
  {
    if g.n == 0 {
      EmptyGraph(g, k);
    } else {
      FeasibleIffFromOne(g, k);
      if Satisfiable(PairwiseProbe(g, k)) {
        PairwiseSatisfiableWitnesses(g, k);
      }
      if FeasibleFromOne(g, k) {
        FeasibleSatisfies(g, k);
      }
    }
  }

  /** The chain probe for k >= 0 is satisfiable exactly when the cyclic
      bandwidth of g is at most k. */
  lemma ChainProbeIff(g: Graph, k: int)
    requires Valid(g) && k >= 0
    ensures Satisfiable(ChainProbe(g, k)) <==> Feasible(g, k)
  {
    if g.n == 0 {
      EmptyGraph(g, k);
    } else {
      FeasibleIffFromOne(g, k);
      if Satisfiable(ChainProbe(g, k)) {
        ChainSatisfiableWitnesses(g, k);
      }
      if FeasibleFromOne(g, k) {
        FeasibleSatisfies(g, k);
      }
    }
  }

  /** Appending x(1,1) a second time changes nothing: the linear front-end's
      probe has the same models as the pairwise probe. */
  lemma LinearProbeSameModels(g: Graph, k: int, a: Assignment)
    ensures Holds(a, LinearProbe(g, k)) <==> Holds(a, PairwiseProbe(g, k))
  {
    var x11 := X(g.n, 1, 1);
    var head := PairwiseBlocks(Rows(g.n)) + PairwiseBlocks(Cols(g.n));
    HoldsConcat(a, PairwiseProbe(g, k), [[x11]]);
    HoldsConcat(a, PairwiseStatic(g.n), Dynamic(g.n, k, g.edges));
    HoldsConcat(a, head, [[x11]]);
  }

  /** Satisfiability of every probe family is monotone in k. */
  lemma ProbesMonotone(g: Graph, k: int, k': int)
    requires k <= k'
    ensures Satisfiable(PairwiseProbe(g, k)) ==> Satisfiable(PairwiseProbe(g, k'))
    ensures Satisfiable(ChainProbe(g, k)) ==> Satisfiable(ChainProbe(g, k'))
    ensures Satisfiable(LinearProbe(g, k)) ==> Satisfiable(LinearProbe(g, k'))
  {
    var n, d, d' := g.n, Dynamic(g.n, k, g.edges), Dynamic(g.n, k', g.edges);
    if Satisfiable(PairwiseProbe(g, k)) {
      var a :| Holds(a, PairwiseProbe(g, k));
      HoldsConcat(a, PairwiseStatic(n), d);
      DynamicHoldsUpward(a, n, k, k', g.edges);
      HoldsConcat(a, PairwiseStatic(n), d');
    }
    if Satisfiable(ChainProbe(g, k)) {
      var a :| Holds(a, ChainProbe(g, k));
      HoldsConcat(a, ChainStatic(n), d);
      DynamicHoldsUpward(a, n, k, k', g.edges);
      HoldsConcat(a, ChainStatic(n), d');
    }
    if Satisfiable(LinearProbe(g, k)) {
      var a :| Holds(a, LinearProbe(g, k));
      LinearProbeSameModels(g, k, a);
      HoldsConcat(a, PairwiseStatic(n), d);
      DynamicHoldsUpward(a, n, k, k', g.edges);
      HoldsConcat(a, PairwiseStatic(n), d');
      LinearProbeSameModels(g, k', a);
    }
  }
}

=== FILE: estimator.dfy ===
/**
  The starting bound of the searches. Two estimators read the degree
  sequence: the short one of the SAT front-ends (1 for the degree pattern of a
  path or of a cycle, n / 2 otherwise) and the longer cascade of the symmetric
  all-different front-end, which adds cliques, stars, trees (half the
  diameter, from two breadth-first searches) and a density heuristic.
 */
module Estimator {
  import opened Wrappers
  import opened Cyclic
  import opened Graphs

  // ----------------------------------------------------------------- degrees

  /** How often x occurs as an endpoint in edges (a loop counts twice). */
  function Occurrences(edges: seq<Edge>, x: int): nat
    decreases |edges|
  {
    if |edges| == 0 then 0
    else
      var e := edges[|edges| - 1];
      Occurrences(edges[..|edges| - 1], x) + (if e.0 == x then 1 else 0) + (if e.1 == x then 1 else 0)
  }

  /** The neighbour list of vertex index v, in the order the edges append to it. */
  function NeighboursOf(edges: seq<Edge>, v: int): seq<int>
    decreases |edges|
  {
    if |edges| == 0 then []
    else
      var e := edges[|edges| - 1];
      NeighboursOf(edges[..|edges| - 1], v) + (if e.0 - 1 == v then [e.1 - 1] else []) + (if e.1 - 1 == v then [e.0 - 1] else [])
  }

  /** Degree of every vertex, indexed from 0. */
  function Degrees(g: Graph): seq<int>
  {
    seq(g.n, v => Occurrences(g.edges, v + 1))
  }

  /** Neighbour lists of every vertex, indexed from 0. */
  function Neighbours(g: Graph): seq<seq<int>>
  {
    seq(g.n, v => NeighboursOf(g.edges, v))
  }

  function Sum(s: seq<int>): int
    decreases |s|
  {
    if |s| == 0 then 0 else Sum(s[..|s| - 1]) + s[|s| - 1]
  }

  lemma {:induction false} SumBump(s: seq<int>, i: int)
    requires 0 <= i < |s|
    ensures Sum(s[i := s[i] + 1]) == Sum(s) + 1
    decreases |s|
  {
    var t := s[i := s[i] + 1];
    if i < |s| - 1 {
      assert t[..|t| - 1] == s[..|s| - 1][i := s[i] + 1];
      SumBump(s[..|s| - 1], i);
    } else {
      assert t[..|t| - 1] == s[..|s| - 1];
    }
  }

  lemma {:induction false} SumZeros(n: nat)
    ensures Sum(seq(n, v => 0)) == 0
  {
    if n > 0 {
      assert seq(n, v => 0)[..n - 1] == seq(n - 1, v => 0);
      SumZeros(n - 1);
    }
  }

  /** Taking one more edge (u, v) adds one occurrence to each endpoint and
      appends v - 1 to u's list, then u - 1 to v's. */
  lemma EdgeStep(edges: seq<Edge>, i: int)
    requires 0 <= i < |edges|
    ensures forall x :: Occurrences(edges[..i + 1], x) ==
              Occurrences(edges[..i], x) + (if edges[i].0 == x then 1 else 0) + (if edges[i].1 == x then 1 else 0)
    ensures forall x :: NeighboursOf(edges[..i + 1], x) ==
              NeighboursOf(edges[..i], x) + (if edges[i].0 - 1 == x then [edges[i].1 - 1] else []) + (if edges[i].1 - 1 == x then [edges[i].0 - 1] else [])
  {
    assert edges[..i + 1][..i] == edges[..i];
  }

  /** The loop invariant of the degree pass after the first i edges. */
  predicate DegreesSoFar(g: Graph, deg: seq<int>, i: int)
    requires 0 <= i <= |g.edges|
  {
    |deg| == g.n && forall x :: 0 <= x < g.n ==> deg[x] == Occurrences(g.edges[..i], x + 1)
  }

  /** The loop invariant of the neighbour lists after the first i edges. */
  predicate ListsSoFar(g: Graph, adj: seq<seq<int>>, i: int)
    requires 0 <= i <= |g.edges|
  {
    |adj| == g.n && forall x :: 0 <= x < g.n ==> adj[x] == NeighboursOf(g.edges[..i], x)
  }

  /** One more occurrence of vertex index x. */
  function Bump(deg: seq<int>, x: int): seq<int>
    requires 0 <= x < |deg|
  {
    deg[x := deg[x] + 1]
  }

  /** Append w to the list of vertex index x. */
  function Append(adj: seq<seq<int>>, x: int, w: int): seq<seq<int>>
    requires 0 <= x < |adj|
  {
    adj[x := adj[x] + [w]]
  }

  /** Bumping both endpoints of edge i adds 2 to the sum and keeps the degree invariant. */
  lemma DegreesStep(g: Graph, deg: seq<int>, i: int)
    requires Valid(g) && 0 <= i < |g.edges| && DegreesSoFar(g, deg, i)
    ensures 1 <= g.edges[i].0 <= g.n && 1 <= g.edges[i].1 <= g.n
    ensures DegreesSoFar(g, Bump(Bump(deg, g.edges[i].0 - 1), g.edges[i].1 - 1), i + 1)
    ensures Sum(Bump(Bump(deg, g.edges[i].0 - 1), g.edges[i].1 - 1)) == Sum(deg) + 2
  {
    assert g.edges[i] in g.edges;
    var u, v := g.edges[i].0, g.edges[i].1;
    SumBump(deg, u - 1);
    SumBump(Bump(deg, u - 1), v - 1);
    EdgeStep(g.edges, i);
  }

  /** Appending to both endpoints' lists keeps the list invariant. */
  lemma ListsStep(g: Graph, adj: seq<seq<int>>, i: int)
    requires Valid(g) && 0 <= i < |g.edges| && ListsSoFar(g, adj, i)
    ensures 1 <= g.edges[i].0 <= g.n && 1 <= g.edges[i].1 <= g.n
    ensures ListsSoFar(g, Append(Append(adj, g.edges[i].0 - 1, g.edges[i].1 - 1), g.edges[i].1 - 1, g.edges[i].0 - 1), i + 1)
  {
    assert g.edges[i] in g.edges;
    EdgeStep(g.edges, i);
    AppendBoth(adj, g.edges[i].0 - 1, g.edges[i].1 - 1);
  }

  /** The two appends of the loop body, entry by entry. */
  lemma AppendBoth(adj: seq<seq<int>>, a: int, b: int)
    requires 0 <= a < |adj| && 0 <= b < |adj|
    ensures forall x :: 0 <= x < |adj| ==>
              Append(Append(adj, a, b), b, a)[x] == adj[x] + (if a == x then [b] else []) + (if b == x then [a] else [])
  {
    forall x | 0 <= x < |adj|
      ensures Append(Append(adj, a, b), b, a)[x] == adj[x] + (if a == x then [b] else []) + (if b == x then [a] else [])
    {
      assert adj[x] + [] == adj[x];
      assert adj[x] + [b] + [] == adj[x] + [b];
    }
  }

  /** The degree loop: one pass over the edges bumping both endpoints' degrees
      and appending each endpoint to the other's neighbour list. */
  method CountDegrees(g: Graph) returns (deg: seq<int>, adj: seq<seq<int>>)
    requires Valid(g)
    ensures deg == Degrees(g) && adj == Neighbours(g)
    ensures Sum(deg) == 2 * |g.edges|
  {
    deg := seq(g.n, v => 0);
    adj := seq(g.n, v => []);
    SumZeros(g.n);
    var i := 0;
    while i < |g.edges|
      invariant 0 <= i <= |g.edges|
      invariant DegreesSoFar(g, deg, i) && ListsSoFar(g, adj, i)
      invariant Sum(deg) == 2 * i
    {
      DegreesStep(g, deg, i);
      ListsStep(g, adj, i);
      var u, v := g.edges[i].0, g.edges[i].1;
      deg := Bump(deg, u - 1);
      deg := Bump(deg, v - 1);
      adj := Append(adj, u - 1, v - 1);
      adj := Append(adj, v - 1, u - 1);
      i := i + 1;
    }
    SoFarComplete(g, deg, adj);
  }

  /** After the last edge the two invariants name the finished tables. */
  lemma SoFarComplete(g: Graph, deg: seq<int>, adj: seq<seq<int>>)
    requires DegreesSoFar(g, deg, |g.edges|) && ListsSoFar(g, adj, |g.edges|)
    ensures deg == Degrees(g) && adj == Neighbours(g)
  {
    assert g.edges[..|g.edges|] == g.edges;
  }

  /** A vertex's neighbour list has one entry per occurrence of the vertex in the edges. */
  lemma {:induction false} NeighboursCount(edges: seq<Edge>, v: int)
    ensures |NeighboursOf(edges, v)| == Occurrences(edges, v + 1)
    decreases |edges|
  {
    if |edges| > 0 {
      NeighboursCount(edges[..|edges| - 1], v);
    }
  }

  /** w is a neighbour of v exactly when some edge joins them, in either direction. */
  lemma {:induction false} NeighboursMembers(edges: seq<Edge>, v: int, w: int)
    ensures w in NeighboursOf(edges, v) <==> (v + 1, w + 1) in edges || (w + 1, v + 1) in edges
    decreases |edges|
  {
    if |edges| > 0 {
      var p, e := edges[..|edges| - 1], edges[|edges| - 1];
      NeighboursMembers(p, v, w);
      assert edges == p + [e];
      assert forall x :: x in edges <==> x in p || x == e;
    }
  }

  /** Every neighbour index is a vertex index. */
  lemma NeighboursValid(g: Graph)
    requires Valid(g)
    ensures AdjValid(Neighbours(g))
  {
    forall v, w | 0 <= v < g.n && w in Neighbours(g)[v] ensures 0 <= w < g.n {
      NeighboursMembers(g.edges, v, w);
    }
  }

  // ---------------------------------------------------- counting the degrees

  /** Number of entries of s equal to d. */
  function Count(s: seq<int>, d: int): nat
    decreases |s|
  {
    if |s| == 0 then 0 else Count(s[..|s| - 1], d) + (if s[|s| - 1] == d then 1 else 0)
  }

  /** Two values together account for at most the whole sequence, and for all
      of it only when every entry is one of them. */
  lemma {:induction false} CountTwo(s: seq<int>, a: int, b: int)
    requires a != b
    ensures Count(s, a) + Count(s, b) <= |s|
    ensures Count(s, a) + Count(s, b) == |s| <==> forall v :: 0 <= v < |s| ==> s[v] == a || s[v] == b
    decreases |s|
  {
    if |s| > 0 {
      var p := s[..|s| - 1];
      CountTwo(p, a, b);
      assert forall v :: 0 <= v < |p| ==> p[v] == s[v];
    }
  }

  /** Count(s, d) == |s| exactly when every entry is d. */
  lemma {:induction false} CountAll(s: seq<int>, d: int)
    ensures Count(s, d) <= |s|
    ensures Count(s, d) == |s| <==> forall v :: 0 <= v < |s| ==> s[v] == d
    decreases |s|
  {
    if |s| > 0 {
      var p := s[..|s| - 1];
      CountAll(p, d);
      assert forall v :: 0 <= v < |p| ==> p[v] == s[v];
    }
  }

  function Max(s: seq<int>): (r: int)
    requires |s| >= 1
    ensures forall v :: 0 <= v < |s| ==> s[v] <= r
    ensures exists v :: 0 <= v < |s| && s[v] == r
    decreases |s|
  {
    if |s| == 1 then s[0]
    else
      var m := Max(s[..|s| - 1]);
      assert forall v :: 0 <= v < |s| - 1 ==> s[..|s| - 1][v] == s[v];
      if s[|s| - 1] > m then s[|s| - 1] else m
  }

  // ------------------------------------------------ the SAT front-ends' bound

  /** 1 for the degree pattern of a path (two vertices of degree 1, the rest of
      degree 2) or of a cycle (every vertex of degree 2), n / 2 otherwise. */
  function DegreeClassBound(g: Graph): int
  {
    var deg := Degrees(g);
    if Count(deg, 1) == 2 && Count(deg, 2) == g.n - 2 then 1
    else if Count(deg, 2) == g.n then 1
    else g.n / 2
  }

  /** The classifier answers 1 for the degree pattern of a path (exactly two
      vertices of degree 1, the other n - 2 of degree 2) and for a graph whose
      every vertex has degree 2, and n / 2 for every other graph. So from four
      vertices on it answers 1 only when every vertex has degree 1 or 2, that
      is for a disjoint union of paths and cycles, which need not have cyclic
      bandwidth 1. */
  lemma DegreeClassBoundMeaning(g: Graph)
    ensures Count(Degrees(g), 1) == 2 && Count(Degrees(g), 2) == g.n - 2 ==> DegreeClassBound(g) == 1
    ensures (forall v :: 0 <= v < g.n ==> Degrees(g)[v] == 2) ==> DegreeClassBound(g) == 1
    ensures (!(Count(Degrees(g), 1) == 2 && Count(Degrees(g), 2) == g.n - 2)
             && !(forall v :: 0 <= v < g.n ==> Degrees(g)[v] == 2)) ==> DegreeClassBound(g) == g.n / 2
    ensures DegreeClassBound(g) == 1 && g.n != 2 && g.n != 3 ==>
              forall v :: 0 <= v < g.n ==> Degrees(g)[v] == 1 || Degrees(g)[v] == 2
  {
    var deg := Degrees(g);
    CountTwo(deg, 1, 2);
    CountAll(deg, 2);
  }

  // ---------------------------------------------------- breadth-first search

  /** Neighbour lists whose entries are all vertex indices. */
  predicate AdjValid(adj: seq<seq<int>>)
  {
    forall v, w :: 0 <= v < |adj| && w in adj[v] ==> 0 <= w < |adj|
  }

  /** The BFS variables: distances (-1 for unreached), the queue, and the
      farthest (distance, vertex) pair found so far. */
  datatype BfsState = BfsState(dist: seq<int>, queue: seq<int>, far: (int, int))

  /** The vertices not reached yet. */
  function Unvisited(dist: seq<int>): set<int>
  {
    set v | 0 <= v < |dist| && dist[v] == -1
  }

  /** The facts kept by the loop: queued vertices are reached, distances are
      -1 or more, and far names a reached vertex with the largest distance. */
  predicate BfsOk(adj: seq<seq<int>>, s: BfsState)
  {
    && |s.dist| == |adj|
    && (forall q :: q in s.queue ==> 0 <= q < |adj| && s.dist[q] >= 0)
    && (forall v :: 0 <= v < |s.dist| ==> -1 <= s.dist[v] <= s.far.0)
    && 0 <= s.far.1 < |adj| && s.dist[s.far.1] == s.far.0
  }

  /** Every reached vertex other than a start at distance 0 is a neighbour of
      a vertex one step nearer: each distance is the length of a walk. */
  ghost predicate ParentOk(adj: seq<seq<int>>, dist: seq<int>)
  {
    && |dist| == |adj|
    && forall u :: 0 <= u < |dist| && dist[u] > 0 ==> exists p :: 0 <= p < |adj| && u in adj[p] && dist[p] == dist[u] - 1
  }

  /** The state after w is reached from v: w gets v's distance + 1, joins
      the queue, and becomes the farthest vertex if it is farther. */
  function Reach(s: BfsState, v: int, w: int): BfsState
    requires 0 <= v < |s.dist| && 0 <= w < |s.dist|
  {
    var d := s.dist[v] + 1;
    BfsState(s.dist[w := d], s.queue + [w], if d > s.far.0 then (d, w) else s.far)
  }

  lemma ReachOk(adj: seq<seq<int>>, s: BfsState, v: int, w: int)
    requires BfsOk(adj, s) && 0 <= v < |adj| && s.dist[v] >= 0 && 0 <= w < |adj| && s.dist[w] == -1
    ensures BfsOk(adj, Reach(s, v, w))
    ensures Unvisited(Reach(s, v, w).dist) == Unvisited(s.dist) - {w}
    ensures Reach(s, v, w).dist == s.dist[w := s.dist[v] + 1]
  {
  }

  /** Reaching the unreached neighbour w of v at v's distance + 1 keeps ParentOk. */
  lemma ParentStep(adj: seq<seq<int>>, dist: seq<int>, v: int, w: int)
    requires |dist| == |adj|
    requires 0 <= v < |adj| && dist[v] >= 0 && w in adj[v] && 0 <= w < |adj| && dist[w] == -1
    ensures ParentOk(adj, dist) ==> ParentOk(adj, dist[w := dist[v] + 1])
  {
    var d := dist[w := dist[v] + 1];
    forall u | ParentOk(adj, dist) && 0 <= u < |d| && d[u] > 0 ensures exists p :: 0 <= p < |adj| && u in adj[p] && d[p] == d[u] - 1 {
      if u == w {
        assert d[v] == d[u] - 1;
      } else {
        var p :| 0 <= p < |adj| && u in adj[p] && dist[p] == dist[u] - 1;
        assert d[p] == d[u] - 1;
      }
    }
  }

  /** The inner loop over the neighbours ws of the dequeued vertex v: every
      unreached one gets v's distance + 1, is queued, and may become the farthest. */
  function Relax(adj: seq<seq<int>>, v: int, ws: seq<int>, s: BfsState): (r: BfsState)
    requires BfsOk(adj, s) && 0 <= v < |adj| && s.dist[v] >= 0
    requires forall w :: w in ws ==> 0 <= w < |adj| && w in adj[v]
    ensures BfsOk(adj, r) && r.dist[v] == s.dist[v]
    ensures Unvisited(r.dist) <= Unvisited(s.dist)
    ensures Unvisited(r.dist) == Unvisited(s.dist) ==> r.queue == s.queue
    ensures forall u :: 0 <= u < |adj| && s.dist[u] != -1 ==> r.dist[u] == s.dist[u]
    decreases |ws|
  {
    if |ws| == 0 then s
    else
      var w := ws[0];
      assert w in ws;
      assert forall x :: x in ws[1..] ==> x in ws;
      if s.dist[w] == -1 then
        ReachOk(adj, s, v, w);
        Relax(adj, v, ws[1..], Reach(s, v, w))
      else
        Relax(adj, v, ws[1..], s)
  }

  /** A vertex the inner loop reaches is one of v's neighbours ws and gets
      v's distance + 1. */
  lemma {:induction false} RelaxReaches(adj: seq<seq<int>>, v: int, ws: seq<int>, s: BfsState)
    requires BfsOk(adj, s) && 0 <= v < |adj| && s.dist[v] >= 0
    requires forall w :: w in ws ==> 0 <= w < |adj| && w in adj[v]
    ensures var r := Relax(adj, v, ws, s);
            forall u :: 0 <= u < |adj| && s.dist[u] == -1 && r.dist[u] != -1 ==> u in ws && r.dist[u] == s.dist[v] + 1
    decreases |ws|
  {
    if |ws| > 0 {
      var w := ws[0];
      assert w in ws;
      assert forall x :: x in ws[1..] ==> x in ws;
      if s.dist[w] == -1 {
        var s' := Reach(s, v, w);
        ReachOk(adj, s, v, w);
        assert Relax(adj, v, ws, s) == Relax(adj, v, ws[1..], s');
        RelaxReaches(adj, v, ws[1..], s');
      } else {
        RelaxReaches(adj, v, ws[1..], s);
      }
    }
  }

  /** The inner loop keeps every distance the length of a walk. */
  lemma {:induction false} RelaxParents(adj: seq<seq<int>>, v: int, ws: seq<int>, s: BfsState)
    requires BfsOk(adj, s) && 0 <= v < |adj| && s.dist[v] >= 0
    requires forall w :: w in ws ==> 0 <= w < |adj| && w in adj[v]
    ensures ParentOk(adj, s.dist) ==> ParentOk(adj, Relax(adj, v, ws, s).dist)
    decreases |ws|
  {
    if |ws| > 0 {
      var w := ws[0];
      assert w in ws;
      assert forall x :: x in ws[1..] ==> x in ws;
      if s.dist[w] == -1 {
        var s' := Reach(s, v, w);
        ReachOk(adj, s, v, w);
        assert Relax(adj, v, ws, s) == Relax(adj, v, ws[1..], s');
        ParentStep(adj, s.dist, v, w);
        RelaxParents(adj, v, ws[1..], s');
      } else {
        RelaxParents(adj, v, ws[1..], s);
      }
    }
  }

  /** The outer loop: dequeue a vertex and relax its neighbours until the queue is empty. */
  function BfsLoop(adj: seq<seq<int>>, s: BfsState): (r: BfsState)
    requires AdjValid(adj) && BfsOk(adj, s)
    ensures BfsOk(adj, r) && |r.queue| == 0
    ensures forall u :: 0 <= u < |adj| && s.dist[u] != -1 ==> r.dist[u] == s.dist[u]
    decreases Unvisited(s.dist), |s.queue|
  {
    if |s.queue| == 0 then s
    else
      var v := s.queue[0];
      assert v in s.queue;
      assert forall q :: q in s.queue[1..] ==> q in s.queue;
      var s1 := BfsState(s.dist, s.queue[1..], s.far);
      BfsLoop(adj, Relax(adj, v, adj[v], s1))
  }

  /** Distances before the search: 0 at the start, -1 elsewhere. */
  function Initial(n: nat, start: int): seq<int>
  {
    seq(n, v => if v == start then 0 else -1)
  }

  /** The final state of the breadth-first search from start. */
  function BfsFrom(adj: seq<seq<int>>, start: int): BfsState
    requires AdjValid(adj) && 0 <= start < |adj|
  {
    BfsLoop(adj, BfsState(Initial(|adj|, start), [start], (0, start)))
  }

  /** The (distance, vertex) pair the search returns. */
  function Bfs(adj: seq<seq<int>>, start: int): (int, int)
    requires AdjValid(adj) && 0 <= start < |adj|
  {
    BfsFrom(adj, start).far
  }

  /** The search returns a reached vertex of largest distance together with
      that distance; the start keeps distance 0; and when nothing else is
      reached the answer is (0, start). */
  lemma BfsFarthest(adj: seq<seq<int>>, start: int)
    requires AdjValid(adj) && 0 <= start < |adj|
    ensures var r, (d, w) := BfsFrom(adj, start), Bfs(adj, start);
            && 0 <= w < |adj| && r.dist[w] == d >= 0
            && r.dist[start] == 0
            && (forall v :: 0 <= v < |adj| ==> r.dist[v] <= d)
            && ((forall v :: 0 <= v < |adj| && v != start ==> r.dist[v] == -1) ==> (d, w) == (0, start))
  {
    var s0 := BfsState(Initial(|adj|, start), [start], (0, start));
    assert BfsOk(adj, s0);
  }

  /** One turn of the outer loop keeps the parent property, and it moves
      the loop's measure down. */
  lemma ParentTurn(adj: seq<seq<int>>, s: BfsState) returns (s2: BfsState)
    requires AdjValid(adj) && BfsOk(adj, s) && |s.queue| > 0
    ensures BfsOk(adj, s2) && BfsLoop(adj, s) == BfsLoop(adj, s2)
    ensures Unvisited(s2.dist) <= Unvisited(s.dist)
    ensures Unvisited(s2.dist) == Unvisited(s.dist) ==> |s2.queue| < |s.queue|
    ensures ParentOk(adj, s.dist) ==> ParentOk(adj, s2.dist)
  {
    var v := s.queue[0];
    assert v in s.queue;
    assert forall q :: q in s.queue[1..] ==> q in s.queue;
    var s1 := BfsState(s.dist, s.queue[1..], s.far);
    s2 := Relax(adj, v, adj[v], s1);
    assert BfsLoop(adj, s) == BfsLoop(adj, s2);
    RelaxParents(adj, v, adj[v], s1);
  }

  /** The outer loop keeps the parent property. */
  lemma {:induction false} BfsLoopParents(adj: seq<seq<int>>, s: BfsState)
    requires AdjValid(adj) && BfsOk(adj, s)
    ensures ParentOk(adj, s.dist) ==> ParentOk(adj, BfsLoop(adj, s).dist)
    decreases Unvisited(s.dist), |s.queue|
  {
    if |s.queue| > 0 {
      var s2 := ParentTurn(adj, s);
      BfsLoopParents(adj, s2);
    }
  }

  /** Every positive distance the search records belongs to a neighbour of a
      vertex one step nearer, so it is the length of a walk in the graph. */
  lemma BfsWalks(adj: seq<seq<int>>, start: int)
    requires AdjValid(adj) && 0 <= start < |adj|
    ensures var r := BfsFrom(adj, start);
            forall u :: 0 <= u < |adj| && r.dist[u] > 0 ==>
              exists p :: 0 <= p < |adj| && u in adj[p] && r.dist[p] == r.dist[u] - 1
  {
    var s0 := BfsState(Initial(|adj|, start), [start], (0, start));
    assert BfsOk(adj, s0);
    assert ParentOk(adj, s0.dist);
    BfsLoopParents(adj, s0);
  }

  /** The queue holds vertex indices. */
  predicate QueueIndexed(adj: seq<seq<int>>, s: BfsState)
  {
    |s.dist| == |adj| && forall i :: 0 <= i < |s.queue| ==> 0 <= s.queue[i] < |adj|
  }

  /** A reached vertex that has left the queue. */
  predicate Settled(s: BfsState, u: int)
  {
    0 <= u < |s.dist| && s.dist[u] >= 0 && u !in s.queue
  }

  /** The level structure of the search: queued distances never decrease
      along the queue and span at most one level; a settled vertex is no
      farther than any queued vertex, and its neighbours are all reached, at
      most one step farther. */
  ghost predicate LevelOk(adj: seq<seq<int>>, s: BfsState)
  {
    && AdjValid(adj) && QueueIndexed(adj, s)
    && (forall i, j :: 0 <= i <= j < |s.queue| ==> s.dist[s.queue[i]] <= s.dist[s.queue[j]])
    && (forall i :: 0 <= i < |s.queue| ==> s.dist[s.queue[i]] <= s.dist[s.queue[0]] + 1)
    && (forall u, i :: Settled(s, u) && 0 <= i < |s.queue| ==> s.dist[u] <= s.dist[s.queue[i]])
    && (forall u, w :: Settled(s, u) && w in adj[u] ==> s.dist[w] >= 0 && s.dist[w] <= s.dist[u] + 1)
  }

  /** The inner loop only appends, and what it appends is newly reached at
      v's distance + 1. */
  lemma {:induction false} RelaxQueue(adj: seq<seq<int>>, v: int, ws: seq<int>, s: BfsState)
    requires BfsOk(adj, s) && QueueIndexed(adj, s) && 0 <= v < |adj| && s.dist[v] >= 0
    requires forall w :: w in ws ==> 0 <= w < |adj| && w in adj[v]
    ensures var r := Relax(adj, v, ws, s);
            && QueueIndexed(adj, r)
            && |s.queue| <= |r.queue| && r.queue[..|s.queue|] == s.queue
            && forall i :: |s.queue| <= i < |r.queue| ==> s.dist[r.queue[i]] == -1 && r.dist[r.queue[i]] == s.dist[v] + 1
    decreases |ws|
  {
    if |ws| > 0 {
      var w := ws[0];
      assert w in ws;
      assert forall x :: x in ws[1..] ==> x in ws;
      if s.dist[w] == -1 {
        var s' := Reach(s, v, w);
        ReachOk(adj, s, v, w);
        assert Relax(adj, v, ws, s) == Relax(adj, v, ws[1..], s');
        assert QueueIndexed(adj, s') && s'.dist[v] == s.dist[v];
        RelaxQueue(adj, v, ws[1..], s');
        var r := Relax(adj, v, ws, s);
        assert r.queue[..|s'.queue|][..|s.queue|] == r.queue[..|s.queue|];
        forall i | |s.queue| <= i < |r.queue| ensures s.dist[r.queue[i]] == -1 && r.dist[r.queue[i]] == s.dist[v] + 1 {
          if i == |s.queue| {
            assert r.queue[i] == r.queue[..|s'.queue|][i] == w;
          } else {
            assert s'.dist[r.queue[i]] == -1;
          }
        }
      } else {
        RelaxQueue(adj, v, ws[1..], s);
      }
    }
  }

  /** After the inner loop every vertex of ws is reached. */
  lemma {:induction false} RelaxCovers(adj: seq<seq<int>>, v: int, ws: seq<int>, s: BfsState)
    requires BfsOk(adj, s) && 0 <= v < |adj| && s.dist[v] >= 0
    requires forall w :: w in ws ==> 0 <= w < |adj| && w in adj[v]
    ensures forall w :: w in ws ==> Relax(adj, v, ws, s).dist[w] != -1
    decreases |ws|
  {
    if |ws| > 0 {
      var w := ws[0];
      assert w in ws;
      assert forall x :: x in ws[1..] ==> x in ws;
      assert forall x :: x in ws ==> x == w || x in ws[1..];
      if s.dist[w] == -1 {
        var s' := Reach(s, v, w);
        ReachOk(adj, s, v, w);
        assert Relax(adj, v, ws, s) == Relax(adj, v, ws[1..], s');
        RelaxCovers(adj, v, ws[1..], s');
      } else {
        RelaxCovers(adj, v, ws[1..], s);
      }
    }
  }

  /** Every vertex the inner loop reaches is queued. */
  lemma {:induction false} RelaxQueues(adj: seq<seq<int>>, v: int, ws: seq<int>, s: BfsState)
    requires BfsOk(adj, s) && QueueIndexed(adj, s) && 0 <= v < |adj| && s.dist[v] >= 0
    requires forall w :: w in ws ==> 0 <= w < |adj| && w in adj[v]
    ensures var r := Relax(adj, v, ws, s);
            forall u :: 0 <= u < |adj| && s.dist[u] == -1 && r.dist[u] != -1 ==> u in r.queue
    decreases |ws|
  {
    if |ws| > 0 {
      var w := ws[0];
      assert w in ws;
      assert forall x :: x in ws[1..] ==> x in ws;
      if s.dist[w] == -1 {
        var s' := Reach(s, v, w);
        ReachOk(adj, s, v, w);
        assert Relax(adj, v, ws, s) == Relax(adj, v, ws[1..], s');
        RelaxQueues(adj, v, ws[1..], s');
        RelaxQueue(adj, v, ws[1..], s');
        var r := Relax(adj, v, ws, s);
        assert w in r.queue by {
          assert r.queue[..|s'.queue|] == s'.queue;
          assert r.queue[|s'.queue| - 1] == w;
        }
      } else {
        RelaxQueues(adj, v, ws[1..], s);
      }
    }
  }

  /** What one turn of the outer loop does, as LevelStep uses it: r is the
      state after dequeuing v = s.queue[0] and relaxing its neighbours. */
  ghost predicate TurnFacts(adj: seq<seq<int>>, s: BfsState, r: BfsState)
    requires AdjValid(adj) && QueueIndexed(adj, s) && QueueIndexed(adj, r) && |s.queue| > 0
  {
    var v, q1 := s.queue[0], s.queue[1..];
    && s.dist[v] >= 0
    && (forall u :: 0 <= u < |adj| && s.dist[u] >= 0 ==> r.dist[u] == s.dist[u])
    && (forall u :: 0 <= u < |adj| && s.dist[u] == -1 && r.dist[u] != -1 ==> u in r.queue)
    && (forall w :: w in adj[v] ==> r.dist[w] != -1)
    && |q1| <= |r.queue| && r.queue[..|q1|] == q1
    && (forall i :: |q1| <= i < |r.queue| ==> s.dist[r.queue[i]] == -1 && r.dist[r.queue[i]] == s.dist[v] + 1)
  }

  /** After a turn the queue spans the levels d and d + 1 of the dequeued vertex, in order. */
  lemma LevelQueue(adj: seq<seq<int>>, s: BfsState, r: BfsState)
    requires LevelOk(adj, s) && QueueIndexed(adj, r) && |s.queue| > 0 && TurnFacts(adj, s, r)
    ensures forall i :: 0 <= i < |r.queue| ==> s.dist[s.queue[0]] <= r.dist[r.queue[i]] <= s.dist[s.queue[0]] + 1
    ensures forall i, j :: 0 <= i <= j < |r.queue| ==> r.dist[r.queue[i]] <= r.dist[r.queue[j]]
  {
    var q, q1 := s.queue, s.queue[1..];
    assert forall i :: 0 <= i < |q1| ==> r.queue[i] == q[i + 1];
  }

  /** A vertex settled after the turn was reached before it, and is either the
      dequeued vertex or was settled already. */
  lemma LevelSettled(adj: seq<seq<int>>, s: BfsState, r: BfsState, u: int)
    requires LevelOk(adj, s) && BfsOk(adj, s) && QueueIndexed(adj, r) && |s.queue| > 0 && TurnFacts(adj, s, r)
    requires Settled(r, u)
    ensures s.dist[u] >= 0 && r.dist[u] == s.dist[u]
    ensures u == s.queue[0] || Settled(s, u)
  {
  }

  /** One turn of the outer loop keeps the level structure. */
  lemma LevelStep(adj: seq<seq<int>>, s: BfsState, r: BfsState)
    requires LevelOk(adj, s) && BfsOk(adj, s) && BfsOk(adj, r) && QueueIndexed(adj, r)
    requires |s.queue| > 0 && TurnFacts(adj, s, r)
    ensures LevelOk(adj, r)
  {
    var v, q := s.queue[0], s.queue;
    LevelQueue(adj, s, r);
    forall u, i | Settled(r, u) && 0 <= i < |r.queue| ensures r.dist[u] <= r.dist[r.queue[i]] {
      LevelSettled(adj, s, r, u);
    }
    forall u, w | Settled(r, u) && w in adj[u] ensures r.dist[w] >= 0 && r.dist[w] <= r.dist[u] + 1 {
      LevelSettled(adj, s, r, u);
      if u != v {
        assert Settled(s, u);
      } else if s.dist[w] == -1 {
        assert w in r.queue;
        var i :| 0 <= i < |r.queue| && r.queue[i] == w;
      } else if w in q {
        var i :| 0 <= i < |q| && q[i] == w;
      } else {
        assert Settled(s, w);
      }
    }
  }

  /** The facts the inner-loop lemmas give about a turn, with s1 the state
      after the dequeue and r the state after relaxing, make up TurnFacts. */
  lemma TurnFactsOf(adj: seq<seq<int>>, s: BfsState, s1: BfsState, r: BfsState)
    requires AdjValid(adj) && QueueIndexed(adj, s) && |s.queue| > 0
    requires s1 == BfsState(s.dist, s.queue[1..], s.far) && s.dist[s.queue[0]] >= 0
    requires QueueIndexed(adj, r) && |s1.queue| <= |r.queue| && r.queue[..|s1.queue|] == s1.queue
    requires forall i :: |s1.queue| <= i < |r.queue| ==> s1.dist[r.queue[i]] == -1 && r.dist[r.queue[i]] == s1.dist[s.queue[0]] + 1
    requires forall u :: 0 <= u < |adj| && s1.dist[u] != -1 ==> r.dist[u] == s1.dist[u]
    requires forall u :: 0 <= u < |adj| && s1.dist[u] == -1 && r.dist[u] != -1 ==> u in r.queue
    requires forall w :: w in adj[s.queue[0]] ==> r.dist[w] != -1
    ensures TurnFacts(adj, s, r)
  {
  }

  /** Dequeuing the head keeps the state well formed; the head is a reached
      vertex whose neighbours are vertex indices. */
  lemma Dequeue(adj: seq<seq<int>>, s: BfsState)
    requires AdjValid(adj) && BfsOk(adj, s) && QueueIndexed(adj, s) && |s.queue| > 0
    ensures var v, s1 := s.queue[0], BfsState(s.dist, s.queue[1..], s.far);
            && 0 <= v < |adj| && s.dist[v] >= 0
            && BfsOk(adj, s1) && QueueIndexed(adj, s1)
            && forall w :: w in adj[v] ==> 0 <= w < |adj| && w in adj[v]
  {
    assert s.queue[0] in s.queue;
    assert forall q :: q in s.queue[1..] ==> q in s.queue;
  }

  /** The turn that dequeues s.queue[0] satisfies TurnFacts. */
  lemma TurnFactsHold(adj: seq<seq<int>>, s: BfsState)
    requires AdjValid(adj) && BfsOk(adj, s) && QueueIndexed(adj, s) && |s.queue| > 0
    ensures var v := s.queue[0];
            && 0 <= v < |adj| && s.dist[v] >= 0
            && BfsOk(adj, BfsState(s.dist, s.queue[1..], s.far))
            && var r := Relax(adj, v, adj[v], BfsState(s.dist, s.queue[1..], s.far));
               QueueIndexed(adj, r) && TurnFacts(adj, s, r)
  {
    var v := s.queue[0];
    var s1 := BfsState(s.dist, s.queue[1..], s.far);
    Dequeue(adj, s);
    RelaxQueue(adj, v, adj[v], s1);
    RelaxCovers(adj, v, adj[v], s1);
    RelaxQueues(adj, v, adj[v], s1);
    TurnFactsOf(adj, s, s1, Relax(adj, v, adj[v], s1));
  }

  /** A whole turn of the outer loop keeps the level structure. */
  lemma LevelTurn(adj: seq<seq<int>>, s: BfsState)
    requires AdjValid(adj) && BfsOk(adj, s) && LevelOk(adj, s) && |s.queue| > 0
    ensures var v := s.queue[0];
            && 0 <= v < |adj| && s.dist[v] >= 0
            && BfsOk(adj, BfsState(s.dist, s.queue[1..], s.far))
            && LevelOk(adj, Relax(adj, v, adj[v], BfsState(s.dist, s.queue[1..], s.far)))
  {
    TurnFactsHold(adj, s);
    var v := s.queue[0];
    LevelStep(adj, s, Relax(adj, v, adj[v], BfsState(s.dist, s.queue[1..], s.far)));
  }

  lemma {:induction false} BfsLoopLevels(adj: seq<seq<int>>, s: BfsState)
    requires AdjValid(adj) && BfsOk(adj, s) && LevelOk(adj, s)
    ensures LevelOk(adj, BfsLoop(adj, s))
    decreases Unvisited(s.dist), |s.queue|
  {
    if |s.queue| > 0 {
      var v := s.queue[0];
      LevelTurn(adj, s);
      var s2 := Relax(adj, v, adj[v], BfsState(s.dist, s.queue[1..], s.far));
      assert BfsLoop(adj, s) == BfsLoop(adj, s2);
      assert Unvisited(s2.dist) <= Unvisited(s.dist);
      assert Unvisited(s2.dist) == Unvisited(s.dist) ==> |s2.queue| < |s.queue|;
      BfsLoopLevels(adj, s2);
    }
  }

  /** When the search ends, every neighbour of a reached vertex is reached, at
      most one step farther from the start. With BfsWalks this makes each
      recorded distance the length of a shortest walk from the start. */
  lemma BfsClosed(adj: seq<seq<int>>, start: int)
    requires AdjValid(adj) && 0 <= start < |adj|
    ensures var r := BfsFrom(adj, start);
            && r.dist[start] == 0
            && forall u, w :: 0 <= u < |adj| && r.dist[u] >= 0 && w in adj[u] ==> 0 <= r.dist[w] <= r.dist[u] + 1
  {
    InitialLevels(adj, start);
    BfsLoopLevels(adj, BfsState(Initial(|adj|, start), [start], (0, start)));
    BfsFarthest(adj, start);
    var r := BfsFrom(adj, start);
    assert forall u :: 0 <= u < |adj| && r.dist[u] >= 0 ==> Settled(r, u);
  }

  /** The search starts with the level structure in place. */
  lemma InitialLevels(adj: seq<seq<int>>, start: int)
    requires AdjValid(adj) && 0 <= start < |adj|
    ensures var s0 := BfsState(Initial(|adj|, start), [start], (0, start));
            BfsOk(adj, s0) && LevelOk(adj, s0)
  {
  }

  /** p is a walk: vertex indices, each a neighbour of the one before. */
  predicate IsWalk(adj: seq<seq<int>>, p: seq<int>)
  {
    && |p| >= 1
    && (forall i :: 0 <= i < |p| ==> 0 <= p[i] < |adj|)
    && (forall i :: 1 <= i < |p| ==> p[i] in adj[p[i - 1]])
  }

  /** The search reaches the end of every walk from the start, at a distance
      no larger than the walk's length. With BfsWalks, each recorded distance
      is the length of a shortest walk. */
  lemma {:induction false} BfsShortest(adj: seq<seq<int>>, start: int, p: seq<int>)
    requires AdjValid(adj) && 0 <= start < |adj| && IsWalk(adj, p) && p[0] == start
    ensures 0 <= BfsFrom(adj, start).dist[p[|p| - 1]] <= |p| - 1
    decreases |p|
  {
    BfsClosed(adj, start);
    if |p| > 1 {
      var p' := p[..|p| - 1];
      assert IsWalk(adj, p');
      BfsShortest(adj, start, p');
      assert p[|p| - 1] in adj[p'[|p'| - 1]];
    }
  }

  /** Half the diameter, rounded up: a search from vertex 0 finds a far
      endpoint, a second search from there measures d, and the answer is
      ceil(d / 2). */
  function HalfDiameter(adj: seq<seq<int>>): (r: int)
    requires AdjValid(adj) && |adj| >= 1
    ensures var d := Bfs(adj, Bfs(adj, 0).1).0; 2 * r - 1 <= d <= 2 * r
  {
    var e := Bfs(adj, 0).1;
    BfsFarthest(adj, 0);
    var d := Bfs(adj, e).0;
    (d + 1) / 2
  }

  // ---------------------------------------------- the all-different cascade

  /** The tree branch: half the diameter of g's neighbour lists. */
  function TreeBound(g: Graph): int
    requires Valid(g) && g.n >= 1
  {
    NeighboursValid(g);
    HalfDiameter(Neighbours(g))
  }

  /** Every entry of s equals d. */
  predicate AllEqual(s: seq<int>, d: int)
  {
    forall v :: 0 <= v < |s| ==> s[v] == d
  }

  function Pow2(c: nat): nat
  {
    if c == 0 then 1 else 2 * Pow2(c - 1)
  }

  /** ceil(log2 n): the least exponent c with 2^c >= n. */
  function CeilLog2(n: nat): (c: nat)
    ensures Pow2(c) >= n
    ensures c == 0 || Pow2(c - 1) < n
    decreases n
  {
    if n <= 1 then 0 else 1 + CeilLog2((n + 1) / 2)
  }

  /** The density fallback. The density 2m / (n(n - 1)) is compared with 0.1
      and 0.5; clearing the denominators gives the integer tests below. A
      sparse graph gets ceil(log2 n), a medium one ceil(n / 4), a dense one
      ceil(n / 2). */
  function DensityBound(n: nat, m: nat): (k: int)
    requires n >= 2
    ensures k >= 1
    ensures 20 * m < n * (n - 1) ==> Pow2(k) >= n && (k == 0 || Pow2(k - 1) < n)
    ensures !(20 * m < n * (n - 1)) && 4 * m < n * (n - 1) ==> n <= 4 * k < n + 4
    ensures !(4 * m < n * (n - 1)) ==> n <= 2 * k < n + 2
  {
    var pairs := n * (n - 1);
    if 20 * m < pairs then CeilLog2(n)
    else if 4 * m < pairs then (n + 3) / 4
    else (n + 1) / 2
  }

  /** The cascade, first match wins: clique, star, path pattern, cycle
      pattern, tree, and otherwise the density fallback. None where the
      computation breaks down: with no vertex (the maximum of no degrees) and
      with a single vertex that reaches the density test (a division by zero). */
  function Estimate(g: Graph): Option<int>
    requires Valid(g)
  {
    if g.n == 0 then None
    else
      var n, m, deg := g.n, |g.edges|, Degrees(g);
      if AllEqual(deg, n - 1) then Some(n / 2)
      else if Count(deg, 1) == n - 1 && Max(deg) == n - 1 then Some(n / 2)
      else if Count(deg, 1) == 2 && Count(deg, 2) == n - 2 then Some(1)
      else if Count(deg, 2) == n then Some(1)
      else if m == n - 1 then Some(TreeBound(g))
      else if n == 1 then None
      else Some(DensityBound(n, m))
  }

  /** The clique and star tests are exact: on a graph with a vertex adjacent
      to every other one (every complete graph, every star) that either test
      recognises, the estimate is the cyclic bandwidth itself. */
  lemma EstimateHub(g: Graph, c: int)
    requires Valid(g) && g.n >= 2 && 1 <= c <= g.n
    requires forall w :: 1 <= w <= g.n && w != c ==> Adjacent(g, c, w)
    ensures var deg := Degrees(g);
            AllEqual(deg, g.n - 1) || (Count(deg, 1) == g.n - 1 && Max(deg) == g.n - 1) ==>
              Estimate(g).Some? && Feasible(g, Estimate(g).value) && !Feasible(g, Estimate(g).value - 1)
  {
    HubBound(g, c);
  }

  /** With five or more vertices and not a tree by edge count, the answer 1
      comes only from a degree sequence of 1s and 2s. */
  lemma EstimateOne(g: Graph)
    requires Valid(g) && g.n >= 5 && |g.edges| != g.n - 1
    ensures Estimate(g) == Some(1) ==> forall v :: 0 <= v < g.n ==> Degrees(g)[v] == 1 || Degrees(g)[v] == 2
  {
    var deg := Degrees(g);
    CountTwo(deg, 1, 2);
    DensityAtLeastTwo(g.n, |g.edges|);
  }

  /** From five vertices on, the density fallback is at least 2. */
  lemma DensityAtLeastTwo(n: nat, m: nat)
    requires n >= 5
    ensures DensityBound(n, m) >= 2
  {
    assert Pow2(0) == 1 && Pow2(1) == 2 && Pow2(2) == 4;
  }

  // ------------------------------------------------------ the sound bound

  /** The bound every labelling meets: no cyclic distance exceeds n / 2. */
  function SafeBound(g: Graph): (k: int)
    requires Valid(g)
    ensures forall lab :: IsLabelling(g.n, lab) ==> WithinBound(g, lab, k)
    ensures g.n >= 1 ==> FeasibleFromOne(g, k)
  {
    if g.n >= 1 then HalfIsFeasible(g); g.n / 2 else g.n / 2
  }
}

=== FILE: graphs.dfy ===
/**
  Graphs and labellings. Vertices are 1..n; an edge is an ordered pair of
  endpoints. A labelling `lab` gives vertex v the label `lab[v - 1]`.
 */
module Graphs {
  import opened Cyclic

  type Edge = (int, int)

  datatype Graph = Graph(n: nat, edges: seq<Edge>)

  /** Every endpoint names a vertex (the reader's contract with the core). */
  predicate Valid(g: Graph)
  {
    forall e :: e in g.edges ==> 1 <= e.0 <= g.n && 1 <= e.1 <= g.n
  }

  /** An injective labelling of n vertices with labels 1..n. */
  predicate IsLabelling(n: int, lab: seq<int>)
  {
    && |lab| == n
    && (forall v :: 0 <= v < |lab| ==> 1 <= lab[v] <= n)
    && (forall v, w :: 0 <= v < w < |lab| ==> lab[v] != lab[w])
  }

  /** Every edge joins two labels at cyclic distance at most k. */
  predicate WithinBound(g: Graph, lab: seq<int>, k: int)
    requires Valid(g) && |lab| == g.n
  {
    forall e :: e in g.edges ==> Dist(g.n, lab[e.0 - 1], lab[e.1 - 1]) <= k
  }

  /** The cyclic bandwidth of g is at most k. */
  ghost predicate Feasible(g: Graph, k: int)
    requires Valid(g)
  {
    exists lab :: IsLabelling(g.n, lab) && WithinBound(g, lab, k)
  }

  /** The cyclic bandwidth of g is at most k, witnessed by a labelling giving vertex 1 the label 1. */
  ghost predicate FeasibleFromOne(g: Graph, k: int)
    requires Valid(g)
  {
    exists lab :: IsLabelling(g.n, lab) && g.n >= 1 && lab[0] == 1 && WithinBound(g, lab, k)
  }

  function Elems(s: seq<int>): set<int>
  {
    set x | x in s
  }

  lemma {:induction false} DistinctCard(s: seq<int>)
    requires forall v, w :: 0 <= v < w < |s| ==> s[v] != s[w]
    ensures |Elems(s)| == |s|
  {
    if |s| > 0 {
      var p := s[..|s| - 1];
      DistinctCard(p);
      assert Elems(s) == Elems(p) + {s[|s| - 1]};
      assert s[|s| - 1] !in Elems(p);
    }
  }

  /** Pigeonhole: an injective labelling of n vertices with labels 1..n uses every label. */
  lemma LabellingIsOnto(n: int, lab: seq<int>, j: int)
    requires IsLabelling(n, lab) && 1 <= j <= n
    ensures exists v :: 0 <= v < n && lab[v] == j
  {
    var ids := Identity(n);
    DistinctCard(lab);
    DistinctCard(ids);
    var e := Elems(lab);
    var iv := Elems(ids);
    assert e <= iv by {
      forall x | x in e ensures x in iv {
        assert ids[x - 1] == x;
      }
    }
    assert |iv - e| == |iv| - |e|;
    assert iv - e == {};
    assert ids[j - 1] == j;
    assert j in iv;
    assert j !in iv - e;
    assert j in e;
  }

  /** Labels 1..n in vertex order. */
  function Identity(n: nat): (lab: seq<int>)
    ensures IsLabelling(n, lab)
    ensures n >= 1 ==> lab[0] == 1
  {
    seq(n, v => v + 1)
  }

  /** Any labelling keeps every edge within n // 2, so n // 2 is always feasible. */
  lemma HalfIsFeasible(g: Graph)
    requires Valid(g) && g.n >= 1
    ensures FeasibleFromOne(g, g.n / 2)
  {
    var lab := Identity(g.n);
    assert WithinBound(g, lab, g.n / 2);
  }

  /** Every label of lab turned r steps around the cycle. */
  function Turn(n: int, lab: seq<int>, r: int): seq<int>
    requires n >= 1
  {
    seq(|lab|, v requires 0 <= v < |lab| => Rotate(n, lab[v], r))
  }

  /** The labelling lab turned so that vertex 1 receives label 1. */
  function Normalise(n: int, lab: seq<int>): seq<int>
    requires n >= 1 && IsLabelling(n, lab)
  {
    Turn(n, lab, 1 - lab[0])
  }

  /** Symmetry breaking is sound: every feasible bound stays feasible once vertex 1 is fixed to label 1. */
  lemma NormaliseKeepsBound(g: Graph, lab: seq<int>, k: int)
    requires Valid(g) && g.n >= 1 && IsLabelling(g.n, lab) && WithinBound(g, lab, k)
    ensures IsLabelling(g.n, Normalise(g.n, lab))
    ensures Normalise(g.n, lab)[0] == 1
    ensures WithinBound(g, Normalise(g.n, lab), k)
  {
    TurnKeepsBound(g, lab, k, 1 - lab[0]);
  }

  /** Turning every label by the same amount keeps a labelling within its bound. */
  lemma TurnKeepsBound(g: Graph, lab: seq<int>, k: int, r: int)
    requires Valid(g) && g.n >= 1 && IsLabelling(g.n, lab) && WithinBound(g, lab, k)
    ensures IsLabelling(g.n, Turn(g.n, lab, r))
    ensures WithinBound(g, Turn(g.n, lab, r), k)
  {
    var n := g.n;
    var lab' := Turn(n, lab, r);
    forall v, w | 0 <= v < w < n
      ensures lab'[v] != lab'[w]
    {
      RotateKeepsDist(n, lab[v], lab[w], r);
    }
    forall e | e in g.edges
      ensures Dist(n, lab'[e.0 - 1], lab'[e.1 - 1]) <= k
    {
      RotateKeepsDist(n, lab[e.0 - 1], lab[e.1 - 1], r);
    }
  }

  lemma FeasibleIffFromOne(g: Graph, k: int)
    requires Valid(g) && g.n >= 1
    ensures Feasible(g, k) <==> FeasibleFromOne(g, k)
  {
    if Feasible(g, k) {
      var lab :| IsLabelling(g.n, lab) && WithinBound(g, lab, k);
      NormaliseKeepsBound(g, lab, k);
      assert IsLabelling(g.n, Normalise(g.n, lab));
    }
  }

  // ------------------------------------------------- neighbourhood pigeonhole

  /** Some edge joins v and w, in either order. */
  predicate Adjacent(g: Graph, v: int, w: int)
  {
    (v, w) in g.edges || (w, v) in g.edges
  }

  /** Pigeonhole: distinct values in 1..m number at most m. */
  lemma DistinctWithin(s: seq<int>, m: nat)
    requires forall v, w :: 0 <= v < w < |s| ==> s[v] != s[w]
    requires forall v :: 0 <= v < |s| ==> 1 <= s[v] <= m
    ensures |s| <= m
  {
    var ids := Identity(m);
    DistinctCard(s);
    DistinctCard(ids);
    assert Elems(s) <= Elems(ids) by {
      forall x | x in Elems(s) ensures x in Elems(ids) {
        assert ids[x - 1] == x;
      }
    }
    assert |Elems(ids) - Elems(s)| == |Elems(ids)| - |Elems(s)|;
  }

  /** Labels other than 1 within cyclic distance k of label 1 are at most 2k:
      the slot x - 1 (for 2..k + 1) or x + 2k - n (for n + 1 - k..n) tells
      them apart. */
  lemma NearLabels(n: int, k: nat, ls: seq<int>)
    requires forall i, j :: 0 <= i < j < |ls| ==> ls[i] != ls[j]
    requires forall i :: 0 <= i < |ls| ==> 2 <= ls[i] <= n && Dist(n, 1, ls[i]) <= k
    ensures |ls| <= 2 * k
  {
    var slots := seq(|ls|, i requires 0 <= i < |ls| => if ls[i] - 1 <= k then ls[i] - 1 else ls[i] + 2 * k - n);
    forall i, j | 0 <= i < j < |slots| ensures slots[i] != slots[j] {
    }
    DistinctWithin(slots, 2 * k);
  }

  /** Around the cycle only 2k labels lie within distance k of a label,
      other than that label: a vertex with d distinct neighbours needs a bound
      of at least d / 2, rounded up. */
  lemma NeighbourhoodBound(g: Graph, v: int, nbrs: seq<int>, k: int)
    requires Valid(g) && 1 <= v <= g.n && k >= 0
    requires forall i, j :: 0 <= i < j < |nbrs| ==> nbrs[i] != nbrs[j]
    requires forall i :: 0 <= i < |nbrs| ==> 1 <= nbrs[i] <= g.n && nbrs[i] != v && Adjacent(g, v, nbrs[i])
    ensures Feasible(g, k) ==> |nbrs| <= 2 * k
  {
    if Feasible(g, k) {
      var lab :| IsLabelling(g.n, lab) && WithinBound(g, lab, k);
      var r := 1 - lab[v - 1];
      TurnKeepsBound(g, lab, k, r);
      var lab' := Turn(g.n, lab, r);
      assert lab'[v - 1] == Rotate(g.n, lab[v - 1], r) == 0 % g.n + 1 == 1;
      NeighboursNearOne(g, lab', v, nbrs, k);
    }
  }

  /** The same count for a labelling that already gives v the label 1. */
  lemma NeighboursNearOne(g: Graph, lab: seq<int>, v: int, nbrs: seq<int>, k: nat)
    requires Valid(g) && IsLabelling(g.n, lab) && WithinBound(g, lab, k)
    requires 1 <= v <= g.n && lab[v - 1] == 1
    requires forall i, j :: 0 <= i < j < |nbrs| ==> nbrs[i] != nbrs[j]
    requires forall i :: 0 <= i < |nbrs| ==> 1 <= nbrs[i] <= g.n && nbrs[i] != v && Adjacent(g, v, nbrs[i])
    ensures |nbrs| <= 2 * k
  {
    var n := g.n;
    var ls := seq(|nbrs|, i requires 0 <= i < |nbrs| => lab[nbrs[i] - 1]);
    forall i, j | 0 <= i < j < |ls| ensures ls[i] != ls[j] {
      assert nbrs[i] - 1 != nbrs[j] - 1;
    }
    forall i | 0 <= i < |ls| ensures 2 <= ls[i] <= n && Dist(n, 1, ls[i]) <= k {
      NeighbourNear(g, lab, v, nbrs[i], k);
    }
    NearLabels(n, k, ls);
  }

  lemma NeighbourNear(g: Graph, lab: seq<int>, v: int, w: int, k: int)
    requires Valid(g) && IsLabelling(g.n, lab) && WithinBound(g, lab, k)
    requires 1 <= v <= g.n && lab[v - 1] == 1 && 1 <= w <= g.n && w != v && Adjacent(g, v, w)
    ensures 2 <= lab[w - 1] <= g.n && Dist(g.n, 1, lab[w - 1]) <= k
  {
    assert v - 1 != w - 1;
    DistSymmetric(g.n, lab[w - 1], 1);
  }

  /** A vertex adjacent to every other vertex (the centre of a star, any
      vertex of a complete graph) makes n / 2 the exact cyclic bandwidth. */
  lemma HubBound(g: Graph, c: int)
    requires Valid(g) && g.n >= 2 && 1 <= c <= g.n
    requires forall w :: 1 <= w <= g.n && w != c ==> Adjacent(g, c, w)
    ensures Feasible(g, g.n / 2)
    ensures !Feasible(g, g.n / 2 - 1)
  {
    HalfIsFeasible(g);
    var others := seq(g.n - 1, i => if i + 1 < c then i + 1 else i + 2);
    NeighbourhoodBound(g, c, others, g.n / 2 - 1);
  }
}

=== FILE: instances.dfy ===
/**
  Concrete graphs on which the estimators and the permutation search go
  wrong, used by the findings: two disjoint triangles (every degree is 2, so
  both estimators answer 1, yet the cyclic bandwidth is 2), an edge next to
  a triangle (the degree pattern of a path, so the classifier answers 1, yet
  the cyclic bandwidth is 2), a spider (a tree
  whose half diameter 2 is below its cyclic bandwidth 3) and the complete
  graph on 8 or 9 vertices (its probe is UNSAT at 3 and SAT at 6, which traps
  the permutation search).
 */
module Instances {
  import opened Wrappers
  import opened Cyclic
  import opened Graphs
  import opened Search
  import opened Estimator
  import opened Permutations
  import opened Alldiff

  // ----------------------------------------------------------- two triangles

  /** The triangles 1-2-3 and 4-5-6. */
  function TwoTriangles(): Graph
  {
    Graph(6, [(1, 2), (2, 3), (3, 1), (4, 5), (5, 6), (6, 4)])
  }

  /** Every vertex of the two triangles has degree 2. */
  lemma TwoTrianglesDegrees()
    ensures Valid(TwoTriangles())
    ensures Degrees(TwoTriangles()) == [2, 2, 2, 2, 2, 2]
  {
    var es := TwoTriangles().edges;
    EdgeStep(es, 0);
    EdgeStep(es, 1);
    EdgeStep(es, 2);
    EdgeStep(es, 3);
    EdgeStep(es, 4);
    EdgeStep(es, 5);
    assert es[..0] == [] && es[..6] == es;
    forall v | 0 <= v < 6 ensures Degrees(TwoTriangles())[v] == 2 {
      assert Occurrences(es[..1], v + 1) == (if v + 1 == 1 || v + 1 == 2 then 1 else 0);
      assert Occurrences(es[..2], v + 1) == (if v + 1 == 1 || v + 1 == 3 then 1 else 0) + (if v + 1 == 2 then 2 else 0);
      assert Occurrences(es[..3], v + 1) == (if v + 1 <= 3 then 2 else 0);
      assert Occurrences(es, v + 1) == 2;
    }
  }

  /** Both estimators answer 1 on the two triangles: the classifier of the SAT
      front-ends and the cycle branch of the all-different cascade. */
  lemma TwoTrianglesEstimates()
    ensures Valid(TwoTriangles())
    ensures DegreeClassBound(TwoTriangles()) == 1
    ensures Estimate(TwoTriangles()) == Some(1)
  {
    var deg := Degrees(TwoTriangles());
    TwoTrianglesDegrees();
    CountAll(deg, 2);
    CountTwo(deg, 1, 2);
    assert !AllEqual(deg, 5) by {
      assert deg[0] == 2;
    }
  }

  /** No labelling keeps all three edges of a triangle within 1 on a cycle of 6:
      three distinct labels cannot be pairwise neighbours there. */
  lemma TwoTrianglesNotOne()
    ensures Valid(TwoTriangles())
    ensures !Feasible(TwoTriangles(), 1)
  {
    var g := TwoTriangles();
    TwoTrianglesDegrees();
    forall lab | IsLabelling(6, lab) ensures !WithinBound(g, lab, 1) {
      assert (1, 2) in g.edges && (2, 3) in g.edges && (3, 1) in g.edges;
      var a, b, c := lab[0], lab[1], lab[2];
      assert a != b && b != c && a != c;
      if Dist(6, a, b) <= 1 && Dist(6, b, c) <= 1 {
        assert Dist(6, c, a) > 1;
      }
    }
  }

  /** The identity labelling keeps both triangles within 2, so with the
      lemma above the cyclic bandwidth of the two triangles is exactly 2. */
  lemma TwoTrianglesTwo()
    ensures Valid(TwoTriangles())
    ensures FeasibleFromOne(TwoTriangles(), 2)
  {
    var g := TwoTriangles();
    TwoTrianglesDegrees();
    var lab := Identity(6);
    assert lab[0] == 1 && lab[1] == 2 && lab[2] == 3 && lab[3] == 4 && lab[4] == 5 && lab[5] == 6;
    forall e | e in g.edges ensures Dist(6, lab[e.0 - 1], lab[e.1 - 1]) <= 2 {
    }
    assert WithinBound(g, lab, 2);
  }

  /** Fed the classifier's bound, the binary search over a sound probe for the
      two triangles finds no satisfiable bound, and the written exit test does
      not notice it. */
  lemma TwoTrianglesSearch<M>(probe: int -> Option<M>)
    requires forall k :: probe(k).Some? <==> Feasible(TwoTriangles(), k)
    ensures Valid(TwoTriangles())
    ensures var r := BinarySearch(probe, DegreeClassBound(TwoTriangles()));
            Fails(r) && !FailsAsWritten(r) && r.model == None
  {
    TwoTrianglesEstimates();
    TwoTrianglesNotOne();
    FailureMissedAsWritten(probe, 1);
    FailureDetected(probe, 1);
  }

  /** The all-different front-end solves once, at the estimate 1, and reports
      that no labelling exists on a graph whose cyclic bandwidth is 2. */
  lemma TwoTrianglesAlldiff(g: Graph)
    requires g == TwoTriangles()
    ensures Valid(g)
    ensures Run(g) == Some(NoLabelling)
  {
    TwoTrianglesEstimates();
    TwoTrianglesNotOne();
    FeasibleIffFromOne(g, 1);
    RunMeaning(g);
  }

  /** At the bound n / 2 = 3 the same solve finds a labelling. */
  lemma TwoTrianglesAlldiffHalf(g: Graph)
    requires g == TwoTriangles()
    ensures Valid(g)
    ensures SolveAt(g, 3).Labelled?
  {
    TwoTrianglesDegrees();
    assert Loopless(g);
    SolveAtHalf(g);
  }

  // ------------------------------------------------- an edge and a triangle

  /** The edge 1-2 next to the triangle 3-4-5: the degree pattern of a path,
      two vertices of degree 1 and the rest of degree 2, without being one. */
  function EdgeAndTriangle(): Graph
  {
    Graph(5, [(1, 2), (3, 4), (4, 5), (5, 3)])
  }

  /** The degrees are 1, 1, 2, 2, 2. */
  lemma EdgeAndTriangleDegrees(g: Graph)
    requires g == EdgeAndTriangle()
    ensures Valid(g)
    ensures Degrees(g) == [1, 1, 2, 2, 2]
  {
    var es := g.edges;
    EdgeStep(es, 0);
    EdgeStep(es, 1);
    EdgeStep(es, 2);
    EdgeStep(es, 3);
    assert es[..0] == [] && es[..4] == es;
    forall v | 0 <= v < 5 ensures Degrees(g)[v] == [1, 1, 2, 2, 2][v] {
      var x := v + 1;
      assert Occurrences(es[..1], x) == (if x == 1 || x == 2 then 1 else 0);
      assert Occurrences(es[..2], x) == (if x <= 4 then 1 else 0);
      assert Occurrences(es[..3], x) == (if x == 4 then 2 else 1);
    }
  }

  /** Two vertices of degree 1 and three of degree 2: the path pattern. */
  lemma EdgeAndTrianglePattern(g: Graph)
    requires g == EdgeAndTriangle()
    ensures Valid(g)
    ensures Count(Degrees(g), 1) == 2 && Count(Degrees(g), 2) == 3
  {
    var deg := Degrees(g);
    EdgeAndTriangleDegrees(g);
    assert deg[..4][..3] == deg[..3] && deg[..3][..2] == deg[..2] && deg[..2][..1] == deg[..1];
    assert deg[..5] == deg;
    assert Count(deg[..1], 1) == 1 && Count(deg[..1], 2) == 0;
    assert Count(deg[..2], 1) == 2 && Count(deg[..2], 2) == 0;
    assert Count(deg[..3], 1) == 2 && Count(deg[..3], 2) == 1;
    assert Count(deg[..4], 1) == 2 && Count(deg[..4], 2) == 2;
  }

  /** The path test of the classifier answers 1, but the triangle has no
      labelling within 1 on a cycle of 5, while n / 2 = 2 is met: the cyclic
      bandwidth is 2. */
  lemma EdgeAndTriangleBandwidth(g: Graph)
    requires g == EdgeAndTriangle()
    ensures Valid(g)
    ensures DegreeClassBound(g) == 1
    ensures !Feasible(g, 1) && Feasible(g, 2)
  {
    EdgeAndTrianglePattern(g);
    forall lab | IsLabelling(5, lab) ensures !WithinBound(g, lab, 1) {
      assert (3, 4) in g.edges && (4, 5) in g.edges && (5, 3) in g.edges;
      var a, b, c := lab[2], lab[3], lab[4];
      assert a != b && b != c && a != c;
      if Dist(5, a, b) <= 1 && Dist(5, b, c) <= 1 {
        assert Dist(5, c, a) > 1;
      }
    }
    HalfIsFeasible(g);
    FeasibleIffFromOne(g, 2);
  }

  /** Fed the classifier's bound, the binary search over a sound probe finds
      no satisfiable bound, and the written exit test does not notice it. */
  lemma EdgeAndTriangleSearch<M>(g: Graph, probe: int -> Option<M>)
    requires g == EdgeAndTriangle()
    requires forall k :: probe(k).Some? <==> Feasible(g, k)
    ensures Valid(g)
    ensures var r := BinarySearch(probe, DegreeClassBound(g));
            Fails(r) && !FailsAsWritten(r) && r.model == None
  {
    EdgeAndTriangleBandwidth(g);
    FailureMissedAsWritten(probe, 1);
    FailureDetected(probe, 1);
  }

  /** The all-different cascade also takes the path branch and answers 1, so
      its single solve reports that no labelling exists. */
  lemma EdgeAndTriangleAlldiff(g: Graph)
    requires g == EdgeAndTriangle()
    ensures Valid(g)
    ensures Estimate(g) == Some(1)
    ensures Run(g) == Some(NoLabelling)
  {
    var deg := Degrees(g);
    EdgeAndTriangleDegrees(g);
    EdgeAndTrianglePattern(g);
    assert !AllEqual(deg, 4) by {
      assert deg[0] == 1;
    }
    EdgeAndTriangleBandwidth(g);
    FeasibleIffFromOne(g, 1);
    RunMeaning(g);
  }

  // ------------------------------------------------------------- the spider

  /** A star with centre 1 and leaves 2, 3, 4, 5 and 7, with vertex 6 hung
      below 7: a tree of diameter 3 whose centre has five neighbours. */
  function Spider(): Graph
  {
    Graph(7, [(1, 2), (1, 3), (1, 4), (1, 5), (1, 7), (7, 6)])
  }

  /** The degrees of the spider. */
  lemma SpiderDegrees(g: Graph)
    requires g == Spider()
    ensures Valid(g)
    ensures Degrees(g) == [5, 1, 1, 1, 1, 1, 2]
  {
    var es := g.edges;
    EdgeStep(es, 0);
    EdgeStep(es, 1);
    EdgeStep(es, 2);
    EdgeStep(es, 3);
    EdgeStep(es, 4);
    EdgeStep(es, 5);
    assert es[..0] == [] && es[..6] == es;
    forall v | 0 <= v < 7 ensures Degrees(g)[v] == [5, 1, 1, 1, 1, 1, 2][v] {
      var x := v + 1;
      assert Occurrences(es[..1], x) == (if x == 1 || x == 2 then 1 else 0);
      assert Occurrences(es[..2], x) == (if x == 1 then 2 else if x == 2 || x == 3 then 1 else 0);
      assert Occurrences(es[..3], x) == (if x == 1 then 3 else if 2 <= x <= 4 then 1 else 0);
      assert Occurrences(es[..4], x) == (if x == 1 then 4 else if 2 <= x <= 5 then 1 else 0);
      assert Occurrences(es[..5], x) == (if x == 1 then 5 else if 2 <= x <= 5 || x == 7 then 1 else 0);
    }
  }

  /** The links the two searches walk along, read off the neighbour lists:
      towards the centre, and out of it. */
  lemma SpiderLinks(g: Graph)
    requires g == Spider()
    ensures Valid(g) && AdjValid(Neighbours(g)) && |Neighbours(g)| == 7
    ensures var adj := Neighbours(g);
            && 0 in adj[1] && 0 in adj[2] && 0 in adj[3] && 0 in adj[4] && 0 in adj[6] && 6 in adj[5]
            && 1 in adj[0] && 2 in adj[0] && 3 in adj[0] && 4 in adj[0] && 6 in adj[0] && 5 in adj[6]
  {
    NeighboursValid(g);
    SpiderLinksIn(g.edges);
    SpiderLinksOut(g.edges);
  }

  lemma SpiderLinksIn(es: seq<Edge>)
    requires es == Spider().edges
    ensures && 0 in NeighboursOf(es, 1) && 0 in NeighboursOf(es, 2) && 0 in NeighboursOf(es, 3)
            && 0 in NeighboursOf(es, 4) && 0 in NeighboursOf(es, 6) && 6 in NeighboursOf(es, 5)
  {
    SpiderLink(es, 1, 0);
    SpiderLink(es, 2, 0);
    SpiderLink(es, 3, 0);
    SpiderLink(es, 4, 0);
    SpiderLink(es, 6, 0);
    SpiderLink(es, 5, 6);
  }

  lemma SpiderLinksOut(es: seq<Edge>)
    requires es == Spider().edges
    ensures && 1 in NeighboursOf(es, 0) && 2 in NeighboursOf(es, 0) && 3 in NeighboursOf(es, 0)
            && 4 in NeighboursOf(es, 0) && 6 in NeighboursOf(es, 0) && 5 in NeighboursOf(es, 6)
  {
    SpiderLink(es, 0, 1);
    SpiderLink(es, 0, 2);
    SpiderLink(es, 0, 3);
    SpiderLink(es, 0, 4);
    SpiderLink(es, 0, 6);
    SpiderLink(es, 6, 5);
  }

  /** One link: an edge of the spider puts each end in the other's list. */
  lemma SpiderLink(es: seq<Edge>, v: int, w: int)
    requires es == Spider().edges
    requires (v + 1, w + 1) in es || (w + 1, v + 1) in es
    ensures w in NeighboursOf(es, v)
  {
    NeighboursMembers(es, v, w);
  }

  /** Every vertex lies within four steps of every other, so whatever vertex
      the first search ends on, the second search records no distance above 4. */
  lemma SpiderWithinFour(adj: seq<seq<int>>, e: int)
    requires AdjValid(adj) && |adj| == 7 && 0 <= e < 7
    requires && 0 in adj[1] && 0 in adj[2] && 0 in adj[3] && 0 in adj[4] && 0 in adj[6] && 6 in adj[5]
             && 1 in adj[0] && 2 in adj[0] && 3 in adj[0] && 4 in adj[0] && 6 in adj[0] && 5 in adj[6]
    ensures forall u :: 0 <= u < 7 ==> 0 <= BfsFrom(adj, e).dist[u] <= 4
  {
    BfsClosed(adj, e);
    var dist := BfsFrom(adj, e).dist;
    assert 0 <= dist[0] <= 2 by {
      if e == 5 {
        assert dist[6] <= 1;
      }
    }
  }

  /** The spider passes none of the earlier tests and has n - 1 edges, so the
      all-different cascade answers half its diameter: at most 2. */
  lemma SpiderEstimate(g: Graph)
    requires g == Spider()
    ensures Valid(g)
    ensures Estimate(g).Some? && 0 <= Estimate(g).value <= 2
  {
    SpiderDegrees(g);
    SpiderLinks(g);
    var adj := Neighbours(g);
    var deg := Degrees(g);
    assert !AllEqual(deg, 6) by {
      assert deg[1] == 1;
    }
    assert Count(deg, 1) == 5 by {
      var ones := [5, 1, 1, 1, 1, 1, 2];
      assert forall i :: 1 <= i <= 7 ==> ones[..i][..i - 1] == ones[..i - 1];
      assert Count(ones[..1], 1) == 0;
      assert Count(ones[..2], 1) == 1;
      assert Count(ones[..3], 1) == 2;
      assert Count(ones[..4], 1) == 3;
      assert Count(ones[..5], 1) == 4;
      assert Count(ones[..6], 1) == 5;
      assert ones[..7] == ones;
    }
    CountAll(deg, 2);
    assert deg[0] == 5;
    var e := Bfs(adj, 0).1;
    BfsFarthest(adj, 0);
    BfsFarthest(adj, e);
    SpiderWithinFour(adj, e);
    assert Estimate(g) == Some(TreeBound(g));
  }

  /** The centre has five distinct neighbours, and around a cycle of 7 only
      four labels lie within distance 2 of a label: no labelling meets 2. */
  lemma SpiderNotTwo(g: Graph, k: int)
    requires g == Spider() && 0 <= k <= 2
    ensures Valid(g)
    ensures !Feasible(g, k)
  {
    SpiderDegrees(g);
    var nbrs := [2, 3, 4, 5, 7];
    assert Adjacent(g, 1, 2) && Adjacent(g, 1, 3) && Adjacent(g, 1, 4) && Adjacent(g, 1, 5) && Adjacent(g, 1, 7);
    NeighbourhoodBound(g, 1, nbrs, k);
  }

  /** Fed the tree branch's estimate, the all-different front-end reports that
      no labelling exists, while n / 2 = 3 is met. */
  lemma SpiderAlldiff(g: Graph)
    requires g == Spider()
    ensures Valid(g)
    ensures Run(g) == Some(NoLabelling)
    ensures FeasibleFromOne(g, 3)
  {
    SpiderEstimate(g);
    SpiderNotTwo(g, Estimate(g).value);
    FeasibleIffFromOne(g, Estimate(g).value);
    RunMeaning(g);
    assert SafeBound(g) == 3;
  }

  // ---------------------------------------------------- the complete graphs

  /** The edges (i, j) with 1 <= i < j <= n, grouped by their larger end. */
  function Complete(n: nat): (es: seq<Edge>)
    ensures forall e :: e in es ==> 1 <= e.0 < e.1 <= n
  {
    if n == 0 then [] else Complete(n - 1) + seq(n - 1, i => (i + 1, n))
  }

  lemma {:induction false} CompleteMembers(n: nat, a: int, b: int)
    ensures (a, b) in Complete(n) <==> 1 <= a < b <= n
  {
    if n > 0 {
      CompleteMembers(n - 1, a, b);
      if b == n && 1 <= a < b {
        assert seq(n - 1, i => (i + 1, n))[a - 1] == (a, b);
      }
    }
  }

  /** The complete graph on n vertices. */
  function Clique(n: nat): Graph
  {
    Graph(n, Complete(n))
  }

  /** On 8 or 9 vertices, every labelling puts labels 1 and 5, at cyclic
      distance 4, on two vertices a < b. */
  lemma FarPair(n: nat, lab: seq<int>) returns (a: int, b: int)
    requires 8 <= n <= 9 && IsLabelling(n, lab)
    ensures 1 <= a < b <= n && Dist(n, lab[a - 1], lab[b - 1]) == 4
  {
    LabellingIsOnto(n, lab, 1);
    LabellingIsOnto(n, lab, 5);
    var v :| 0 <= v < n && lab[v] == 1;
    var w :| 0 <= w < n && lab[w] == 5;
    assert Dist(n, 1, 5) == 4 && Dist(n, 5, 1) == 4;
    if v < w {
      a, b := v + 1, w + 1;
    } else {
      a, b := w + 1, v + 1;
    }
  }

  /** The complete graph joins every such pair, so no labelling keeps it within
      3; the identity keeps it within 4. */
  lemma CliqueBandwidth(n: nat)
    requires 8 <= n <= 9
    ensures Valid(Clique(n))
    ensures !FeasibleFromOne(Clique(n), 3) && FeasibleFromOne(Clique(n), 4)
  {
    var g := Clique(n);
    HalfIsFeasible(g);
    forall lab | IsLabelling(n, lab) ensures !WithinBound(g, lab, 3) {
      var a, b := FarPair(n, lab);
      CompleteMembers(n, a, b);
      assert (a, b) in g.edges;
    }
  }

  /** The permutation probe on the complete graph with 8 or 9 vertices is
      UNSAT at 3 and SAT from 4 on, in particular at 6. */
  lemma CliqueProbe(n: nat)
    requires 8 <= n <= 9
    ensures PermProbe(Clique(n), 3).None? && PermProbe(Clique(n), 6).Some?
    ensures forall k :: k >= 4 ==> PermProbe(Clique(n), k).Some?
  {
    var g := Clique(n);
    CliqueBandwidth(n);
    PermProbeMeaning(g, 3);
    var lab :| IsLabelling(n, lab) && lab[0] == 1 && WithinBound(g, lab, 4);
    forall k | k >= 4 ensures PermProbe(g, k).Some? {
      PermProbeMeaning(g, k);
      assert WithinBound(g, lab, k);
    }
  }

  /** Hence the written permutation search on K8 or K9 never ends, whatever the fuel. */
  lemma CliqueSearchDiverges(n: nat, fuel: nat)
    requires 8 <= n <= 9
    ensures PermSearch((k: int) => PermProbe(Clique(n), k), n, fuel) == None
  {
    CliqueProbe(n);
    PermSearchDiverges((k: int) => PermProbe(Clique(n), k), n, fuel);
  }
}

=== FILE: permutations.dfy ===
/**
  The permutation front-end. A probe for bound k asks the constraint solver
  for a tuple from the list of all permutations of 1..n that start with 1,
  such that every edge (u, v) sends the labels (t[u-1], t[v-1]) to a pair of
  the allowed-pair list: distinct labels at cyclic distance at most k. The
  search over k uses the probe point kLow + kHigh / 2.
 */
module Permutations {
  import opened Wrappers
  import opened Cyclic
  import opened Graphs
  import opened Search

  type Pair = (int, int)

  // ---------------------------------------------------------- allowed pairs

  /** The pairs (i, j) for labels j..n, in the comprehension's order. */
  function AllowedRow(n: int, k: int, i: int, j: int): seq<Pair>
    decreases n + 1 - j
  {
    if j > n then []
    else (if i != j && Dist(n, i, j) <= k then [(i, j)] else []) + AllowedRow(n, k, i, j + 1)
  }

  function AllowedFrom(n: int, k: int, i: int): seq<Pair>
    decreases n + 1 - i
  {
    if i > n then [] else AllowedRow(n, k, i, 1) + AllowedFrom(n, k, i + 1)
  }

  /** The allowed label pairs for bound k. */
  function AllowedPairs(n: int, k: int): seq<Pair>
  {
    AllowedFrom(n, k, 1)
  }

  lemma {:induction false} AllowedRowMembers(n: int, k: int, i: int, j: int, p: Pair)
    ensures p in AllowedRow(n, k, i, j) <==> p.0 == i && j <= p.1 <= n && p.0 != p.1 && Dist(n, p.0, p.1) <= k
    decreases n + 1 - j
  {
    if j <= n {
      AllowedRowMembers(n, k, i, j + 1, p);
    }
  }

  lemma {:induction false} AllowedFromMembers(n: int, k: int, i: int, p: Pair)
    ensures p in AllowedFrom(n, k, i) <==> i <= p.0 <= n && 1 <= p.1 <= n && p.0 != p.1 && Dist(n, p.0, p.1) <= k
    decreases n + 1 - i
  {
    if i <= n {
      AllowedRowMembers(n, k, i, 1, p);
      AllowedFromMembers(n, k, i + 1, p);
    }
  }

  /** (i, j) is allowed exactly when both are labels, they differ, and their cyclic distance is at most k. */
  lemma AllowedPairsMembers(n: int, k: int, i: int, j: int)
    ensures (i, j) in AllowedPairs(n, k) <==> 1 <= i <= n && 1 <= j <= n && i != j && Dist(n, i, j) <= k
  {
    AllowedFromMembers(n, k, 1, (i, j));
  }

  /** The list is symmetric. */
  lemma AllowedPairsSymmetric(n: int, k: int, i: int, j: int)
    ensures (i, j) in AllowedPairs(n, k) <==> (j, i) in AllowedPairs(n, k)
  {
    AllowedPairsMembers(n, k, i, j);
    AllowedPairsMembers(n, k, j, i);
    DistSymmetric(n, i, j);
  }

  /** The list grows with k. */
  lemma AllowedPairsGrow(n: int, k: int, k': int, i: int, j: int)
    requires k <= k'
    ensures (i, j) in AllowedPairs(n, k) ==> (i, j) in AllowedPairs(n, k')
  {
    AllowedPairsMembers(n, k, i, j);
    AllowedPairsMembers(n, k', i, j);
  }

  // ----------------------------------------------------------- permutations

  function Fact(n: nat): nat
  {
    if n == 0 then 1 else n * Fact(n - 1)
  }

  /** The labels a..b in increasing order. */
  function Range(a: int, b: int): (r: seq<int>)
    ensures |r| == if b >= a then b - a + 1 else 0
    ensures forall t :: 0 <= t < |r| ==> r[t] == a + t
    decreases b - a + 1
  {
    if b < a then [] else [a] + Range(a + 1, b)
  }

  function RemoveAt(s: seq<int>, i: int): seq<int>
    requires 0 <= i < |s|
  {
    s[..i] + s[i + 1..]
  }

  /** Puts x in front of every sequence of ps. */
  function Prepend(x: int, ps: seq<seq<int>>): (r: seq<seq<int>>)
    ensures |r| == |ps|
    ensures forall t :: 0 <= t < |ps| ==> r[t] == [x] + ps[t]
  {
    seq(|ps|, t requires 0 <= t < |ps| => [x] + ps[t])
  }

  /** All orderings of s, in the order the standard library produces them:
      first those starting with s[0], then with s[1], and so on. */
  function Orderings(s: seq<int>): (ps: seq<seq<int>>)
    ensures |ps| == Fact(|s|)
    decreases |s|, 1
  {
    if |s| == 0 then [[]] else OrderingsFrom(s, 0)
  }

  /** The orderings of s whose first element is s[i] or a later element of s. */
  function OrderingsFrom(s: seq<int>, i: int): (ps: seq<seq<int>>)
    requires 1 <= |s| && 0 <= i <= |s|
    ensures |ps| == (|s| - i) * Fact(|s| - 1)
    decreases |s|, 0, |s| - i
  {
    if i == |s| then []
    else
      var head := Prepend(s[i], Orderings(RemoveAt(s, i)));
      var rest := OrderingsFrom(s, i + 1);
      assert |head| + |rest| == (|s| - i) * Fact(|s| - 1) by {
        assert (|s| - i) * Fact(|s| - 1) == Fact(|s| - 1) + (|s| - (i + 1)) * Fact(|s| - 1);
      }
      head + rest
  }

  predicate Distinct(s: seq<int>)
  {
    forall a, b :: 0 <= a < b < |s| ==> s[a] != s[b]
  }

  lemma RemoveAtFacts(s: seq<int>, i: int)
    requires 0 <= i < |s|
    ensures forall x :: x in RemoveAt(s, i) ==> x in s
    ensures Distinct(s) ==> Distinct(RemoveAt(s, i)) && s[i] !in RemoveAt(s, i)
    ensures forall x :: x in s && x != s[i] ==> x in RemoveAt(s, i)
  {
    var r := RemoveAt(s, i);
    assert forall t :: 0 <= t < |r| ==> r[t] == if t < i then s[t] else s[t + 1];
    forall x | x in s && x != s[i] ensures x in r {
      var t :| 0 <= t < |s| && s[t] == x;
      if t < i { assert r[t] == x; } else { assert r[t - 1] == x; }
    }
  }

  /** The member t of the orderings starting at block i came from some block j >= i. */
  lemma {:induction false} OrderingsFromMembers(s: seq<int>, i: int, t: seq<int>)
    requires 1 <= |s| && 0 <= i <= |s|
    ensures t in OrderingsFrom(s, i) <==>
            exists j :: i <= j < |s| && |t| >= 1 && t[0] == s[j] && t[1..] in Orderings(RemoveAt(s, j))
    decreases |s| - i
  {
    if i < |s| {
      OrderingsFromMembers(s, i + 1, t);
      var head := Prepend(s[i], Orderings(RemoveAt(s, i)));
      assert t in OrderingsFrom(s, i) <==> t in head || t in OrderingsFrom(s, i + 1);
      if t in head {
        var q :| 0 <= q < |head| && head[q] == t;
        assert t[1..] == Orderings(RemoveAt(s, i))[q];
      }
      if |t| >= 1 && t[0] == s[i] && t[1..] in Orderings(RemoveAt(s, i)) {
        var q :| 0 <= q < |Orderings(RemoveAt(s, i))| && Orderings(RemoveAt(s, i))[q] == t[1..];
        assert head[q] == t;
      }
    }
  }

  /** Every ordering of s has the length of s, takes its elements from s, and
      repeats none when s repeats none. */
  lemma {:induction false} OrderingsSound(s: seq<int>, t: seq<int>)
    requires t in Orderings(s)
    ensures |t| == |s|
    ensures forall x :: x in t ==> x in s
    ensures Distinct(s) ==> Distinct(t)
    decreases |s|
  {
    if |s| > 0 {
      OrderingsFromMembers(s, 0, t);
      var j :| 0 <= j < |s| && |t| >= 1 && t[0] == s[j] && t[1..] in Orderings(RemoveAt(s, j));
      OrderingsSound(RemoveAt(s, j), t[1..]);
      RemoveAtFacts(s, j);
      ConsFacts(t);
    }
  }

  /** A non-empty sequence is its head followed by its tail. */
  lemma ConsFacts(t: seq<int>)
    requires |t| >= 1
    ensures forall x :: x in t ==> x == t[0] || x in t[1..]
    ensures Distinct(t[1..]) && t[0] !in t[1..] ==> Distinct(t)
  {
    assert t == [t[0]] + t[1..];
    if Distinct(t[1..]) && t[0] !in t[1..] {
      forall a, b | 0 <= a < b < |t| ensures t[a] != t[b] {
        assert t[b] == t[1..][b - 1];
        if a > 0 {
          assert t[a] == t[1..][a - 1];
        }
      }
    }
  }

  /** Every repetition-free sequence of the right length drawn from a
      repetition-free s is one of its orderings. */
  lemma {:induction false} OrderingsComplete(s: seq<int>, t: seq<int>)
    requires Distinct(s) && Distinct(t) && |t| == |s|
    requires forall x :: x in t ==> x in s
    ensures t in Orderings(s)
    decreases |s|
  {
    if |s| == 0 {
      assert t == [];
    } else {
      assert t[0] in t;
      var j :| 0 <= j < |s| && s[j] == t[0];
      var r := RemoveAt(s, j);
      RemoveAtFacts(s, j);
      var u := t[1..];
      forall x | x in u ensures x in r {
        var q :| 0 <= q < |u| && u[q] == x;
        assert t[q + 1] == x;
      }
      OrderingsComplete(r, u);
      OrderingsFromMembers(s, 0, t);
    }
  }

  /** The list of tuples built once before the search: 1 followed by every
      ordering of 2..n. */
  function PermutationList(n: int): seq<seq<int>>
  {
    Prepend(1, Orderings(Range(2, n)))
  }

  /** Each tuple of the list has length n, starts with 1 and is a labelling of 1..n. */
  lemma ListMemberIsLabelling(n: int, t: seq<int>)
    requires n >= 1 && t in PermutationList(n)
    ensures IsLabelling(n, t) && t[0] == 1
  {
    var ps := PermutationList(n);
    var q :| 0 <= q < |ps| && ps[q] == t;
    var u := Orderings(Range(2, n))[q];
    OrderingOfRange(n, u);
    assert t == [1] + u;
    forall v | 0 <= v < |t| ensures 1 <= t[v] <= n {
      if v > 0 { assert t[v] == u[v - 1]; }
    }
    forall v, w | 0 <= v < w < |t| ensures t[v] != t[w] {
      assert t[w] == u[w - 1];
      if v > 0 { assert t[v] == u[v - 1]; }
    }
  }

  /** An ordering of 2..n has n - 1 distinct entries, each in 2..n. */
  lemma OrderingOfRange(n: int, u: seq<int>)
    requires n >= 1 && u in Orderings(Range(2, n))
    ensures |u| == n - 1 && Distinct(u)
    ensures forall v :: 0 <= v < |u| ==> 2 <= u[v] <= n
  {
    var rs := Range(2, n);
    assert Distinct(rs);
    OrderingsSound(rs, u);
    forall v | 0 <= v < |u| ensures 2 <= u[v] <= n {
      assert u[v] in u;
      var r :| 0 <= r < |rs| && rs[r] == u[v];
    }
  }

  /** The labels after the first of a labelling that starts with 1 are
      distinct and lie in 2..n. */
  lemma TailOfLabelling(n: int, t: seq<int>)
    requires n >= 1 && IsLabelling(n, t) && t[0] == 1
    ensures Distinct(t[1..]) && |t[1..]| == |Range(2, n)|
    ensures forall x :: x in t[1..] ==> x in Range(2, n)
  {
    var rs, u := Range(2, n), t[1..];
    forall x | x in u ensures x in rs {
      var q :| 0 <= q < |u| && u[q] == x;
      assert t[q + 1] == x && t[0] != t[q + 1];
      assert rs[x - 2] == x;
    }
    forall a, b | 0 <= a < b < |u| ensures u[a] != u[b] {
      assert u[a] == t[a + 1] && u[b] == t[b + 1];
    }
  }

  /** Every labelling of 1..n giving vertex 1 the label 1 is in the list. */
  lemma LabellingInList(n: int, t: seq<int>)
    requires n >= 1 && IsLabelling(n, t) && t[0] == 1
    ensures t in PermutationList(n)
  {
    var rs, u := Range(2, n), t[1..];
    assert Distinct(rs);
    TailOfLabelling(n, t);
    OrderingsComplete(rs, u);
    var os := Orderings(rs);
    var q :| 0 <= q < |os| && os[q] == u;
    assert PermutationList(n)[q] == [1] + u == t;
  }

  /** There are (n - 1)! tuples, and they are exactly the labellings of 1..n
      that give vertex 1 the label 1. */
  lemma PermutationListShape(n: int, t: seq<int>)
    requires n >= 1
    ensures |PermutationList(n)| == Fact(n - 1)
    ensures t in PermutationList(n) <==> IsLabelling(n, t) && t[0] == 1
  {
    if t in PermutationList(n) {
      ListMemberIsLabelling(n, t);
    }
    if IsLabelling(n, t) && t[0] == 1 {
      LabellingInList(n, t);
    }
  }

  // ------------------------------------------------------------- the probe

  /** No edge joins a vertex to itself. */
  predicate Loopless(g: Graph)
  {
    forall e :: e in g.edges ==> e.0 != e.1
  }

  /** The edge constraints of one probe hold of the tuple t. */
  predicate Accepts(g: Graph, k: int, t: seq<int>)
    requires Valid(g) && |t| == g.n
  {
    forall e :: e in g.edges ==> (t[e.0 - 1], t[e.1 - 1]) in AllowedPairs(g.n, k)
  }

  /** The first tuple of ts the constraints accept, as the solver's answer. */
  function FirstAccepted(g: Graph, k: int, ts: seq<seq<int>>): (r: Option<seq<int>>)
    requires Valid(g) && forall t :: t in ts ==> |t| == g.n
    ensures r.Some? ==> r.value in ts && Accepts(g, k, r.value)
    ensures r.None? <==> forall t :: t in ts ==> !Accepts(g, k, t)
    decreases |ts|
  {
    if |ts| == 0 then None
    else if Accepts(g, k, ts[0]) then Some(ts[0])
    else
      assert forall t :: t in ts <==> t == ts[0] || t in ts[1..];
      FirstAccepted(g, k, ts[1..])
  }

  lemma ListLengths(n: int)
    requires n >= 1
    ensures forall t :: t in PermutationList(n) ==> |t| == n
  {
    forall t | t in PermutationList(n) ensures |t| == n {
      PermutationListShape(n, t);
    }
  }

  /** One probe of the permutation front-end for bound k. */
  function PermProbe(g: Graph, k: int): Option<seq<int>>
    requires Valid(g) && g.n >= 1
  {
    ListLengths(g.n);
    FirstAccepted(g, k, PermutationList(g.n))
  }

  /** For a labelling, the constraints hold exactly when the graph has no loop
      and every edge stays within distance k. */
  lemma AcceptsMeaning(g: Graph, k: int, t: seq<int>)
    requires Valid(g) && IsLabelling(g.n, t)
    ensures Accepts(g, k, t) <==> Loopless(g) && WithinBound(g, t, k)
  {
    if Accepts(g, k, t) {
      forall e | e in g.edges ensures e.0 != e.1 && Dist(g.n, t[e.0 - 1], t[e.1 - 1]) <= k {
        AllowedPairsMembers(g.n, k, t[e.0 - 1], t[e.1 - 1]);
      }
    }
    if Loopless(g) && WithinBound(g, t, k) {
      forall e | e in g.edges ensures (t[e.0 - 1], t[e.1 - 1]) in AllowedPairs(g.n, k) {
        AllowedPairsMembers(g.n, k, t[e.0 - 1], t[e.1 - 1]);
      }
    }
  }

  /** A tuple the probe returns is a labelling giving vertex 1 the label 1 whose
      largest edge distance is at most k; and the probe succeeds exactly when
      the graph has no loop and such a labelling exists. */
  lemma PermProbeMeaning(g: Graph, k: int)
    requires Valid(g) && g.n >= 1
    ensures PermProbe(g, k).Some? ==>
              var t := PermProbe(g, k).value;
              IsLabelling(g.n, t) && t[0] == 1 && WithinBound(g, t, k)
    ensures PermProbe(g, k).Some? <==> Loopless(g) && FeasibleFromOne(g, k)
  {
    ListLengths(g.n);
    var ts := PermutationList(g.n);
    if PermProbe(g, k).Some? {
      var t := PermProbe(g, k).value;
      PermutationListShape(g.n, t);
      AcceptsMeaning(g, k, t);
    }
    if Loopless(g) && FeasibleFromOne(g, k) {
      var lab :| IsLabelling(g.n, lab) && g.n >= 1 && lab[0] == 1 && WithinBound(g, lab, k);
      PermutationListShape(g.n, lab);
      AcceptsMeaning(g, k, lab);
    }
  }

  /** Satisfiability of the probe is monotone in k. */
  lemma PermProbeMonotone(g: Graph)
    requires Valid(g) && g.n >= 1
    ensures Monotone((k: int) => PermProbe(g, k))
  {
    forall k, k' | k <= k' && PermProbe(g, k).Some? ensures PermProbe(g, k').Some? {
      PermProbeMeaning(g, k);
      PermProbeMeaning(g, k');
      var t := PermProbe(g, k).value;
      assert IsLabelling(g.n, t) && g.n >= 1 && t[0] == 1 && WithinBound(g, t, k');
    }
  }

  // ------------------------------------------------------------ the search

  /** The probe point as written: kLow + (kHigh // 2), not the midpoint. */
  function Probe(kLow: int, kHigh: int): int
  {
    kLow + kHigh / 2
  }

  /** One iteration, with the same updates as the binary search but the probe point above. */
  function PermStep<M>(probe: int -> Option<M>, w: Window<M>): Window<M>
  {
    match probe(w.k)
    case Some(_) => Window(w.kLow, w.k - 1, Probe(w.kLow, w.k - 1), w.k, probe(w.k), w.probes + 1)
    case None => Window(w.k + 1, w.kHigh, Probe(w.k + 1, w.kHigh), w.oldK, w.model, w.probes + 1)
  }

  /** The loop, run for at most fuel iterations; None when the fuel runs out. */
  function PermLoop<M>(probe: int -> Option<M>, w: Window<M>, fuel: nat): Option<Window<M>>
    decreases fuel
  {
    if !Running(w) then Some(w)
    else if fuel == 0 then None
    else PermLoop(probe, PermStep(probe, w), fuel - 1)
  }

  /** The search of the permutation front-end on n vertices: window [1, n / 2]. */
  function PermSearch<M>(probe: int -> Option<M>, n: nat, fuel: nat): Option<Outcome<M>>
  {
    match PermLoop(probe, Window(1, n / 2, Probe(1, n / 2), -1, None, 0), fuel)
    case None => None
    case Some(w) => Some(Outcome(w.oldK, w.model, w.k, w.probes))
  }

  /** The facts the written loop does keep: the probe is the written point and
      never below kLow; oldK is -1 with the initial kHigh until the first SAT
      and then sits just above the window with its model; the bound just below
      the window was UNSAT. Nothing keeps the probe at or below kHigh. */
  ghost predicate PermInvariant<M>(probe: int -> Option<M>, kHigh0: int, w: Window<M>)
  {
    && w.k == Probe(w.kLow, w.kHigh)
    && 1 <= w.kLow && 0 <= w.kHigh
    && (w.oldK == -1 ==> w.kHigh == kHigh0 && w.model == None)
    && (w.oldK != -1 ==> w.oldK == w.kHigh + 1 && probe(w.oldK).Some? && w.model == probe(w.oldK))
    && (w.kLow > 1 ==> probe(w.kLow - 1).None?)
  }

  lemma PermStepKeeps<M>(probe: int -> Option<M>, kHigh0: int, w: Window<M>)
    requires PermInvariant(probe, kHigh0, w) && Running(w)
    ensures PermInvariant(probe, kHigh0, PermStep(probe, w))
    ensures w.kLow <= w.k
  {
  }

  lemma {:induction false} PermLoopKeeps<M>(probe: int -> Option<M>, kHigh0: int, w: Window<M>, fuel: nat)
    requires PermInvariant(probe, kHigh0, w)
    ensures PermLoop(probe, w, fuel).Some? ==>
              PermInvariant(probe, kHigh0, PermLoop(probe, w, fuel).value) && !Running(PermLoop(probe, w, fuel).value)
    decreases fuel
  {
    if Running(w) && fuel > 0 {
      PermStepKeeps(probe, kHigh0, w);
      PermLoopKeeps(probe, kHigh0, PermStep(probe, w), fuel - 1);
    }
  }

  /** When the written search does stop on a monotone probe that holds at n / 2,
      it keeps the same bound as the binary search with the true midpoint. */
  lemma PermSearchAgrees<M>(probe: int -> Option<M>, n: nat, fuel: nat)
    ensures var r := PermSearch(probe, n, fuel);
            Monotone(probe) && n >= 2 && probe(n / 2).Some? && r.Some? ==>
              r.value.oldK == BinarySearch(probe, n / 2).oldK && r.value.model == BinarySearch(probe, n / 2).model
  {
    var w0 := Window(1, n / 2, Probe(1, n / 2), -1, None, 0);
    PermLoopKeeps(probe, n / 2, w0, fuel);
    BinarySearchFinds(probe, n / 2);
    var b := BinarySearch(probe, n / 2);
    if Monotone(probe) && n >= 2 && probe(n / 2).Some? && PermLoop(probe, w0, fuel).Some? {
      var w := PermLoop(probe, w0, fuel).value;
      assert forall k :: 1 <= k < w.kLow ==> probe(k).None?;
      assert w.oldK != -1;
      assert w.oldK == w.kLow <= n / 2;
    }
  }

  /** On a window [4, 5] whose probe 6 is SAT the written loop repeats itself. */
  lemma {:induction false} PermLoopStuck<M>(probe: int -> Option<M>, w: Window<M>, fuel: nat)
    requires w.kLow == 4 && w.kHigh == 5 && w.k == 6 && probe(6).Some?
    ensures PermLoop(probe, w, fuel) == None
    decreases fuel
  {
    if fuel > 0 {
      PermLoopStuck(probe, PermStep(probe, w), fuel - 1);
    }
  }

  /** On 8 or 9 vertices (initial window [1, 4]), a probe that is UNSAT at 3 and
      SAT at 6 makes the written search run forever: it probes 3, then 6 on the
      window [4, 4], then 6 again on [4, 5] at every later iteration. */
  lemma PermSearchDiverges<M>(probe: int -> Option<M>, n: nat, fuel: nat)
    requires n / 2 == 4 && probe(3).None? && probe(6).Some?
    ensures PermSearch(probe, n, fuel) == None
  {
    var w0 := Window(1, 4, Probe(1, 4), -1, None, 0);
    assert w0.k == 3;
    var w1 := PermStep(probe, w0);
    assert w1.kLow == 4 && w1.kHigh == 4 && w1.k == 6;
    var w2 := PermStep(probe, w1);
    if fuel == 1 {
      assert PermLoop(probe, w0, fuel) == PermLoop(probe, w1, 0);
    } else if fuel >= 2 {
      assert PermLoop(probe, w0, fuel) == PermLoop(probe, w2, fuel - 2);
      PermLoopStuck(probe, w2, fuel - 2);
    }
  }
}

=== FILE: pipeline.dfy ===
/**
  The three SAT front-ends end to end: build the probe formula for each
  bound, hand it to the solver, walk the bound with the front-end's search,
  and decode the last model into a vertex -> label map. The solver is a
  function parameter; OracleSound is the only thing assumed of it.
 */
module Pipeline {
  import opened Wrappers
  import opened Cyclic
  import opened Graphs
  import opened Cnf
  import opened StaticClauses
  import opened Encoding
  import opened Decoding
  import opened Search
  import opened Estimator

  /** The three front-ends: sequential-counter clauses with binary search,
      pairwise clauses with binary search, pairwise clauses with the
      decrementing search. */
  datatype FrontEnd = Chain | Pairwise | Linear

  /** The formula a front-end hands to the solver for bound k. */
  function ProbeFormula(front: FrontEnd, g: Graph, k: int): Formula
  {
    match front
    case Chain => ChainProbe(g, k)
    case Pairwise => PairwiseProbe(g, k)
    case Linear => LinearProbe(g, k)
  }

  /** Only the chain front-end drops ids above n² when decoding. */
  function Filtered(front: FrontEnd): bool
  {
    front == Chain
  }

  /** The search's view of the solver: bound k -> the model for k, if any. */
  function OracleProbe(oracle: Formula -> Option<seq<int>>, front: FrontEnd, g: Graph): int -> Option<seq<int>>
  {
    k => oracle(ProbeFormula(front, g, k))
  }

  // ------------------------------------------------ what one probe means

  /** A model of the decrementing front-end's formula decodes like a model of
      the pairwise one: the repeated unit clause changes nothing. */
  lemma LinearModelDecodes(g: Graph, k: int, m: seq<int>)
    requires Valid(g) && g.n >= 1 && k >= 0
    requires IsModelOf(m, LinearProbe(g, k))
    ensures var lab := LabellingOf(AssignmentOf(m), g.n);
            && DecodeModel(g.n, m, false) == AsMap(lab)
            && IsLabelling(g.n, lab) && lab[0] == 1 && WithinBound(g, lab, k)
  {
    var a := AssignmentOf(m);
    LinearProbeSameModels(g, k, a);
    PairwiseProbeSound(g, k, a);
    HoldsConcat(a, PairwiseStatic(g.n), DynamicClauses.Dynamic(g.n, k, g.edges));
    PairwiseStaticMeaning(a, g.n);
    DecodeMatrix(g.n, m);
    PairwiseProbesWithin(g, k);
    VarBoundAtMost(LinearProbe(g, k), g.n * g.n);
    NoFilterNeeded(g.n, m);
  }

  /** The labelling a model stands for. */
  function ModelLabelling(g: Graph, m: seq<int>): seq<int>
  {
    LabellingOf(AssignmentOf(m), g.n)
  }

  /** With a sound solver, a front-end's probe at bound k >= 0 answers exactly
      when the cyclic bandwidth is at most k, and its model decodes to a
      labelling that gives vertex 1 the label 1 and keeps every edge within k. */
  lemma OracleProbeMeaning(oracle: Formula -> Option<seq<int>>, front: FrontEnd, g: Graph, k: int)
    requires OracleSound(oracle) && Valid(g) && g.n >= 1 && k >= 0
    ensures OracleProbe(oracle, front, g)(k).Some? <==> Feasible(g, k)
    ensures OracleProbe(oracle, front, g)(k).Some? ==>
              var m := OracleProbe(oracle, front, g)(k).value;
              var lab := ModelLabelling(g, m);
              && DecodeModel(g.n, m, Filtered(front)) == AsMap(lab)
              && IsLabelling(g.n, lab) && lab[0] == 1 && WithinBound(g, lab, k)
  {
    var f := ProbeFormula(front, g, k);
    match front
    case Chain =>
      ChainProbeIff(g, k);
      if oracle(f).Some? {
        ChainModelDecodes(g, k, oracle(f).value);
      }
    case Pairwise =>
      PairwiseProbeIff(g, k);
      if oracle(f).Some? {
        PairwiseModelDecodes(g, k, oracle(f).value);
      }
    case Linear =>
      PairwiseProbeIff(g, k);
      if oracle(f).Some? {
        LinearModelDecodes(g, k, oracle(f).value);
        assert Holds(AssignmentOf(oracle(f).value), f);
      }
      if Satisfiable(PairwiseProbe(g, k)) {
        var a :| Holds(a, PairwiseProbe(g, k));
        LinearProbeSameModels(g, k, a);
      }
  }

  /** A sound solver answers exactly the satisfiable formulas. */
  lemma OracleAnswers(oracle: Formula -> Option<seq<int>>, f: Formula)
    requires OracleSound(oracle)
    ensures oracle(f).Some? <==> Satisfiable(f)
  {
    if oracle(f).Some? {
      assert Holds(AssignmentOf(oracle(f).value), f);
    }
  }

  /** With a sound solver every front-end's probe is monotone in the bound. */
  lemma OracleProbeMonotone(oracle: Formula -> Option<seq<int>>, front: FrontEnd, g: Graph)
    requires OracleSound(oracle)
    ensures Monotone(OracleProbe(oracle, front, g))
  {
    var probe := OracleProbe(oracle, front, g);
    forall k, k' | k <= k' && probe(k).Some? ensures probe(k').Some? {
      ProbesMonotone(g, k, k');
      OracleAnswers(oracle, ProbeFormula(front, g, k));
      OracleAnswers(oracle, ProbeFormula(front, g, k'));
    }
  }

  // ------------------------------------------------------------ the answer

  /** What a run prints: the bound it settled on and the decoded labels. */
  datatype Solution = Solution(bound: int, labels: map<int, int>)

  /** labels is the map of a labelling that gives vertex 1 the label 1 and
      keeps every edge within k. */
  ghost predicate Shows(g: Graph, labels: map<int, int>, k: int)
    requires Valid(g)
  {
    exists lab :: IsLabelling(g.n, lab) && g.n >= 1 && lab[0] == 1 && labels == AsMap(lab) && WithinBound(g, lab, k)
  }

  /** A binary-search front-end started on [1, kHigh0], with the exit test
      that the search's bookkeeping supports: None when no bound was SAT,
      otherwise the last SAT bound and its decoded model. */
  function Solve(oracle: Formula -> Option<seq<int>>, front: FrontEnd, g: Graph, kHigh0: int): Option<Solution>
    requires Valid(g) && g.n >= 1
  {
    var probe := OracleProbe(oracle, front, g);
    var r := BinarySearch(probe, kHigh0);
    if Fails(r) then None
    else
      BinarySearchFinds(probe, kHigh0);
      Some(Solution(r.oldK, DecodeModel(g.n, r.model.value, Filtered(front))))
  }

  /** With a sound solver, a binary-search front-end answers exactly when some
      bound in [1, kHigh0] is feasible, and then answers with the least such
      bound and a labelling meeting it. */
  lemma SolveCorrect(oracle: Formula -> Option<seq<int>>, front: FrontEnd, g: Graph, kHigh0: int)
    requires OracleSound(oracle) && Valid(g) && g.n >= 1
    ensures var r := Solve(oracle, front, g, kHigh0);
            && (r.None? <==> forall k :: 1 <= k <= kHigh0 ==> !Feasible(g, k))
            && (r.Some? ==> 1 <= r.value.bound <= kHigh0 && Shows(g, r.value.labels, r.value.bound))
            && (r.Some? ==> forall k :: 1 <= k < r.value.bound ==> !Feasible(g, k))
  {
    var probe := OracleProbe(oracle, front, g);
    OracleProbeMonotone(oracle, front, g);
    BinarySearchFinds(probe, kHigh0);
    forall k | 1 <= k <= kHigh0 ensures probe(k).Some? <==> Feasible(g, k) {
      OracleProbeMeaning(oracle, front, g, k);
    }
    var r := BinarySearch(probe, kHigh0);
    if !Fails(r) {
      OracleProbeMeaning(oracle, front, g, r.oldK);
      forall k | 1 <= k < r.oldK ensures !Feasible(g, k) {
        OracleProbeMeaning(oracle, front, g, k);
      }
    }
  }

  /** Started from the bound n / 2 that every graph meets, a binary-search
      front-end on two or more vertices always answers, and answers with the
      cyclic bandwidth (counted from 1: a graph without edges gets 1). */
  lemma SolveFindsBandwidth(oracle: Formula -> Option<seq<int>>, front: FrontEnd, g: Graph)
    requires OracleSound(oracle) && Valid(g) && g.n >= 2
    ensures var r := Solve(oracle, front, g, SafeBound(g));
            && r.Some? && Feasible(g, r.value.bound)
            && forall k :: 1 <= k < r.value.bound ==> !Feasible(g, k)
  {
    SolveCorrect(oracle, front, g, SafeBound(g));
    FeasibleIffFromOne(g, g.n / 2);
    var r := Solve(oracle, front, g, SafeBound(g));
    if r.Some? {
      var lab :| IsLabelling(g.n, lab) && lab[0] == 1 && r.value.labels == AsMap(lab) && WithinBound(g, lab, r.value.bound);
    }
  }

  // ------------------------------------------------------------- printing

  /** The CYCLIC_BANDWIDTH line: the largest cyclic distance over the edges,
      read through the label map. None where the line fails: an endpoint with
      no label, or no edges at all (the maximum of nothing). */
  function Printed(n: int, labels: map<int, int>, edges: seq<Edge>): Option<int>
    decreases |edges|
  {
    if |edges| == 0 then None
    else
      var e := edges[|edges| - 1];
      if e.0 !in labels || e.1 !in labels then None
      else
        var d := Dist(n, labels[e.0], labels[e.1]);
        if |edges| == 1 then Some(d)
        else
          match Printed(n, labels, edges[..|edges| - 1])
          case None => None
          case Some(r) => Some(if d > r then d else r)
  }

  /** Through the map of a labelling the printed line is the labelling's own
      largest edge distance. */
  lemma {:induction false} PrintedOfLabelling(n: int, lab: seq<int>, edges: seq<Edge>)
    requires forall t :: 0 <= t < |edges| ==> 1 <= edges[t].0 <= |lab| && 1 <= edges[t].1 <= |lab|
    ensures Printed(n, AsMap(lab), edges) == MaxDist(n, lab, edges)
    decreases |edges|
  {
    if |edges| > 0 {
      var e := edges[|edges| - 1];
      assert AsMap(lab)[e.0] == lab[e.0 - 1] && AsMap(lab)[e.1] == lab[e.1 - 1];
      PrintedOfLabelling(n, lab, edges[..|edges| - 1]);
    }
  }

  /** What a successful binary-search run prints: nothing (a failing maximum)
      exactly when there are no edges; otherwise a value no larger than the
      bound found, and equal to it unless every edge is a loop. */
  lemma SolvePrints(oracle: Formula -> Option<seq<int>>, front: FrontEnd, g: Graph, kHigh0: int)
    requires OracleSound(oracle) && Valid(g) && g.n >= 1
    ensures var r := Solve(oracle, front, g, kHigh0);
            r.Some? ==>
              var p := Printed(g.n, r.value.labels, g.edges);
              && (p.None? <==> |g.edges| == 0)
              && (p.Some? ==> 0 <= p.value <= r.value.bound && (p.value >= 1 ==> p.value == r.value.bound))
  {
    SolveCorrect(oracle, front, g, kHigh0);
    var r := Solve(oracle, front, g, kHigh0);
    if r.Some? {
      PrintedOfLeast(g, r.value.labels, r.value.bound);
    }
  }

  /** The printed line for the map of a labelling that meets bound, when no
      smaller positive bound is feasible. */
  lemma PrintedOfLeast(g: Graph, labels: map<int, int>, bound: int)
    requires Valid(g) && Shows(g, labels, bound)
    requires forall k :: 1 <= k < bound ==> !Feasible(g, k)
    ensures var p := Printed(g.n, labels, g.edges);
            && (p.None? <==> |g.edges| == 0)
            && (p.Some? ==> 0 <= p.value <= bound && (p.value >= 1 ==> p.value == bound))
  {
    var lab :| IsLabelling(g.n, lab) && g.n >= 1 && lab[0] == 1 && labels == AsMap(lab) && WithinBound(g, lab, bound);
    ValidInRange(g);
    PrintedOfLabelling(g.n, lab, g.edges);
    ReportedIsLeastBound(g, lab);
    MaxDistIsMax(g.n, lab, g.edges);
    var p := Printed(g.n, labels, g.edges);
    if p.Some? {
      assert WithinBound(g, lab, p.value);
      assert Feasible(g, p.value);
    }
  }

  // ------------------------------------------------------ the linear search

  /** The decrementing front-end: start at n / 2 and stop at the first UNSAT
      bound; None when the very first bound is UNSAT. */
  function SolveLinear(oracle: Formula -> Option<seq<int>>, g: Graph): Option<Solution>
    requires Valid(g) && g.n >= 1
  {
    var probe := OracleProbe(oracle, Linear, g);
    var r := LinearSearch(probe, g.n);
    if r.oldK == -1 then None
    else
      LinearSearchFinds(probe, g.n);
      Some(Solution(r.oldK, DecodeModel(g.n, r.model.value, false)))
  }

  /** With a sound solver the decrementing search on two or more vertices
      keeps a bound in [1, n / 2], SAT, below which nothing is feasible. */
  lemma LinearRunFinds(oracle: Formula -> Option<seq<int>>, g: Graph)
    requires OracleSound(oracle) && Valid(g) && g.n >= 2
    ensures var probe := OracleProbe(oracle, Linear, g);
            var r := LinearSearch(probe, g.n);
            && 1 <= r.oldK <= g.n / 2 && probe(r.oldK).Some? && r.model == probe(r.oldK)
            && forall k :: 1 <= k < r.oldK ==> !Feasible(g, k)
  {
    var probe := OracleProbe(oracle, Linear, g);
    OracleProbeMonotone(oracle, Linear, g);
    LinearSearchFinds(probe, g.n);
    HalfIsFeasible(g);
    FeasibleIffFromOne(g, g.n / 2);
    OracleProbeMeaning(oracle, Linear, g, g.n / 2);
    var r := LinearSearch(probe, g.n);
    forall k | 1 <= k < r.oldK ensures !Feasible(g, k) {
      OracleProbeMeaning(oracle, Linear, g, k);
    }
  }

  /** With a sound solver the decrementing front-end on two or more vertices
      always answers, and answers with the cyclic bandwidth (counted from 1). */
  lemma SolveLinearCorrect(oracle: Formula -> Option<seq<int>>, g: Graph)
    requires OracleSound(oracle) && Valid(g) && g.n >= 2
    ensures var r := SolveLinear(oracle, g);
            && r.Some? && 1 <= r.value.bound <= g.n / 2 && Shows(g, r.value.labels, r.value.bound)
            && forall k :: 1 <= k < r.value.bound ==> !Feasible(g, k)
  {
    LinearRunFinds(oracle, g);
    var r := LinearSearch(OracleProbe(oracle, Linear, g), g.n);
    OracleProbeMeaning(oracle, Linear, g, r.oldK);
    var lab := ModelLabelling(g, r.model.value);
    assert SolveLinear(oracle, g).value.labels == AsMap(lab);
  }

  // ------------------------------------------------- the run as written

  /** How a binary-search run as written ends: exit status 1, or the printed
      labels and CYCLIC_BANDWIDTH line. */
  datatype Run = ExitFailure | Prints(labels: map<int, int>, bandwidth: Option<int>)

  /** The run as written: the exit test looks at k, and when it does not fire
      the kept model, empty if no bound was SAT, is decoded and printed. */
  function RunAsWritten(oracle: Formula -> Option<seq<int>>, front: FrontEnd, g: Graph, kHigh0: int): Run
    requires Valid(g) && g.n >= 1
  {
    var r := BinarySearch(OracleProbe(oracle, front, g), kHigh0);
    if FailsAsWritten(r) then ExitFailure
    else
      var m := match r.model case Some(m) => m case None => [];
      var labels := DecodeModel(g.n, m, Filtered(front));
      Prints(labels, Printed(g.n, labels, g.edges))
  }

  /** When some bound in [1, kHigh0] is feasible, the run as written prints
      exactly what the corrected front-end answers: the two differ only when
      nothing is feasible. */
  lemma RunAsWrittenSucceeds(oracle: Formula -> Option<seq<int>>, front: FrontEnd, g: Graph, kHigh0: int)
    requires OracleSound(oracle) && Valid(g) && g.n >= 1
    requires exists k :: 1 <= k <= kHigh0 && Feasible(g, k)
    ensures var r := Solve(oracle, front, g, kHigh0);
            && r.Some?
            && RunAsWritten(oracle, front, g, kHigh0) == Prints(r.value.labels, Printed(g.n, r.value.labels, g.edges))
  {
    var k0 :| 1 <= k0 <= kHigh0 && Feasible(g, k0);
    SolveCorrect(oracle, front, g, kHigh0);
    var probe := OracleProbe(oracle, front, g);
    var r := BinarySearch(probe, kHigh0);
    BinarySearchFinds(probe, kHigh0);
    FailureMissedAsWritten(probe, kHigh0);
    assert !Fails(r) && !FailsAsWritten(r) && r.model.Some?;
    var labels := DecodeModel(g.n, r.model.value, Filtered(front));
    assert Solve(oracle, front, g, kHigh0) == Some(Solution(r.oldK, labels));
    assert RunAsWritten(oracle, front, g, kHigh0) == Prints(labels, Printed(g.n, labels, g.edges));
  }

  /** When no bound in [1, kHigh0] is feasible, the
      run as written neither exits with status 1 nor prints a bandwidth: it
      decodes an empty model and the printing fails. */
  lemma RunAsWrittenCrashes(oracle: Formula -> Option<seq<int>>, front: FrontEnd, g: Graph, kHigh0: int)
    requires OracleSound(oracle) && Valid(g) && g.n >= 1 && kHigh0 >= 0
    requires forall k :: 1 <= k <= kHigh0 ==> !Feasible(g, k)
    ensures RunAsWritten(oracle, front, g, kHigh0) == Prints(map[], None)
    ensures Solve(oracle, front, g, kHigh0) == None
  {
    SolveCorrect(oracle, front, g, kHigh0);
    var probe := OracleProbe(oracle, front, g);
    FailureMissedAsWritten(probe, kHigh0);
    FailureDetected(probe, kHigh0);
    assert DecodeModel(g.n, [], Filtered(front)) == map[];
  }
}

=== FILE: search.dfy ===
/**
  The drivers that walk the bound k. The SAT solver is abstracted as a probe:
  for every bound it returns the model found, or None when the formula built
  for that bound is unsatisfiable. The interesting results assume the probe is
  monotone: once a bound is satisfiable, every larger bound is too.
 */
module Search {
  import opened Wrappers

  /** Satisfiability is upward closed in the bound. */
  ghost predicate Monotone<M>(probe: int -> Option<M>)
  {
    forall k, k' :: k <= k' && probe(k).Some? ==> probe(k').Some?
  }

  /** What a driver leaves behind: the last satisfiable bound (-1 when there was
      none), the model kept for it, the final value of k, and the number of probes. */
  datatype Outcome<M> = Outcome(oldK: int, model: Option<M>, k: int, probes: nat)

  /** Number of halvings that take x to 0: floor(log2 x) + 1 for x > 0. */
  function Bits(x: nat): nat
  {
    if x == 0 then 0 else 1 + Bits(x / 2)
  }

  lemma {:induction false} BitsMonotone(x: nat, y: nat)
    requires x <= y
    ensures Bits(x) <= Bits(y)
    decreases y
  {
    if x > 0 {
      BitsMonotone(x / 2, y / 2);
    }
  }

  // ------------------------------------------------------------ binary search

  /** The loop state of the binary search: the window [kLow, kHigh], the next
      bound k, and the fields that end up in the Outcome. */
  datatype Window<M> = Window(kLow: int, kHigh: int, k: int, oldK: int, model: Option<M>, probes: nat)

  /** Python's floor division by 2 (Dafny's division agrees for a positive divisor). */
  function Mid(lo: int, hi: int): int
  {
    (lo + hi) / 2
  }

  /** The loop condition. */
  predicate Running<M>(w: Window<M>)
  {
    w.k >= 1 && w.kLow <= w.kHigh
  }

  /** Number of bounds left in the window. */
  function Width<M>(w: Window<M>): nat
  {
    if w.kLow <= w.kHigh then w.kHigh - w.kLow + 1 else 0
  }

  /** One iteration: on SAT keep the bound and its model and search below it,
      on UNSAT search above it; then probe the new midpoint. */
  function BinaryStep<M>(probe: int -> Option<M>, w: Window<M>): Window<M>
  {
    match probe(w.k)
    case Some(_) => Window(w.kLow, w.k - 1, Mid(w.kLow, w.k - 1), w.k, probe(w.k), w.probes + 1)
    case None => Window(w.k + 1, w.kHigh, Mid(w.k + 1, w.kHigh), w.oldK, w.model, w.probes + 1)
  }

  /** Every probe lies inside the current window. */
  lemma MidInWindow<M>(probe: int -> Option<M>, w: Window<M>)
    requires w.k == Mid(w.kLow, w.kHigh) && w.kLow <= w.kHigh
    ensures w.kLow <= w.k <= w.kHigh
    ensures Width(BinaryStep(probe, w)) <= Width(w) / 2
  {
  }

  function BinaryLoop<M>(probe: int -> Option<M>, w: Window<M>): Window<M>
    requires w.k == Mid(w.kLow, w.kHigh)
    decreases Width(w)
  {
    if Running(w) then BinaryLoop(probe, BinaryStep(probe, w)) else w
  }

  /** The binary search of the M3 front-ends, started on the window [1, kHigh0]. */
  function BinarySearch<M>(probe: int -> Option<M>, kHigh0: int): Outcome<M>
  {
    var w := BinaryLoop(probe, Window(1, kHigh0, Mid(1, kHigh0), -1, None, 0));
    Outcome(w.oldK, w.model, w.k, w.probes)
  }

  /** The loop invariant: k is the midpoint; the window never grows past its
      start and never inverts by more than one; oldK is -1 until the first SAT
      and afterwards sits just above the window, with its model; the bound just
      below the window was found UNSAT; and the probes made so far plus the
      halvings left fit in the halvings of the initial window. */
  ghost predicate BinaryInvariant<M>(probe: int -> Option<M>, kHigh0: int, w: Window<M>)
  {
    && w.k == Mid(w.kLow, w.kHigh)
    && 1 <= w.kLow && w.kHigh <= kHigh0
    && (kHigh0 >= 0 ==> w.kLow <= w.kHigh + 1)
    && (w.oldK == -1 ==> w.kHigh == kHigh0 && w.model == None)
    && (w.oldK != -1 ==> 1 <= w.oldK == w.kHigh + 1 <= kHigh0 && probe(w.oldK).Some? && w.model == probe(w.oldK))
    && (w.kLow > 1 ==> probe(w.kLow - 1).None?)
    && w.probes + Bits(Width(w)) <= Bits(if kHigh0 >= 0 then kHigh0 else 0)
  }

  lemma BinaryStepKeeps<M>(probe: int -> Option<M>, kHigh0: int, w: Window<M>)
    requires BinaryInvariant(probe, kHigh0, w) && Running(w)
    ensures BinaryInvariant(probe, kHigh0, BinaryStep(probe, w))
    ensures Width(BinaryStep(probe, w)) < Width(w)
  {
    var w' := BinaryStep(probe, w);
    MidInWindow(probe, w);
    BitsMonotone(Width(w'), Width(w) / 2);
  }

  lemma {:induction false} BinaryLoopKeeps<M>(probe: int -> Option<M>, kHigh0: int, w: Window<M>)
    requires BinaryInvariant(probe, kHigh0, w)
    ensures BinaryInvariant(probe, kHigh0, BinaryLoop(probe, w))
    ensures !Running(BinaryLoop(probe, w))
    decreases Width(w)
  {
    if Running(w) {
      BinaryStepKeeps(probe, kHigh0, w);
      BinaryLoopKeeps(probe, kHigh0, BinaryStep(probe, w));
    }
  }

  /** What the binary search delivers. Any bound it keeps was SAT and lies in
      [1, kHigh0], with its model; k never ends at -1 from a non-negative start;
      it makes at most floor(log2 kHigh0) + 1 probes; and for a monotone probe,
      oldK is the least satisfiable bound in [1, kHigh0], and -1 exactly when
      there is none. */
  lemma BinarySearchFinds<M>(probe: int -> Option<M>, kHigh0: int)
    ensures var r := BinarySearch(probe, kHigh0);
            && (r.oldK != -1 ==> 1 <= r.oldK <= kHigh0 && probe(r.oldK).Some? && r.model == probe(r.oldK))
            && (r.oldK == -1 ==> r.model == None)
            && (kHigh0 >= 0 ==> r.k >= 0)
            && r.probes <= Bits(if kHigh0 >= 0 then kHigh0 else 0)
            && (Monotone(probe) ==> (r.oldK == -1 <==> forall k :: 1 <= k <= kHigh0 ==> probe(k).None?))
            && (Monotone(probe) && r.oldK != -1 ==> forall k :: 1 <= k < r.oldK ==> probe(k).None?)
  {
    var w0 := Window(1, kHigh0, Mid(1, kHigh0), -1, None, 0);
    assert BinaryInvariant(probe, kHigh0, w0);
    BinaryLoopKeeps(probe, kHigh0, w0);
    var w := BinaryLoop(probe, w0);
    if Monotone(probe) && w.kLow > 1 {
      assert forall k :: 1 <= k < w.kLow ==> probe(k).None?;
    }
  }

  // ---------------------------------------------------- the "no solution" exit

  /** The exit test as written after the loop: fail only when k is -1. */
  predicate FailsAsWritten<M>(r: Outcome<M>)
  {
    r.k == -1
  }

  /** The test the loop's bookkeeping supports: no bound was found SAT. */
  predicate Fails<M>(r: Outcome<M>)
  {
    r.oldK == -1
  }

  /** From any non-negative initial bound the written test never fires, even
      when every probe was UNSAT: the front-end then goes on to decode an empty
      model. The estimator's answer 1 with no satisfiable bound is such a run. */
  lemma FailureMissedAsWritten<M>(probe: int -> Option<M>, kHigh0: int)
    requires kHigh0 >= 0
    ensures !FailsAsWritten(BinarySearch(probe, kHigh0))
    ensures (forall k :: probe(k).None?) ==> Fails(BinarySearch(probe, kHigh0))
  {
    BinarySearchFinds(probe, kHigh0);
  }

  /** The corrected test reports failure exactly when, for a monotone probe, no
      bound in [1, kHigh0] is satisfiable, and never loses a SAT bound otherwise. */
  lemma FailureDetected<M>(probe: int -> Option<M>, kHigh0: int)
    ensures Fails(BinarySearch(probe, kHigh0)) ==> BinarySearch(probe, kHigh0).model == None
    ensures Monotone(probe) ==> (Fails(BinarySearch(probe, kHigh0)) <==> forall k :: 1 <= k <= kHigh0 ==> probe(k).None?)
  {
    BinarySearchFinds(probe, kHigh0);
  }

  // ---------------------------------------------------------- linear search

  /** The decrementing search of the first M3 front-end from bound k: on SAT
      keep the model and go one lower unless k <= 1; stop at the first UNSAT. */
  function LinearLoop<M>(probe: int -> Option<M>, k: int, oldK: int, model: Option<M>, probes: nat): Outcome<M>
    decreases if k > 0 then k else 0
  {
    match probe(k)
    case None => Outcome(oldK, model, k, probes + 1)
    case Some(_) =>
      if k <= 1 then Outcome(k, probe(k), k, probes + 1)
      else LinearLoop(probe, k - 1, k, probe(k), probes + 1)
  }

  /** The linear search starts from n / 2 with no bound kept. */
  function LinearSearch<M>(probe: int -> Option<M>, n: nat): Outcome<M>
  {
    LinearLoop(probe, n / 2, -1, None, 0)
  }

  lemma {:induction false} LinearLoopFinds<M>(probe: int -> Option<M>, k: int, oldK: int, model: Option<M>, probes: nat)
    requires k >= 0
    requires oldK == -1 || (oldK == k + 1 && probe(oldK).Some? && model == probe(oldK))
    ensures var r := LinearLoop(probe, k, oldK, model, probes);
            && (r.oldK == -1 <==> oldK == -1 && probe(k).None?)
            && (r.oldK != -1 ==> r.oldK <= (if oldK == -1 then k else oldK) && probe(r.oldK).Some? && r.model == probe(r.oldK))
            && (r.oldK != -1 ==> r.oldK <= 1 || probe(r.oldK - 1).None?)
            && (r.oldK != -1 ==> forall k' :: r.oldK <= k' <= k ==> probe(k').Some?)
            && (r.oldK != -1 && k >= 1 ==> r.oldK >= 1)
            && r.probes <= probes + (if k >= 1 then k else 1)
    decreases if k > 0 then k else 0
  {
    if probe(k).Some? && k > 1 {
      LinearLoopFinds(probe, k - 1, k, probe(k), probes + 1);
    }
  }

  /** What the linear search delivers: oldK is -1 exactly when the first probe
      (at n / 2) was UNSAT; otherwise it is the last SAT bound, every bound from
      it up to n / 2 was SAT, and it is 1 or less or the bound below it was
      UNSAT, and from two vertices on it is at least 1; at most max(1, n / 2)
      probes are made; and for a monotone probe
      oldK is the least satisfiable bound among 1..n / 2. */
  lemma LinearSearchFinds<M>(probe: int -> Option<M>, n: nat)
    ensures var r := LinearSearch(probe, n);
            && (r.oldK == -1 <==> probe(n / 2).None?)
            && (r.oldK != -1 ==> r.oldK <= n / 2 && probe(r.oldK).Some? && r.model == probe(r.oldK))
            && (r.oldK != -1 ==> r.oldK <= 1 || probe(r.oldK - 1).None?)
            && (r.oldK != -1 ==> forall k :: r.oldK <= k <= n / 2 ==> probe(k).Some?)
            && (r.oldK != -1 && n >= 2 ==> r.oldK >= 1)
            && r.probes <= (if n / 2 >= 1 then n / 2 else 1)
            && (Monotone(probe) && r.oldK != -1 ==> forall k :: 1 <= k < r.oldK ==> probe(k).None?)
  {
    LinearLoopFinds(probe, n / 2, -1, None, 0);
    var r := LinearSearch(probe, n);
    if Monotone(probe) && r.oldK > 1 {
      assert forall k :: 1 <= k < r.oldK ==> probe(k).None?;
    }
  }
}

=== FILE: static_clauses.dfy ===
/**
  The k-independent part of the SAT encoding: every vertex gets a label,
  every label is used, at most one label per vertex and one vertex per label,
  and the symmetry-breaking unit clause x(1,1). Two interchangeable
  at-most-one encodings are modelled: pairwise and chain.
 */
module StaticClauses {
  import opened Cyclic
  import opened Cnf
  import opened Variables
  import opened AtMostOne

  /** x(i,1), ..., x(i,n): the labels of vertex i. */
  function Row(n: nat, i: int): (vs: seq<int>)
    ensures |vs| == n
  {
    seq(n, q => X(n, i, q + 1))
  }

  /** x(1,j), ..., x(n,j): the vertices carrying label j. */
  function Col(n: nat, j: int): (vs: seq<int>)
    ensures |vs| == n
  {
    seq(n, q => X(n, q + 1, j))
  }

  function SRow(n: nat, i: int): (ss: seq<int>)
    ensures |ss| == n
  {
    seq(n, q => S(n, i, q + 1))
  }

  function TCol(n: nat, j: int): (ts: seq<int>)
    ensures |ts| == n
  {
    seq(n, q => T(n, q + 1, j))
  }

  /** The n rows, the n columns and their auxiliary chains, in emission order. */
  function Rows(n: nat): (g: seq<seq<int>>)
    ensures |g| == n
  {
    seq(n, r => Row(n, r + 1))
  }

  function Cols(n: nat): (g: seq<seq<int>>)
    ensures |g| == n
  {
    seq(n, r => Col(n, r + 1))
  }

  function SRows(n: nat): (g: seq<seq<int>>)
    ensures |g| == n
  {
    seq(n, r => SRow(n, r + 1))
  }

  function TCols(n: nat): (g: seq<seq<int>>)
    ensures |g| == n
  {
    seq(n, r => TCol(n, r + 1))
  }

  predicate AllPositive(gs: seq<seq<int>>)
  {
    forall k :: 0 <= k < |gs| ==> Positive(gs[k])
  }

  /** Each group of aux variables is as long as its group of x variables. */
  predicate Matched(gs: seq<seq<int>>, aux: seq<seq<int>>)
  {
    |gs| == |aux| && forall k :: 0 <= k < |gs| ==> |gs[k]| == |aux[k]|
  }

  predicate AllExactlyOne(a: Assignment, gs: seq<seq<int>>)
  {
    forall k :: 0 <= k < |gs| ==> ExactlyOne(a, gs[k])
  }

  predicate AllPrefixFlags(a: Assignment, gs: seq<seq<int>>, aux: seq<seq<int>>)
    requires Matched(gs, aux)
  {
    forall k :: 0 <= k < |gs| ==> PrefixFlags(a, gs[k], aux[k])
  }

  lemma GridPositive(n: nat)
    ensures AllPositive(Rows(n)) && AllPositive(Cols(n)) && AllPositive(SRows(n)) && AllPositive(TCols(n))
    ensures Matched(Rows(n), SRows(n)) && Matched(Cols(n), TCols(n))
  {
    forall r, q | 0 <= r < n && 0 <= q < n
      ensures Rows(n)[r][q] > 0 && Cols(n)[r][q] > 0 && SRows(n)[r][q] > 0 && TCols(n)[r][q] > 0
    {
      FamilyRanges(n, r + 1, q + 1);
      FamilyRanges(n, q + 1, r + 1);
    }
  }

  /** Every row and every column holds exactly one true x: a permutation matrix. */
  predicate IsPermutationMatrix(a: Assignment, n: nat)
  {
    AllExactlyOne(a, Rows(n)) && AllExactlyOne(a, Cols(n))
  }

  /** A coverage clause followed by a gadget: exactly one when the gadget means at most one. */
  lemma Block(a: Assignment, vs: seq<int>, gadget: Formula)
    requires Positive(vs)
    requires Holds(a, gadget) <==> AtMostOneTrue(a, vs)
    ensures Holds(a, [vs] + gadget) <==> ExactlyOne(a, vs)
  {
    HoldsConcat(a, [vs], gadget);
    Coverage(a, vs);
    HoldsAll(a, [vs]);
  }

  lemma AllExactlyOneCons(a: Assignment, gs: seq<seq<int>>)
    requires |gs| > 0
    ensures AllExactlyOne(a, gs) <==> ExactlyOne(a, gs[0]) && AllExactlyOne(a, gs[1..])
  {
    if ExactlyOne(a, gs[0]) && AllExactlyOne(a, gs[1..]) {
      forall k | 0 <= k < |gs| ensures ExactlyOne(a, gs[k]) {
        if k > 0 {
          assert gs[k] == gs[1..][k - 1];
        }
      }
    }
  }

  // ---------------------------------------------------------------- pairwise

  /** Coverage clause then pairwise at-most-one clauses, group by group. */
  function PairwiseBlocks(gs: seq<seq<int>>): Formula
    decreases |gs|
  {
    if |gs| == 0 then [] else [gs[0]] + Pairwise(gs[0]) + PairwiseBlocks(gs[1..])
  }

  /** The static clause list of the pairwise front-ends, in emission order:
      vertex blocks, label blocks, then the symmetry-breaking unit clause. */
  function PairwiseStatic(n: nat): Formula
  {
    PairwiseBlocks(Rows(n)) + PairwiseBlocks(Cols(n)) + [[X(n, 1, 1)]]
  }

  lemma {:induction false} PairwiseBlocksMeaning(a: Assignment, gs: seq<seq<int>>)
    requires AllPositive(gs)
    ensures Holds(a, PairwiseBlocks(gs)) <==> AllExactlyOne(a, gs)
    decreases |gs|
  {
    if |gs| > 0 {
      assert Positive(gs[0]);
      PairwiseMeaning(a, gs[0]);
      Block(a, gs[0], Pairwise(gs[0]));
      assert AllPositive(gs[1..]) by {
        forall k | 0 <= k < |gs| - 1 ensures Positive(gs[1..][k]) {
          assert gs[1..][k] == gs[k + 1];
        }
      }
      PairwiseBlocksMeaning(a, gs[1..]);
      HoldsConcat(a, [gs[0]] + Pairwise(gs[0]), PairwiseBlocks(gs[1..]));
      AllExactlyOneCons(a, gs);
    }
  }

  /** The pairwise blocks mention only the variables of their groups. */
  lemma {:induction false} PairwiseBlocksWithin(gs: seq<seq<int>>, b: int)
    requires forall k, p :: 0 <= k < |gs| && 0 <= p < |gs[k]| ==> Abs(gs[k][p]) <= b
    ensures LiteralsWithin(PairwiseBlocks(gs), b)
    decreases |gs|
  {
    if |gs| > 0 {
      var vs := gs[0];
      assert forall c, l :: c in [vs] && l in c ==> Abs(l) <= b;
      PairsFromWithin(vs, 0, b);
      assert forall k, p :: 0 <= k < |gs| - 1 && 0 <= p < |gs[1..][k]| ==> gs[1..][k][p] == gs[k + 1][p];
      PairwiseBlocksWithin(gs[1..], b);
      LiteralsWithinConcat([vs], Pairwise(vs), b);
      LiteralsWithinConcat([vs] + Pairwise(vs), PairwiseBlocks(gs[1..]), b);
    }
  }

  /** Every x variable of the grid has id at most n². */
  lemma GridWithin(n: nat)
    ensures forall k, p :: 0 <= k < |Rows(n)| && 0 <= p < |Rows(n)[k]| ==> Abs(Rows(n)[k][p]) <= n * n
    ensures forall k, p :: 0 <= k < |Cols(n)| && 0 <= p < |Cols(n)[k]| ==> Abs(Cols(n)[k][p]) <= n * n
  {
    forall k, p | 0 <= k < n && 0 <= p < n
      ensures Abs(Rows(n)[k][p]) <= n * n && Abs(Cols(n)[k][p]) <= n * n
    {
      XRange(n, k + 1, p + 1);
      XRange(n, p + 1, k + 1);
    }
  }

  lemma UnitWithin(v: int, b: int)
    requires Abs(v) <= b
    ensures LiteralsWithin([[v]], b)
  {
    assert forall c, l :: c in [[v]] && l in c ==> l == v;
  }

  lemma StaticWithin(rows: seq<seq<int>>, cols: seq<seq<int>>, v: int, b: int)
    requires forall k, p :: 0 <= k < |rows| && 0 <= p < |rows[k]| ==> Abs(rows[k][p]) <= b
    requires forall k, p :: 0 <= k < |cols| && 0 <= p < |cols[k]| ==> Abs(cols[k][p]) <= b
    requires Abs(v) <= b
    ensures LiteralsWithin(PairwiseBlocks(rows) + PairwiseBlocks(cols) + [[v]], b)
  {
    PairwiseBlocksWithin(rows, b);
    PairwiseBlocksWithin(cols, b);
    LiteralsWithinConcat(PairwiseBlocks(rows), PairwiseBlocks(cols), b);
    UnitWithin(v, b);
    LiteralsWithinConcat(PairwiseBlocks(rows) + PairwiseBlocks(cols), [[v]], b);
  }

  /** The pairwise static set mentions only x variables: ids 1..n². */
  lemma PairwiseStaticWithin(n: nat)
    requires n >= 1
    ensures LiteralsWithin(PairwiseStatic(n), n * n)
  {
    GridWithin(n);
    XRange(n, 1, 1);
    StaticWithin(Rows(n), Cols(n), X(n, 1, 1), n * n);
  }

  /** The models of the pairwise static set are the permutation matrices with x(1,1) true. */
  lemma PairwiseStaticMeaning(a: Assignment, n: nat)
    requires n >= 1
    ensures Holds(a, PairwiseStatic(n)) <==> IsPermutationMatrix(a, n) && a(X(n, 1, 1))
  {
    var vertices := PairwiseBlocks(Rows(n));
    var labels := PairwiseBlocks(Cols(n));
    var x11 := X(n, 1, 1);
    GridPositive(n);
    PairwiseBlocksMeaning(a, Rows(n));
    PairwiseBlocksMeaning(a, Cols(n));
    HoldsConcat(a, vertices + labels, [[x11]]);
    HoldsConcat(a, vertices, labels);
    Unit(a, x11);
  }

  // ------------------------------------------------------------------- chain

  /** Coverage clause then chain at-most-one clauses, group by group. */
  function ChainBlocks(gs: seq<seq<int>>, aux: seq<seq<int>>): Formula
    requires Matched(gs, aux)
    decreases |gs|
  {
    if |gs| == 0 then []
    else
      assert Matched(gs[1..], aux[1..]) by {
        forall k | 0 <= k < |gs| - 1 ensures |gs[1..][k]| == |aux[1..][k]| {
          assert gs[1..][k] == gs[k + 1] && aux[1..][k] == aux[k + 1];
        }
      }
      [gs[0]] + Chain(gs[0], aux[0]) + ChainBlocks(gs[1..], aux[1..])
  }

  /** The static clause list of the chain front-end, in emission order. */
  function ChainStatic(n: nat): Formula
  {
    GridPositive(n);
    ChainBlocks(Rows(n), SRows(n)) + ChainBlocks(Cols(n), TCols(n)) + [[X(n, 1, 1)]]
  }

  lemma TailFacts(gs: seq<seq<int>>, aux: seq<seq<int>>)
    requires |gs| > 0 && Matched(gs, aux) && AllPositive(gs) && AllPositive(aux)
    ensures Matched(gs[1..], aux[1..]) && AllPositive(gs[1..]) && AllPositive(aux[1..])
    ensures |gs[0]| == |aux[0]| && Positive(gs[0]) && Positive(aux[0])
  {
    forall k | 0 <= k < |gs| - 1
      ensures gs[1..][k] == gs[k + 1] && aux[1..][k] == aux[k + 1]
    {
    }
  }

  lemma {:induction false} ChainBlocksSound(a: Assignment, gs: seq<seq<int>>, aux: seq<seq<int>>)
    requires Matched(gs, aux) && AllPositive(gs) && AllPositive(aux)
    requires Holds(a, ChainBlocks(gs, aux))
    ensures AllExactlyOne(a, gs)
    decreases |gs|
  {
    if |gs| > 0 {
      var vs, ss := gs[0], aux[0];
      TailFacts(gs, aux);
      var rest := ChainBlocks(gs[1..], aux[1..]);
      HoldsConcat(a, [vs] + Chain(vs, ss), rest);
      HoldsConcat(a, [vs], Chain(vs, ss));
      ChainSound(a, vs, ss);
      ChainMeaning(a, vs, ss);
      Block(a, vs, Chain(vs, ss));
      ChainBlocksSound(a, gs[1..], aux[1..]);
      AllExactlyOneCons(a, gs);
    }
  }

  lemma {:induction false} ChainBlocksComplete(a: Assignment, gs: seq<seq<int>>, aux: seq<seq<int>>)
    requires Matched(gs, aux) && AllPositive(gs) && AllPositive(aux)
    requires AllExactlyOne(a, gs) && AllPrefixFlags(a, gs, aux)
    ensures Holds(a, ChainBlocks(gs, aux))
    decreases |gs|
  {
    if |gs| > 0 {
      var vs, ss := gs[0], aux[0];
      TailFacts(gs, aux);
      var rest := ChainBlocks(gs[1..], aux[1..]);
      AllExactlyOneCons(a, gs);
      assert AllPrefixFlags(a, gs[1..], aux[1..]) by {
        forall k | 0 <= k < |gs| - 1 ensures PrefixFlags(a, gs[1..][k], aux[1..][k]) {
          assert gs[1..][k] == gs[k + 1] && aux[1..][k] == aux[k + 1];
        }
      }
      ChainBlocksComplete(a, gs[1..], aux[1..]);
      assert ExactlyOne(a, vs) && PrefixFlags(a, vs, ss);
      ChainComplete(a, vs, ss);
      ChainMeaning(a, vs, ss);
      Block(a, vs, Chain(vs, ss));
      HoldsConcat(a, [vs] + Chain(vs, ss), rest);
    }
  }

  /** Any model of the chain static set is a permutation matrix with x(1,1) true. */
  lemma ChainStaticSound(a: Assignment, n: nat)
    requires n >= 1
    requires Holds(a, ChainStatic(n))
    ensures IsPermutationMatrix(a, n) && a(X(n, 1, 1))
  {
    GridPositive(n);
    var vertices := ChainBlocks(Rows(n), SRows(n));
    var labels := ChainBlocks(Cols(n), TCols(n));
    var x11 := X(n, 1, 1);
    HoldsConcat(a, vertices + labels, [[x11]]);
    HoldsConcat(a, vertices, labels);
    ChainBlocksSound(a, Rows(n), SRows(n));
    ChainBlocksSound(a, Cols(n), TCols(n));
    Unit(a, x11);
  }

  /** The canonical values of the auxiliary variables: s(i,j) iff vertex i's
      label is at most j, t(i,j) iff label j sits on a vertex at most i. */
  ghost function Extend(n: nat, a: Assignment): Assignment
  {
    v =>
      if 1 <= v <= n * n || n == 0 then a(v)
      else if n * n < v <= 2 * (n * n) then
        var p := Locate(n, v - n * n);
        LabelAtMost(a, n, p.0, p.1)
      else if 2 * (n * n) < v <= 3 * (n * n) then
        var p := Locate(n, v - 2 * (n * n));
        VertexAtMost(a, n, p.0, p.1)
      else a(v)
  }

  /** Vertex i carries some label j' <= j. */
  ghost predicate LabelAtMost(a: Assignment, n: nat, i: int, j: int)
  {
    exists j' :: 1 <= j' <= j && a(X(n, i, j'))
  }

  /** Label j sits on some vertex i' <= i. */
  ghost predicate VertexAtMost(a: Assignment, n: nat, i: int, j: int)
  {
    exists i' :: 1 <= i' <= i && a(X(n, i', j))
  }

  /** The grid position of an x id found by repeated subtraction of n (a
      division-free companion of DecodeX, used only in proofs). */
  function Locate(n: nat, v: int): (p: (int, int))
    requires n >= 1
    decreases if v > n then v else 0
  {
    if v <= n then (1, v) else var p := Locate(n, v - n); (p.0 + 1, p.1)
  }

  lemma {:induction false} LocateX(n: nat, i: int, j: int)
    requires InGrid(n, i, j)
    ensures Locate(n, X(n, i, j)) == (i, j)
    decreases i
  {
    if i > 1 {
      assert X(n, i, j) - n == X(n, i - 1, j);
      LocateX(n, i - 1, j);
    }
  }

  lemma ExtendKeepsX(n: nat, a: Assignment, i: int, j: int)
    requires InGrid(n, i, j)
    ensures Extend(n, a)(X(n, i, j)) == a(X(n, i, j))
  {
    FamilyRanges(n, i, j);
  }

  lemma ExtendAtS(n: nat, a: Assignment, i: int, j: int)
    requires InGrid(n, i, j)
    ensures Extend(n, a)(S(n, i, j)) == LabelAtMost(a, n, i, j)
  {
    var v := S(n, i, j);
    var nn := n * n;
    FamilyRanges(n, i, j);
    LocateX(n, i, j);
    assert v - nn == X(n, i, j);
    assert nn < v <= 2 * nn;
  }

  lemma ExtendAtT(n: nat, a: Assignment, i: int, j: int)
    requires InGrid(n, i, j)
    ensures Extend(n, a)(T(n, i, j)) == VertexAtMost(a, n, i, j)
  {
    var v := T(n, i, j);
    var nn := n * n;
    FamilyRanges(n, i, j);
    LocateX(n, i, j);
    assert v - 2 * nn == X(n, i, j);
    assert 2 * nn < v <= 3 * nn;
  }

  lemma ExtendRow(n: nat, a: Assignment, i: int)
    requires 1 <= i <= n
    ensures ExactlyOne(Extend(n, a), Row(n, i)) == ExactlyOne(a, Row(n, i))
    ensures PrefixFlags(Extend(n, a), Row(n, i), SRow(n, i))
  {
    var e := Extend(n, a);
    var row := Row(n, i);
    var srow := SRow(n, i);
    forall q | 0 <= q < n ensures e(row[q]) == a(row[q]) {
      ExtendKeepsX(n, a, i, q + 1);
    }
    SameOn(e, a, row);
    forall q | 0 <= q < n
      ensures e(srow[q]) == LabelAtMost(a, n, i, q + 1)
    {
      ExtendAtS(n, a, i, q + 1);
    }
    RowPrefix(a, e, n, i, row, srow);
  }

  lemma RowPrefix(a: Assignment, e: Assignment, n: nat, i: int, row: seq<int>, srow: seq<int>)
    requires |row| == n && |srow| == n
    requires forall q :: 0 <= q < n ==> row[q] == X(n, i, q + 1)
    requires forall q :: 0 <= q < n ==> e(row[q]) == a(row[q])
    requires forall q :: 0 <= q < n ==> e(srow[q]) == LabelAtMost(a, n, i, q + 1)
    ensures PrefixFlags(e, row, srow)
  {
    forall q | 0 <= q < n
      ensures e(srow[q]) <==> exists p :: 0 <= p <= q && e(row[p])
    {
      if e(srow[q]) {
        var j' :| 1 <= j' <= q + 1 && a(X(n, i, j'));
        assert e(row[j' - 1]);
      }
      if exists p :: 0 <= p <= q && e(row[p]) {
        var p :| 0 <= p <= q && e(row[p]);
        assert a(X(n, i, p + 1));
      }
    }
  }

  lemma ExtendCol(n: nat, a: Assignment, j: int)
    requires 1 <= j <= n
    ensures ExactlyOne(Extend(n, a), Col(n, j)) == ExactlyOne(a, Col(n, j))
    ensures PrefixFlags(Extend(n, a), Col(n, j), TCol(n, j))
  {
    var e := Extend(n, a);
    var col := Col(n, j);
    var tcol := TCol(n, j);
    forall q | 0 <= q < n ensures e(col[q]) == a(col[q]) {
      ExtendKeepsX(n, a, q + 1, j);
    }
    SameOn(e, a, col);
    forall q | 0 <= q < n
      ensures e(tcol[q]) == VertexAtMost(a, n, q + 1, j)
    {
      ExtendAtT(n, a, q + 1, j);
    }
    ColPrefix(a, e, n, j, col, tcol);
  }

  lemma ColPrefix(a: Assignment, e: Assignment, n: nat, j: int, col: seq<int>, tcol: seq<int>)
    requires |col| == n && |tcol| == n
    requires forall q :: 0 <= q < n ==> col[q] == X(n, q + 1, j)
    requires forall q :: 0 <= q < n ==> e(col[q]) == a(col[q])
    requires forall q :: 0 <= q < n ==> e(tcol[q]) == VertexAtMost(a, n, q + 1, j)
    ensures PrefixFlags(e, col, tcol)
  {
    forall q | 0 <= q < n
      ensures e(tcol[q]) <==> exists p :: 0 <= p <= q && e(col[p])
    {
      if e(tcol[q]) {
        var i' :| 1 <= i' <= q + 1 && a(X(n, i', j));
        assert e(col[i' - 1]);
      }
      if exists p :: 0 <= p <= q && e(col[p]) {
        var p :| 0 <= p <= q && e(col[p]);
        assert a(X(n, p + 1, j));
      }
    }
  }

  /** Extend keeps every row's x values and sets the s chains to prefix flags. */
  lemma ExtendRows(n: nat, a: Assignment)
    ensures Matched(Rows(n), SRows(n))
    ensures AllExactlyOne(Extend(n, a), Rows(n)) == AllExactlyOne(a, Rows(n))
    ensures AllPrefixFlags(Extend(n, a), Rows(n), SRows(n))
  {
    GridPositive(n);
    forall r | 0 <= r < n
      ensures ExactlyOne(Extend(n, a), Rows(n)[r]) == ExactlyOne(a, Rows(n)[r])
      ensures PrefixFlags(Extend(n, a), Rows(n)[r], SRows(n)[r])
    {
      ExtendRow(n, a, r + 1);
    }
  }

  lemma ExtendCols(n: nat, a: Assignment)
    ensures Matched(Cols(n), TCols(n))
    ensures AllExactlyOne(Extend(n, a), Cols(n)) == AllExactlyOne(a, Cols(n))
    ensures AllPrefixFlags(Extend(n, a), Cols(n), TCols(n))
  {
    GridPositive(n);
    forall r | 0 <= r < n
      ensures ExactlyOne(Extend(n, a), Cols(n)[r]) == ExactlyOne(a, Cols(n)[r])
      ensures PrefixFlags(Extend(n, a), Cols(n)[r], TCols(n)[r])
    {
      ExtendCol(n, a, r + 1);
    }
  }

  /** Any permutation matrix with x(1,1) true, extended with the canonical s and t
      values, satisfies the chain static set. */
  lemma ChainStaticComplete(a: Assignment, n: nat)
    requires n >= 1
    requires IsPermutationMatrix(a, n) && a(X(n, 1, 1))
    ensures Holds(Extend(n, a), ChainStatic(n))
  {
    var e := Extend(n, a);
    GridPositive(n);
    var vertices := ChainBlocks(Rows(n), SRows(n));
    var labels := ChainBlocks(Cols(n), TCols(n));
    var x11 := X(n, 1, 1);
    ExtendRows(n, a);
    ExtendCols(n, a);
    ChainBlocksComplete(e, Rows(n), SRows(n));
    ChainBlocksComplete(e, Cols(n), TCols(n));
    ExtendKeepsX(n, a, 1, 1);
    Unit(e, x11);
    HoldsConcat(e, vertices, labels);
    HoldsConcat(e, vertices + labels, [[x11]]);
  }

  /** Both encodings have the same x-projections: every chain model is a pairwise
      model, and every pairwise model extends to a chain model agreeing on x. */
  lemma EncodingsAgree(a: Assignment, n: nat)
    requires n >= 1
    ensures Holds(a, ChainStatic(n)) ==> Holds(a, PairwiseStatic(n))
    ensures Holds(a, PairwiseStatic(n)) ==> Holds(Extend(n, a), ChainStatic(n))
  {
    PairwiseStaticMeaning(a, n);
    if Holds(a, ChainStatic(n)) {
      ChainStaticSound(a, n);
    }
    if Holds(a, PairwiseStatic(n)) {
      ChainStaticComplete(a, n);
    }
  }
}

=== FILE: variables.dfy ===
/**
  Boolean variable identifiers. `X(n, i, j)` says "vertex i has label j";
  the chain encoding adds `S(n, i, j)` ("vertex i's label is at most j") and
  `T(n, i, j)` ("label j sits on some vertex at most i"). For 1 <= i, j <= n
  the three families fill [1, n²], [n²+1, 2n²] and [2n²+1, 3n²].
 */
module Variables {
  import opened Wrappers

  predicate InGrid(n: int, i: int, j: int)
  {
    1 <= i <= n && 1 <= j <= n
  }

  function X(n: int, i: int, j: int): int
  {
    n * (i - 1) + j
  }

  function S(n: int, i: int, j: int): int
  {
    n * n + n * (i - 1) + j
  }

  function T(n: int, i: int, j: int): int
  {
    2 * n * n + n * (i - 1) + j
  }

  lemma MulZero(n: int, t: int)
    requires n >= 1 && -n < n * t < n
    ensures t == 0
  {
  }

  /** Euclidean division undoes `n * q + r` for a remainder 0 <= r < n. */
  lemma DivModUnique(n: int, q: int, r: int)
    requires n >= 1 && 0 <= r < n
    ensures (n * q + r) / n == q && (n * q + r) % n == r
  {
    var v := n * q + r;
    assert v == n * (v / n) + v % n;
    assert n * (q - v / n) == v % n - r;
    MulZero(n, q - v / n);
  }

  lemma XRange(n: int, i: int, j: int)
    requires InGrid(n, i, j)
    ensures 1 <= X(n, i, j) <= n * n
  {
    assert n * (i - 1) <= n * (n - 1) by {
      assert n * (n - 1) - n * (i - 1) == n * (n - i);
    }
  }

  /** Decoding of a true variable: the vertex is one more than the quotient
      of v - 1 by n and the label one more than the remainder, which inverts
      X on the whole range [1, n²]. */
  function DecodeX(n: int, v: int): (p: (int, int))
    requires n >= 1
    ensures 1 <= v <= n * n ==> InGrid(n, p.0, p.1) && X(n, p.0, p.1) == v
  {
    var q := (v - 1) / n;
    var r := (v - 1) % n;
    assert v - 1 == n * q + r;
    assert 1 <= v <= n * n ==> q < n;
    (q + 1, r + 1)
  }

  lemma DecodeAfterX(n: int, i: int, j: int)
    requires InGrid(n, i, j)
    ensures DecodeX(n, X(n, i, j)) == (i, j)
  {
    DivModUnique(n, i - 1, j - 1);
  }

  /** X is injective on the grid. */
  lemma XInjective(n: int, i: int, j: int, i': int, j': int)
    requires InGrid(n, i, j) && InGrid(n, i', j')
    requires X(n, i, j) == X(n, i', j')
    ensures i == i' && j == j'
  {
    DecodeAfterX(n, i, j);
    DecodeAfterX(n, i', j');
  }

  /** The three families occupy disjoint consecutive ranges, so they never collide. */
  lemma FamilyRanges(n: int, i: int, j: int)
    requires InGrid(n, i, j)
    ensures 1 <= X(n, i, j) <= n * n
    ensures n * n < S(n, i, j) <= 2 * (n * n)
    ensures 2 * (n * n) < T(n, i, j) <= 3 * (n * n)
    ensures S(n, i, j) == n * n + X(n, i, j) && T(n, i, j) == 2 * (n * n) + X(n, i, j)
  {
    XRange(n, i, j);
  }

  /** Decoding with the range filter of the chain front-end: only ids in
      (0, n²] are read as a (vertex, label) pair. */
  function DecodeFiltered(n: nat, v: int): (r: Option<(int, int)>)
    ensures r.Some? <==> 0 < v <= n * n
    ensures r.Some? ==> InGrid(n, r.value.0, r.value.1) && X(n, r.value.0, r.value.1) == v
  {
    if v > 0 && v <= n * n then
      assert n != 0;
      Some(DecodeX(n, v))
    else
      None
  }

  /** Decoding without the filter (pairwise front-ends): every positive id is decoded. */
  function DecodeUnfiltered(n: int, v: int): (r: Option<(int, int)>)
    requires n >= 1
    ensures r.Some? <==> v > 0
    ensures 0 < v <= n * n ==> r == DecodeFiltered(n, v)
  {
    if v > 0 then Some(DecodeX(n, v)) else None
  }

  /** Auxiliary chain variables are never mistaken for a (vertex, label) pair. */
  lemma AuxiliaryIdsIgnored(n: nat, i: int, j: int)
    requires InGrid(n, i, j)
    ensures DecodeFiltered(n, S(n, i, j)) == None
    ensures DecodeFiltered(n, T(n, i, j)) == None
    ensures DecodeFiltered(n, X(n, i, j)) == Some((i, j))
  {
    FamilyRanges(n, i, j);
    DecodeAfterX(n, i, j);
  }
}

=== FILE: wrappers.dfy ===
/** Optional values, used for decoded variables and oracle answers. */
module Wrappers {

  datatype Option<+T> = None | Some(value: T)
}
